=== FILE: README.md ===
# mcp-bridge core, modelled in Dafny

mcp-bridge exposes shell commands as MCP tools. A JSON configuration file
names the tools. Each tool gives a command template, a working directory,
two timeouts, an output-processing section and two result messages.

This project models the four core parts of the bridge:

- **Configuration loader.** `new ConfigLoader(path)` runs four steps on the
  parsed file:
  - a loose check (`validatePartialConfig`);
  - the defaults (`applyDefaults`);
  - the full check (`validateConfig`);
  - the default extractor patterns (`applyDefaultPatterns`).

  It then answers `getToolConfig` and `getToolNames`.
- **Process supervisor** (`executeProcess`). It races the command's exit
  against an inactivity timer and a total timer. The first event to resolve
  the promise decides the result. The captured output is sanitised by
  `stripAnsi`.
- **Output extractor.** It splits the normalised output into trimmed lines and
  files each line under `errors` and `warnings` by pattern.
- **Tool executor.** It fills `{{cwd}}` and parameter placeholders into the
  command, then turns a process result into a response text and an `isError`
  flag.

Modules:

| file | module |
|---|---|
| `wrappers.dfy` | `Option`, `Result` and the check outcome `Outcome` |
| `strings.dfy` | JavaScript `trim`, `split`, `join`, a global literal `replace`, `slice`, `parseInt` and `String(n)` on `seq<char>` |
| `json_values.dfy` | JSON values as `JSON.parse` produces them, with JavaScript truthiness, `typeof`, property reads and writes, `Object.keys` and `Object.values` |
| `config_validator.dfy` | `ConfigValidator` |
| `config_defaults.dfy` | `ConfigDefaultsApplier` |
| `config_loader.dfy` | `ConfigLoader` |
| `config_types.dfy` | the typed tool definition the executor reads |
| `process_executor.dfy` | `stripAnsi`, `normalizeLineEndings`, `ProcessState` and `executeProcess` |
| `output_extractor.dfy` | `OutputExtractor` |
| `tool_executor.dfy` | `ToolExecutor` |

How the code is written decides how it is modelled:

- **Pure code** becomes functions: the validators, the templates, the
  response wording and the string built-ins.
- **Loops that build a value** become methods, each proved equal to a
  specification function:
  - the line classifier;
  - the two pattern loops;
  - the template loop;
  - the two defaulting loops, which update the tools one field at a time;
  - the promise race.
- **The two classes with state** become Dafny classes:
  - `OutputExtractor`, with its configuration;
  - `ToolExecutor`, with its configuration and working directory.
- **The loader** is a class whose configuration is fixed once its static
  `Open` method has run the four steps.

The configuration code mutates the parsed JSON tree in place. That tree is
fresh from `JSON.parse`, but defaulting grafts shallow copies of `DEFAULTS`
into it, and their inner objects stay shared (see "## Left out"). Nothing
writes to a shared object after it is grafted, so the defaulting steps are
modelled as rewrites of the value, with each changed object written back
into its parent.

Main properties proved:

- **Full check.** The full check passes exactly on a declaratively stated
  well-formed registry:
  - each tool has non-empty strings, non-negative limits and a boolean
    `streamOutput`;
  - the extractor type is "gcc" or "custom", and "custom" needs patterns;
  - present patterns hold `errors` and `warnings` arrays;
  - parameters are typed, with defaults of the declared type.
- **Partial check.** The partial check passes exactly when every tool has a
  non-empty `description` and `command`. It tests nothing else, and it tests
  `description` first.
- **Error messages.** Both checks report the `tools` error for a missing or
  non-object `tools`. The timeout, extractor and parameter errors carry their
  own messages.
- **`applyDefaults`:**
  - it keeps what the file gives;
  - it fills `cwd` and the two messages when they are falsy;
  - it fills the limits, `streamOutput` and `formatOutput` only when they are
    `undefined`;
  - it never touches a key it does not default.
- **`applyDefaultPatterns`.** After `applyDefaults`, every extractor has
  patterns, so `applyDefaultPatterns` changes nothing. A tool that names no
  patterns therefore keeps the empty lists, even a "gcc" tool, as the
  repository's defaults test expects.
- **Loading.** A configuration that loads is well formed and keeps its tool
  names in order. A file whose tools give only a description and a command
  loads, with every other field taken from `DEFAULTS`.
- **`getToolConfig`** succeeds exactly for the names `getToolNames` lists.
  For any other name it fails with "Tool '<name>' not found in
  configuration".
- **Promise race.** The first resolving event wins. Exit code 0 is the only
  way to a normal state. A total timeout is only possible when the total
  limit is positive.
- **Extractor.** A line is filed under errors exactly when an error pattern
  matches its trimmed form, and the same holds for warnings. The two lists
  are independent, and each keeps input order.
- **Executor.** A timeout is always answered as a failure with its kill
  message. A clean run with no extracted lines gets the bare success
  message.

## Model

| member | source | states |
|---|---|---|
| Strings.Trim | src/outputExtractor.ts:30 | `trim` is never longer than its input and leaves no white space at either end |
| Strings.TrimBlank | src/outputExtractor.ts:30-31 | a line trims to nothing exactly when it is all white space, which is when `extract` skips it |
| Strings.TrimIdempotent | src/outputExtractor.ts:30 | trimming twice is trimming once |
| Strings.Split | src/outputExtractor.ts:21 | `split("\n")` gives at least one piece and no piece holds the separator |
| Strings.SplitThenJoin | src/outputExtractor.ts:21 | joining the pieces with the separator gives back the string |
| Strings.SplitAvoids | src/outputExtractor.ts:21 | a character absent from the string is absent from every piece |
| Strings.ReplaceAll | src/toolExecutor.ts:136 | a global literal replace leaves text without the pattern unchanged; ReplaceAllLeftmost states that a present occurrence is replaced |
| Strings.ReplaceAllLeftmost | src/toolExecutor.ts:136 | the leftmost occurrence is replaced, the text before it is kept, and the scan resumes right after it |
| Strings.ReplaceAllPrefix | src/toolExecutor.ts:136 | text in which no occurrence starts is kept, and the scan continues behind it |
| Strings.ReplaceAllSkips | src/toolExecutor.ts:136 | text without the pattern's first character is kept, and the scan continues behind it |
| Strings.ReplaceAllOnce | src/toolExecutor.ts:136 | a single occurrence between text that cannot start another is replaced, and nothing else changes |
| Strings.ReplaceAllLength | src/toolExecutor.ts:136-141 | each replacement changes the length by the difference of the replacement and the pattern |
| Strings.ReplaceAllRemovesChar | src/processExecutor.ts:10 | replacing a character by text without it leaves none of it |
| Strings.SliceFrom | src/toolExecutor.ts:197-199 | `slice(start)` returns a suffix, with the length JavaScript gives for negative and non-negative starts |
| Strings.NatToString | src/toolExecutor.ts:141 | `String(n)` for a natural number below 10^21 writes decimal digits with no leading zero |
| Strings.LeadingDigits | src/toolExecutor.ts:185-190 | `parseInt` reads the longest run of digits at the start |
| Strings.ParseIntOfIntToString | src/toolExecutor.ts:185-190 | `parseInt(String(n)) == n` for every integer below 10^21 in magnitude |
| Strings.ParseIntUnsigned | src/toolExecutor.ts:185-190 | text starting with a digit is read as an unsigned magnitude |
| Strings.ParseIntNegative | src/toolExecutor.ts:185-190 | a minus sign before a digit negates the magnitude |
| Strings.ParseInt | src/toolExecutor.ts:185-190 | `parseInt` without a radix: leading white space, one sign, a `0x` prefix, then the digit run, with `NaN` as `None`; ParseIntOfIntToString, ParseIntUnsigned and ParseIntNegative state its meaning |
| ProcessExecutor.ParameterRun | src/processExecutor.ts:3 | the parameter class `[0-9;]*` matches greedily: every character of the run belongs to the class, and the next one does not |
| ProcessExecutor.CsiAt | src/processExecutor.ts:3 | a match of the sanitiser's pattern is a complete ESC `[` parameters `m`/`K` sequence |
| ProcessExecutor.StripAnsi | src/processExecutor.ts:3-7 | the result is a subsequence of the input, and text without ESC is unchanged; StripAnsiPlainPrefix, StripAnsiDropsCsi and StripAnsiKeepsStrayEsc state it at every kind of position |
| ProcessExecutor.StripAnsiNeverLonger | src/processExecutor.ts:5-7 | sanitising never lengthens the output |
| ProcessExecutor.StripAnsiPlainPrefix | src/processExecutor.ts:5-7 | text without ESC passes through, and the scan continues behind it |
| ProcessExecutor.StripAnsiDropsCsi | src/processExecutor.ts:3-7 | a complete sequence at the front is deleted whatever follows it |
| ProcessExecutor.StripAnsiKeepsStrayEsc | src/processExecutor.ts:3-7 | an ESC that starts no complete sequence is kept, and the scan moves on by one character |
| ProcessExecutor.StripAnsiNotIdempotent | src/processExecutor.ts:3-7 | one pass can join two fragments into a new sequence, so a second pass changes the text again |
| ProcessExecutor.NormalizeLineEndings | src/processExecutor.ts:9-11 | the result has no carriage return, and text without one is unchanged |
| ProcessExecutor.NormalizeLineEndingsLength | src/processExecutor.ts:9-11 | each CRLF pair shrinks to one character and a bare CR keeps its place |
| ProcessExecutor.NormalizeLineEndingsIdempotent | src/processExecutor.ts:9-11 | normalising twice is normalising once |
| ProcessExecutor.NormalizeCrCrLf | src/processExecutor.ts:10 | CRLF is rewritten before a bare CR, so CR CR LF becomes two line feeds |
| ProcessExecutor.Resolution | src/processExecutor.ts:82-126 | every value passed to `resolve` has the settled shape: each timer's state carries its kill message, and an exit carries no error |
| ProcessExecutor.ResolutionStates | src/processExecutor.ts:82-126 | exit code 0 is the only way to NORMAL, a non-zero exit gives FAIL, and each timer gives its own state and message with the sanitised output |
| ProcessExecutor.Settle | src/processExecutor.ts:67-128 | the promise value is settled, and TIMEOUT_TOTAL needs a positive total limit |
| ProcessExecutor.FirstResolutionWins | src/processExecutor.ts:67-128 | the first resolving event decides, later events are ignored, and the output is everything captured before it |
| ProcessExecutor.ExecuteProcess | src/processExecutor.ts:60-129 | the callbacks' updates of the captured output and the first `resolve` give the promise value |
| OutputExtractor.Lines | src/outputExtractor.ts:21 | normalised and split output has at least one line and no line break inside a line |
| OutputExtractor.Candidates | src/outputExtractor.ts:29-31 | the non-blank trimmed lines are no more than the lines |
| OutputExtractor.Matching | src/outputExtractor.ts:34-47 | the lines some pattern matches are no more than the lines |
| OutputExtractor.ExtractSpec | src/outputExtractor.ts:20-51 | what `extract` returns: the matching candidates for errors and for warnings; the Extract lemmas below state its meaning |
| OutputExtractor.OutputExtractor.constructor | src/outputExtractor.ts:16-18 | the extractor keeps its output-processing configuration |
| OutputExtractor.OutputExtractor.Extract | src/outputExtractor.ts:20-51 | `extract` returns the errors and warnings of the specification of the classifier |
| OutputExtractor.ClassifyLines | src/outputExtractor.ts:29-48 | the loop files each non-blank trimmed line under errors when an error pattern matches it and, independently, under warnings |
| OutputExtractor.MatchesAny | src/outputExtractor.ts:34-39 | the inner loop with `break` finds a match exactly when some pattern matches |
| OutputExtractor.CandidatesSound | src/outputExtractor.ts:29-31 | every candidate is the non-empty trimmed form of some line |
| OutputExtractor.CandidatesComplete | src/outputExtractor.ts:29-31 | every line that is not blank contributes its trimmed form |
| OutputExtractor.CandidatesMembers | src/outputExtractor.ts:29-31 | a text is a candidate exactly when it is non-empty and some line trims to it |
| OutputExtractor.MatchingMembers | src/outputExtractor.ts:34-47 | a line is kept exactly when it is an input line that some pattern matches |
| OutputExtractor.MatchingInOrder | src/outputExtractor.ts:34-47 | the kept lines are a subsequence of the input |
| OutputExtractor.MatchingCount | src/outputExtractor.ts:33-47 | a matching line is kept as many times as it occurs, and a non-matching one never |
| OutputExtractor.MatchingNoPatterns | src/outputExtractor.ts:34-47 | with no pattern nothing is kept |
| OutputExtractor.ExtractEntriesAreLines | src/outputExtractor.ts:20-51 | every entry is a trimmed, non-blank line of the normalised output |
| OutputExtractor.ExtractMembership | src/outputExtractor.ts:29-47 | a line is an error exactly when an error pattern matches it, and likewise for warnings |
| OutputExtractor.ExtractBothLists | src/outputExtractor.ts:33-47 | a line matched by both kinds of pattern is in both lists |
| OutputExtractor.ExtractInOrder | src/outputExtractor.ts:29-50 | each list keeps input order, holds every matching non-blank line as often as it occurs and no other, and is no longer than the non-blank lines |
| OutputExtractor.ExtractNoPatterns | src/outputExtractor.ts:34-47 | an empty pattern list gives an empty list |
| OutputExtractor.ExtractBlankOutput | src/outputExtractor.ts:21-31 | output of white space only gives two empty lists |
| ToolExecutor.Placeholder | src/toolExecutor.ts:140 | a placeholder is the key inside double braces |
| ToolExecutor.Render | src/toolExecutor.ts:129-145 | `processTemplate`: `{{cwd}}` replaced first, then each parameter's placeholder in entry order; RenderParametersIdentity, RenderWithoutPlaceholders, RenderCwd, RenderOneParameter and RenderBuildExample state its meaning |
| ToolExecutor.DetermineFormattedOutput | src/toolExecutor.ts:215-233 | `determineFormattedOutput`; DetermineFormattedOutputCases states its three cases |
| ToolExecutor.SimpleOutput | src/toolExecutor.ts:235-272 | `determineSimpleOutput`; SimpleOutputShape states its cases |
| ToolExecutor.Respond | src/toolExecutor.ts:62-126 | the answer `execute` gives for a finished process; the Respond lemmas state its cases |
| ToolExecutor.HandleSpecialCases | src/toolExecutor.ts:147-162 | a special case is exactly a timeout state with `timeoutAsWarning` set |
| ToolExecutor.NonBlank | src/toolExecutor.ts:194-196 | the filter keeps only lines that do not trim to nothing |
| ToolExecutor.TailLines | src/toolExecutor.ts:197-199 | the tail is a suffix of the lines |
| ToolExecutor.ToolExecutor.constructor | src/toolExecutor.ts:31-41 | the executor keeps its tool definition and working directory |
| ToolExecutor.ToolExecutor.ProcessTemplate | src/toolExecutor.ts:129-145 | the replacement loop gives `{{cwd}}` replaced first, then each parameter in entry order |
| ToolExecutor.ToolExecutor.CreateFormattedOutput | src/toolExecutor.ts:164-213 | the collected sections and tail, worded by `determineFormattedOutput` |
| ToolExecutor.ToolExecutor.ConfiguredLogLines | src/toolExecutor.ts:184-191 | `logLines` is rendered and parsed only when it is set |
| ToolExecutor.ToolExecutor.DetermineSimpleOutput | src/toolExecutor.ts:235-272 | the leading message, the tail and the process error are appended in turn |
| ToolExecutor.ToolExecutor.Execute | src/toolExecutor.ts:43-127 | the response is the one for the process result of the rendered command and directory |
| ToolExecutor.RenderParametersIdentity | src/toolExecutor.ts:138-142 | text without `{{` is left unchanged by every replacement |
| ToolExecutor.RenderWithoutPlaceholders | src/toolExecutor.ts:129-145 | a template without placeholders is returned unchanged |
| ToolExecutor.PlaceholderHasNoCwd | src/toolExecutor.ts:136-140 | no `{{cwd}}` starts inside the placeholder of another key |
| ToolExecutor.PlaceholderKeepsCwd | src/toolExecutor.ts:136-140 | the `{{cwd}}` replacement leaves the placeholder of another key intact and continues behind it |
| ToolExecutor.RenderCwd | src/toolExecutor.ts:129-136 | `{{cwd}}` in a template without other braces is replaced by the working directory |
| ToolExecutor.RenderOneParameter | src/toolExecutor.ts:129-145 | a template with one parameter placeholder and one `{{cwd}}` renders with the value and the working directory in their places, and nothing else changes |
| ToolExecutor.RenderBuildExample | src/toolExecutor.ts:129-145 | `build {{target}} in {{cwd}}` with `target` set to `app` in `/tmp` renders as `build app in /tmp` |
| ToolExecutor.TailLinesCount | src/toolExecutor.ts:197-199 | a positive `logLines` keeps the last n lines, NaN or 0 keeps the last ten, and a negative value drops the first lines |
| ToolExecutor.TailLinesNonBlank | src/toolExecutor.ts:194-199 | the tail of non-blank lines is non-blank |
| ToolExecutor.LogSectionsLayout | src/toolExecutor.ts:172-181 | errors come under their header, then a blank line only after errors, then warnings under theirs, with the exact length |
| ToolExecutor.FormattedTextTail | src/toolExecutor.ts:193-202 | the raw tail is added only for a failure without extracted errors, and then it ends the text |
| ToolExecutor.FormattedTextNoLeadingBlank | src/toolExecutor.ts:170-202 | the collected text never opens with a blank line |
| ToolExecutor.DetermineFormattedOutputCases | src/toolExecutor.ts:215-233 | a failure is the error message, `": "` and the newline-joined text, or the no-details text when there is none; otherwise any text gives the success message, `" with WARNING: "` and the joined text, and no text gives the bare success message |
| ToolExecutor.SimpleOutputShape | src/toolExecutor.ts:235-272 | the text starts with the error message exactly for a failure, a run with no failure, special case or message is the bare success message, and a non-empty process error ends the text |
| ToolExecutor.SimpleOutputTail | src/toolExecutor.ts:241-264 | without a process error, the text is the leading message followed by `": "` and the newline-joined tail exactly when the run failed or is a special case and the tail is not empty, and otherwise the leading message alone |
| ToolExecutor.SimpleOutputMessage | src/toolExecutor.ts:266-269 | an empty process error adds nothing; any other is appended as `"\n\nERROR: "` and the message to the text without it |
| ToolExecutor.ErrorMessageAppended | src/toolExecutor.ts:266-269 | an error message is appended as a suffix, keeping the start |
| ToolExecutor.RespondErrorFirst | src/toolExecutor.ts:62-76 | a result with an error message is answered with that message alone, as a failure |
| ToolExecutor.RespondFlag | src/toolExecutor.ts:62-126 | `isError` is exactly a non-normal state, and a timeout is always a failure answered with its kill message |
| ToolExecutor.RespondCleanRun | src/toolExecutor.ts:85-105 | a clean run with no extracted lines gets the bare success message |
| ToolExecutor.CleanText | src/toolExecutor.ts:164-233 | no logs and no failure word the response as the bare success message |
| ToolExecutor.RespondSilentFailure | src/toolExecutor.ts:85-105 | a failure with blank output gets the error message and the no-details text |
| ToolExecutor.RespondFailureTail | src/toolExecutor.ts:85-106 | a failed run with nothing extracted answers, as a failure, with the error message, `": "` and the last lines of its output joined by newlines, or the no-details text when there are none |
| ToolExecutor.RespondWarningsOnly | src/toolExecutor.ts:85-106 | a run that exits 0 with warnings and no errors answers, not as a failure, with the success message "with WARNING" and the warning section |
| ToolExecutor.WarningsOnlyText | src/toolExecutor.ts:177-181 | with warnings only and no failure, the text is the success message "with WARNING" followed by the warning header and the warnings, one per line |
| ToolExecutor.RespondExtractedErrors | src/toolExecutor.ts:85-106 | extracted errors word the answer as a failure report headed by the error section, even after exit code 0, while `isError` follows the exit state alone |
| ToolExecutor.ErrorsText | src/toolExecutor.ts:172-225 | with extracted errors the text starts with the error message and the error header |
| ToolExecutor.SilentText | src/toolExecutor.ts:193-225 | a failure with no lines is worded as the error message and the no-details text |
| ToolExecutor.BlankOutputHasNoLines | src/toolExecutor.ts:194-196 | blank output has no non-blank line |
| ToolExecutor.NonBlankOfBlank | src/toolExecutor.ts:194-196 | the filter drops every blank line |
| JsValues.Put | src/configLoader.ts:262-319 | an assignment keeps the number of keys or adds one |
| JsValues.Write | src/configLoader.ts:262-319 | writing a property on an object leaves an object of the same kind |
| JsValues.KeysOf | src/configLoader.ts:364 | `Object.keys` lists every key in order |
| JsValues.ValuesOf | src/configLoader.ts:260 | `Object.values` lists every value in order |
| JsValues.LookupFound | src/configLoader.ts:356 | a key is found exactly when it is one of the keys, at its first binding, and an absent key reads as `undefined` |
| JsValues.LookupAt | src/configLoader.ts:356 | a present key reads the value stored at its index |
| JsValues.LookupTruthy | src/configLoader.ts:356-357 | among objects, a key is present exactly when its read is truthy |
| JsValues.LookupPut | src/configLoader.ts:262-319 | after an assignment the written key reads the new value and every other key reads what it did before |
| JsValues.KeysOfPut | src/configLoader.ts:262-319 | an assignment keeps the keys in order and adds a new key last |
| JsValues.PropAfterWrite | src/configLoader.ts:262-319 | reading after writing a property, for any key |
| JsValues.PutSame | src/configLoader.ts:323-333 | writing back the value a key holds changes nothing |
| ConfigValidator.FirstFailurePass | src/configLoader.ts:38-54 | a loop of checks passes exactly when every item passes |
| ConfigValidator.FirstFailureFirst | src/configLoader.ts:62-64 | a failing loop throws what its first failing item throws, and the items before it pass |
| ConfigValidator.ValidatePartialConfig | src/configLoader.ts:33-55 | `validatePartialConfig`; PartialConfigPass and UndescribedToolRejected state its meaning |
| ConfigValidator.ValidatePartialTool | src/configLoader.ts:38-54 | one iteration of the partial loop; PartialToolPass states its meaning |
| ConfigValidator.ValidateConfig | src/configLoader.ts:57-65 | `validateConfig`; ConfigPass states its meaning |
| ConfigValidator.ValidateToolConfig | src/configLoader.ts:67-162 | `validateToolConfig`; ToolConfigPass states its meaning |
| ConfigValidator.ValidateResultFormatAndParameters | src/configLoader.ts:127-161 | the result-format and parameter part of `validateToolConfig`; ResultFormatAndParametersPass states its meaning |
| ConfigValidator.ValidateOutputProcessing | src/configLoader.ts:164-219 | `validateOutputProcessing`; OutputProcessingPass and CustomNeedsPatterns state its meaning |
| ConfigValidator.ValidateParameter | src/configLoader.ts:221-254 | `validateParameter`; ParameterPass and DefaultOfWrongType state its meaning |
| ConfigValidator.ToolsObjectRequired | src/configLoader.ts:33-60 | both checks report the `tools` error when `tools` is missing or not an object |
| ConfigValidator.PartialToolPass | src/configLoader.ts:38-54 | the partial check of a tool passes exactly when `description` and `command` are non-empty strings, and reports `description` first |
| ConfigValidator.PartialConfigPass | src/configLoader.ts:33-55 | the partial check passes exactly on a `tools` object whose every tool is described |
| ConfigValidator.FullToolStartsWithPartial | src/configLoader.ts:67-81 | where the partial check throws, the full check throws the same |
| ConfigValidator.TimeoutRejected | src/configLoader.ts:95-108 | a negative or non-number total or inactive limit gets its own message |
| ConfigValidator.NonNegativeNumberIff | src/configLoader.ts:95 | the limit check lets through exactly the non-negative numbers |
| ConfigValidator.RequiredIff | src/configLoader.ts:71 | `!x \|\| typeof x !== "string"` lets through exactly the non-empty strings, and the object form exactly the objects |
| ConfigValidator.OutputProcessingPass | src/configLoader.ts:164-219 | the extractor rules: type "gcc" or "custom", "custom" needs a patterns object, present patterns hold two arrays, `formatOutput` is a boolean |
| ConfigValidator.CustomNeedsPatterns | src/configLoader.ts:184-193 | a "custom" extractor without a patterns object gets its own message |
| ConfigValidator.ParameterPass | src/configLoader.ts:221-254 | a parameter passes exactly when it has a name, a type among the three, a default of that type if any, and a description |
| ConfigValidator.DefaultOfWrongType | src/configLoader.ts:241-247 | a default of another type is rejected with a message naming the declared type |
| ConfigValidator.ParameterListPass | src/configLoader.ts:158-160 | the parameter loop passes exactly when every parameter is well formed |
| ConfigValidator.ResultFormatAndParametersPass | src/configLoader.ts:127-161 | the message checks and parameter checks pass exactly on non-empty messages and, when given, an array of well-formed parameters |
| ConfigValidator.ToolConfigPass | src/configLoader.ts:67-162 | the full check of a tool passes exactly on a well-formed tool |
| ConfigValidator.ConfigPass | src/configLoader.ts:57-65 | the full check passes exactly on a well-formed registry |
| ConfigValidator.FullImpliesPartial | src/configLoader.ts:33-65 | whatever passes the full check passes the partial one |
| ConfigValidator.RegistryToolsAreObjects | src/configLoader.ts:57-65 | the tools of a registry that passed are objects |
| ConfigDefaults.FillIfFalsy | src/configLoader.ts:262-264 | filling a falsy field of an object leaves an object |
| ConfigDefaults.FillIfUndefined | src/configLoader.ts:278-280 | filling an undefined field of an object leaves an object |
| ConfigDefaults.TimeoutWithDefaults | src/configLoader.ts:266-276 | the timeout step on an object tool yields an object tool or throws |
| ConfigDefaults.ExtractorWithDefaults | src/configLoader.ts:286-300 | the extractor step yields an object or throws |
| ConfigDefaults.OutputProcessingWithDefaults | src/configLoader.ts:282-305 | the output-processing step yields an object tool or throws |
| ConfigDefaults.ResultFormatWithDefaults | src/configLoader.ts:307-319 | the result-format step yields an object tool or throws |
| ConfigDefaults.ToolWithDefaults | src/configLoader.ts:260-320 | one tool's defaults yield an object or throw |
| ConfigDefaults.ToolsWithDefaults | src/configLoader.ts:260-321 | the defaulting loop keeps the tool names in order |
| ConfigDefaults.RegistryWithDefaults | src/configLoader.ts:259-321 | the defaulted registry is a registry with the same tool names |
| ConfigDefaults.ToolWithDefaultPatterns | src/configLoader.ts:324-331 | the body of the patterns loop; DefaultPatternsAfterDefaults and DefaultPatterns state its meaning |
| ConfigDefaults.ToolsWithDefaultPatterns | src/configLoader.ts:324-332 | the patterns loop keeps the tool names in order |
| ConfigDefaults.RegistryWithDefaultPatterns | src/configLoader.ts:323-333 | the registry with patterns is a registry with the same tool names |
| ConfigDefaults.FillIfFalsyGives | src/configLoader.ts:262-264 | a falsy field gets the default, a truthy one stays, and no other key changes |
| ConfigDefaults.FillIfUndefinedGives | src/configLoader.ts:278-280 | an undefined field gets the default, any other value stays (0 and false too), and no other key changes |
| ConfigDefaults.DefaultsHold | src/configLoader.ts:11-29 | the contents of `DEFAULTS`: 30000, 10000, false, "gcc" with empty pattern arrays, and the two messages |
| ConfigDefaults.TimeoutStep | src/configLoader.ts:266-276 | a falsy timeout becomes a copy of the default, and a given one keeps its limits unless `undefined` |
| ConfigDefaults.ExtractorStep | src/configLoader.ts:286-300 | a falsy extractor becomes the default; a given one gets "gcc" and empty patterns only where falsy |
| ConfigDefaults.OutputProcessingStep | src/configLoader.ts:282-305 | a falsy section becomes the default; a given one gets its extractor defaults and `formatOutput` only when `undefined` |
| ConfigDefaults.ResultFormatStep | src/configLoader.ts:307-319 | a falsy section becomes the default messages; a given one keeps each truthy message |
| ConfigDefaults.ToolDefaultsKeep | src/configLoader.ts:260-320 | keys that are not defaulted, such as `description`, `command` and `parameters`, are unchanged |
| ConfigDefaults.ToolDefaults | src/configLoader.ts:262-319 | `cwd` and the messages are filled when falsy; the limits, `streamOutput` and `formatOutput` only when `undefined` |
| ConfigDefaults.ToolDefaultsSucceed | src/configLoader.ts:260-320 | defaulting a tool succeeds exactly on an object whose given sub-sections are objects, and otherwise throws a `TypeError` |
| ConfigDefaults.MinimalToolDefaults | src/configLoader.ts:259-321 | a tool giving only a description and a command gets every other field from `DEFAULTS` |
| ConfigDefaults.DefaultPatternsAfterDefaults | src/configLoader.ts:295-299 | after defaults every extractor has patterns, so the patterns step returns the tool unchanged |
| ConfigDefaults.ToolsWithDefaultsEach | src/configLoader.ts:260-321 | the loop succeeds exactly when every tool does, holding each tool's defaulted value under its name |
| ConfigDefaults.PatternsUnchanged | src/configLoader.ts:323-333 | the patterns loop returns the tools unchanged when no tool needs patterns |
| ConfigDefaults.DefaultTool | src/configLoader.ts:260-320 | the loop body, one assignment at a time, gives one tool's defaults |
| ConfigDefaults.FillTimeout | src/configLoader.ts:266-276 | the timeout assignments give the timeout step |
| ConfigDefaults.FillOutputProcessing | src/configLoader.ts:282-305 | the output-processing assignments give the output-processing step |
| ConfigDefaults.FillResultFormat | src/configLoader.ts:307-319 | the result-format assignments give the result-format step |
| ConfigDefaults.ApplyDefaults | src/configLoader.ts:259-321 | the loop over `Object.values(config.tools)` gives the defaulted registry |
| ConfigDefaults.DefaultPatterns | src/configLoader.ts:324-331 | the patterns loop body: "gcc" gets the GCC patterns and "custom" empty ones, only when patterns are falsy |
| ConfigDefaults.ApplyDefaultPatterns | src/configLoader.ts:323-333 | the loop gives the registry with default patterns |
| ConfigLoading.Load | src/configLoader.ts:340-349 | a configuration that survives the four steps is a registry |
| ConfigLoading.PatternsAfterRegistryDefaults | src/configLoader.ts:346-348 | `applyDefaultPatterns` returns what `applyDefaults` produced unchanged |
| ConfigLoading.LoadIsDefaults | src/configLoader.ts:344-348 | a loaded configuration is well formed, keeps the tool names in order, and equals the configuration with defaults |
| ConfigLoading.ToolsRequiredOnLoad | src/configLoader.ts:345 | a file without a `tools` object fails with "Invalid config: 'tools' object is required" |
| ConfigLoading.UndescribedToolRejected | src/configLoader.ts:345 | a tool without a description or a command is rejected by the partial check, before defaults |
| ConfigLoading.MinimalToolWellFormed | src/configLoader.ts:346-347 | a tool with only a description and a command passes the full check once defaulted |
| ConfigLoading.MinimalToolsDefaulted | src/configLoader.ts:346 | every such tool takes the `DEFAULTS` values and passes the full check |
| ConfigLoading.LoadOfWellFormedDefaults | src/configLoader.ts:344-348 | once the partial check passes and the defaults are well formed, loading gives the defaulted configuration |
| ConfigLoading.MinimalRegistryLoads | src/configLoader.ts:340-349 | a file of tools with only descriptions and commands loads, and each tool keeps its name and gets the `DEFAULTS` values |
| ConfigLoading.ConfigLoader.Of | src/configLoader.ts:342 | the loader holds a configuration that passed the full check |
| ConfigLoading.ConfigLoader.Open | src/configLoader.ts:340-349 | the constructor succeeds exactly when the four steps do, and then holds their result; otherwise it throws their error |
| ConfigLoading.ConfigLoader.GetToolNames | src/configLoader.ts:363-365 | the tool names in file order |
| ConfigLoading.ConfigLoader.GetToolConfig | src/configLoader.ts:355-361 | succeeds exactly for a listed name, and otherwise fails with "Tool '<name>' not found in configuration" |
| ConfigLoading.ToolConfigFound | src/configLoader.ts:355-361 | the tool returned is the one stored under that name, and it is well formed |

## Left out

- Spawning the pseudo-terminal, the stdout echo of `streamOutput` and the real timers are not modelled. The race is given as a list of events.
  - The `* 1000` that turns seconds into milliseconds is not modelled, because only the order of events matters.
- `ProcessExecutor.execute` only forwards to `executeProcess`, so the wrapper class is not modelled.
- Regular expressions are not modelled:
  - Extractor pattern matching is the function parameter `matches`.
  - Malformed patterns, which throw in `new RegExp`, are not modelled.
  - The GCC pattern strings are constants only.
- ToolExecutor.ToolExecutor.ProcessTemplate: the model requires parameter keys without regular-expression metacharacters (and not made of digits and commas alone), and parameter values and a working directory without `$`. The source's `replace` then treats the placeholder and the value literally. Other keys and values are not modelled.
- `JSON.stringify` of the response and `JSON.parse`/`readFileSync` of the file are not modelled:
  - the response is its `output` text and flag;
  - loading starts from the parsed value.
- Numbers in the configuration are integers. Fractional numbers are not modelled.
- ConfigTypes.Scalar and ToolExecutor.ScalarToString: the values a caller passes are strings, booleans and integers below 10^21 in magnitude. Doubles, `NaN`, the infinities, `null`, objects and arrays are not modelled, and neither is the exponent form that `String` uses from 10^21 on.
- NatToString: agrees with `String(n)` only below 10^21. From 10^21 on JavaScript writes the exponent form (`String(1e21)` is `"1e+21"`), which is not modelled.
- ParseIntOfIntToString: holds only below 10^21 in magnitude. From 10^21 on `String(n)` uses the exponent form, so `parseInt(String(1e21))` is 1 in JavaScript.
- Keys of an object keep insertion order. JavaScript's rule that puts integer-like keys first is not modelled.
- Parsed objects are taken to have distinct keys, which `JSON.parse` ensures.
- ConfigLoading.ConfigLoader.GetToolConfig: a name that matches an inherited property of `Object.prototype` is not modelled. For example, `"constructor"` finds a truthy function in JavaScript, but the model treats it as absent.
- Aliasing is not modelled:
  - `{ ...DEFAULTS.x }` copies only one level. `{ ...DEFAULTS.outputProcessing }` leaves the whole `extractor` object, and its `patterns` object and arrays, shared with `DEFAULTS` and among all tools that took that default;
  - the `extractor` and `patterns` copies share the `DEFAULTS` pattern arrays, and gcc tools share the returned GCC pattern object;
  - nothing writes to these shared objects afterwards, so the sharing changes no result;
  - the model copies values instead.
- ConfigDefaults.RegistryWithDefaults requires `tools` to be an object, as the parameter type of `applyDefaults` says. `Object.values` on a primitive is not modelled, but the loader only calls it after the partial check has ensured an object.
- The text of a `TypeError` thrown by a property read on `null`/`undefined` is engine-specific. The model gives only its kind.
- `timeoutAsWarning`: a timeout result always carries `error`, and `execute` answers any result with an `error` before the special cases are consulted. The model follows the code, and `ToolExecutor.RespondFlag` proves that a timeout is always reported as a failure, even though a warning is documented.
- The typed `ToolDefinition` that the executor and extractor read is not decoded from the JSON value. The loader and the executor are connected only through the well-formed registry predicate.
- `getToolsConfig`, `getParameters` and `getDescription` only return fields and are not modelled.
- The MCP server (`src/index.ts`) and the command line (`src/cli.ts`) are not part of this model.

=== FILE: config_defaults.dfy ===
/**
 * `ConfigDefaultsApplier`: fills what a tool leaves out, field by field, in
 * the tool's own objects. Some fields are filled when they are falsy, others
 * only when they are `undefined`.
 */
module ConfigDefaults {
  import opened Wrappers
  import opened JsValues

  const DefaultTotal: int := 30000
  const DefaultInactive: int := 10000
  const DefaultSuccessMessage: string := "Operation completed successfully"
  const DefaultErrorMessage: string := "Operation failed"
  const GccErrorPattern: string := "^[^:]+:\\d+:\\d+:\\s+error:"
  const GccWarningPattern: string := "^[^:]+:\\d+:\\d+:\\s+warning:"

  /** The pattern lists of the `DEFAULTS` extractor. */
  const EmptyPatterns: Value := JObject(false, [("errors", JObject(true, [])), ("warnings", JObject(true, []))])

  /** The GCC patterns of `getGccPatterns`. */
  const GccPatterns: Value :=
    JObject(false, [("errors", JObject(true, [("0", JString(GccErrorPattern))])),
                    ("warnings", JObject(true, [("0", JString(GccWarningPattern))]))])

  const DefaultTimeout: Value := JObject(false, [("total", JNumber(DefaultTotal)), ("inactive", JNumber(DefaultInactive))])
  const DefaultExtractor: Value := JObject(false, [("type", JString("gcc")), ("patterns", EmptyPatterns)])
  const DefaultOutputProcessing: Value := JObject(false, [("extractor", DefaultExtractor), ("formatOutput", JBool(false))])
  const DefaultResultFormat: Value :=
    JObject(false, [("successMessage", JString(DefaultSuccessMessage)), ("errorMessage", JString(DefaultErrorMessage))])

  // ---------------------------------------------------------------------------
  // One tool, as a function of the tool it starts from
  // ---------------------------------------------------------------------------

  /** `if (!obj[key]) obj[key] = x;` */
  function FillIfFalsy(obj: Value, key: string, x: Value): (r: Value)
    requires obj.JObject?
    ensures r.JObject?
  {
    if Truthy(Prop(obj, key)) then obj else Write(obj, key, x)
  }

  /** `if (obj[key] === undefined) obj[key] = x;` */
  function FillIfUndefined(obj: Value, key: string, x: Value): (r: Value)
    requires obj.JObject?
    ensures r.JObject?
  {
    if Prop(obj, key) != JUndefined then obj else Write(obj, key, x)
  }

  /**
   * The `timeout` step: a copy of the defaults when falsy, else its missing
   * numbers; a truthy primitive throws when its `total` is written.
   */
  function TimeoutWithDefaults(tool: Value): (r: Result<Value, Failure>)
    requires tool.JObject?
    ensures r.Ok? ==> r.value.JObject?
  {
    var timeout := Prop(tool, "timeout");
    if !Truthy(timeout) then Ok(Write(tool, "timeout", DefaultTimeout))
    else if !timeout.JObject? then Err(TypeError)
    else
      var withTotal := FillIfUndefined(timeout, "total", JNumber(DefaultTotal));
      Ok(Write(tool, "timeout", FillIfUndefined(withTotal, "inactive", JNumber(DefaultInactive))))
  }

  /** The `extractor` part of the `outputProcessing` step. */
  function ExtractorWithDefaults(processing: Value): (r: Result<Value, Failure>)
    requires processing.JObject?
    ensures r.Ok? ==> r.value.JObject?
  {
    var extractor := Prop(processing, "extractor");
    if !Truthy(extractor) then Ok(Write(processing, "extractor", DefaultExtractor))
    else if !extractor.JObject? then Err(TypeError)
    else
      var withType := FillIfFalsy(extractor, "type", JString("gcc"));
      Ok(Write(processing, "extractor", FillIfFalsy(withType, "patterns", EmptyPatterns)))
  }

  /** The `outputProcessing` step. */
  function OutputProcessingWithDefaults(tool: Value): (r: Result<Value, Failure>)
    requires tool.JObject?
    ensures r.Ok? ==> r.value.JObject?
  {
    var processing := Prop(tool, "outputProcessing");
    if !Truthy(processing) then Ok(Write(tool, "outputProcessing", DefaultOutputProcessing))
    else if !processing.JObject? then Err(TypeError)
    else
      var withExtractor :- ExtractorWithDefaults(processing);
      Ok(Write(tool, "outputProcessing", FillIfUndefined(withExtractor, "formatOutput", JBool(false))))
  }

  /** The `resultFormat` step: a copy of the defaults when falsy, else its empty messages. */
  function ResultFormatWithDefaults(tool: Value): (r: Result<Value, Failure>)
    requires tool.JObject?
    ensures r.Ok? ==> r.value.JObject?
  {
    var resultFormat := Prop(tool, "resultFormat");
    if !Truthy(resultFormat) then Ok(Write(tool, "resultFormat", DefaultResultFormat))
    else if !resultFormat.JObject? then Err(TypeError)
    else
      var withSuccess := FillIfFalsy(resultFormat, "successMessage", JString(DefaultSuccessMessage));
      Ok(Write(tool, "resultFormat", FillIfFalsy(withSuccess, "errorMessage", JString(DefaultErrorMessage))))
  }

  /**
   * The body of the loop in `applyDefaults`; `processCwd` is the directory
   * the server runs in. A tool that is not an object throws: reading `cwd`
   * of `null` or `undefined`, or writing it on a primitive.
   */
  function ToolWithDefaults(tool: Value, processCwd: string): (r: Result<Value, Failure>)
    ensures r.Ok? ==> r.value.JObject?
  {
    if !tool.JObject? then Err(TypeError)
    else
      var withCwd := FillIfFalsy(tool, "cwd", JString(processCwd));
      var withTimeout :- TimeoutWithDefaults(withCwd);
      var withStream := FillIfUndefined(withTimeout, "streamOutput", JBool(false));
      var withProcessing :- OutputProcessingWithDefaults(withStream);
      ResultFormatWithDefaults(withProcessing)
  }

  /** `Ok(done + rest)` for a later part that succeeds, its failure otherwise. */
  function Prefixed(done: seq<(string, Value)>, later: Result<seq<(string, Value)>, Failure>): Result<seq<(string, Value)>, Failure> {
    match later
    case Ok(rest) => Ok(done + rest)
    case Err(e) => Err(e)
  }

  lemma PrefixedEmpty(later: Result<seq<(string, Value)>, Failure>)
    ensures Prefixed([], later) == later
  {
    if later.Ok? {
      assert [] + later.value == later.value;
    }
  }

  lemma PrefixedAppend(a: seq<(string, Value)>, b: seq<(string, Value)>, later: Result<seq<(string, Value)>, Failure>)
    ensures Prefixed(a, Prefixed(b, later)) == Prefixed(a + b, later)
  {
    if later.Ok? {
      assert a + (b + later.value) == (a + b) + later.value;
    }
  }

  /** Every tool in order; the first tool that throws ends the loop. */
  function ToolsWithDefaults(entries: seq<(string, Value)>, processCwd: string): (r: Result<seq<(string, Value)>, Failure>)
    ensures r.Ok? ==> KeysOf(r.value) == KeysOf(entries)
  {
    if entries == [] then Ok([])
    else
      var first :- ToolWithDefaults(entries[0].1, processCwd);
      Prefixed([(entries[0].0, first)], ToolsWithDefaults(entries[1..], processCwd))
  }

  /** A registry: an object whose `tools` is an object, as the parameter type of `applyDefaults` says. */
  predicate IsRegistry(config: Value) {
    config.JObject? && Prop(config, "tools").JObject?
  }

  /** The registry with every tool defaulted. */
  function RegistryWithDefaults(config: Value, processCwd: string): (r: Result<Value, Failure>)
    requires IsRegistry(config)
    ensures r.Ok? ==> IsRegistry(r.value) && KeysOf(Prop(r.value, "tools").fields) == KeysOf(Prop(config, "tools").fields)
  {
    var tools := Prop(config, "tools");
    var entries :- ToolsWithDefaults(tools.fields, processCwd);
    PropAfterWrite(config, "tools", JObject(tools.isArray, entries), "tools");
    Ok(Write(config, "tools", JObject(tools.isArray, entries)))
  }

  // ---------------------------------------------------------------------------
  // applyDefaultPatterns, as a function
  // ---------------------------------------------------------------------------

  /**
   * The body of the loop in `applyDefaultPatterns`: a "gcc" or "custom"
   * extractor without patterns gets the GCC patterns or empty ones.
   */
  function ToolWithDefaultPatterns(tool: Value): (r: Result<Value, Failure>)
  {
    if Nullish(tool) then Err(TypeError)
    else
      var processing := Prop(tool, "outputProcessing");
      if Nullish(processing) then Err(TypeError)
      else
        var extractor := Prop(processing, "extractor");
        if Nullish(extractor) then Err(TypeError)
        else
          var kind := Prop(extractor, "type");
          if !Truthy(Prop(extractor, "patterns")) && (kind == JString("gcc") || kind == JString("custom")) then
            // a primitive has no `type`, so all three are objects here
            var filled := Write(extractor, "patterns", if kind == JString("gcc") then GccPatterns else EmptyPatterns);
            Ok(Write(tool, "outputProcessing", Write(processing, "extractor", filled)))
          else Ok(tool)
  }

  function ToolsWithDefaultPatterns(entries: seq<(string, Value)>): (r: Result<seq<(string, Value)>, Failure>)
    ensures r.Ok? ==> KeysOf(r.value) == KeysOf(entries)
  {
    if entries == [] then Ok([])
    else
      var first :- ToolWithDefaultPatterns(entries[0].1);
      Prefixed([(entries[0].0, first)], ToolsWithDefaultPatterns(entries[1..]))
  }

  function RegistryWithDefaultPatterns(config: Value): (r: Result<Value, Failure>)
    requires IsRegistry(config)
    ensures r.Ok? ==> IsRegistry(r.value) && KeysOf(Prop(r.value, "tools").fields) == KeysOf(Prop(config, "tools").fields)
  {
    var tools := Prop(config, "tools");
    var entries :- ToolsWithDefaultPatterns(tools.fields);
    PropAfterWrite(config, "tools", JObject(tools.isArray, entries), "tools");
    Ok(Write(config, "tools", JObject(tools.isArray, entries)))
  }

  // ---------------------------------------------------------------------------
  // What defaulting promises, one step at a time
  // ---------------------------------------------------------------------------

  /** A given value unless it is `undefined`. */
  function IfUndefined(given: Value, x: Value): Value {
    if given != JUndefined then given else x
  }

  /** A given value unless it is falsy. */
  function IfFalsy(given: Value, x: Value): Value {
    if Truthy(given) then given else x
  }

  /** The keys `applyDefaults` may write on a tool. */
  const DefaultedKeys: set<string> := {"cwd", "timeout", "streamOutput", "outputProcessing", "resultFormat"}

  /** Filling a falsy key, seen from any key `k`. */
  lemma FillIfFalsyGives(obj: Value, key: string, x: Value, k: string)
    requires obj.JObject?
    ensures Prop(FillIfFalsy(obj, key, x), key) == IfFalsy(Prop(obj, key), x)
    ensures k != key ==> Prop(FillIfFalsy(obj, key, x), k) == Prop(obj, k)
  {
    PropAfterWrite(obj, key, x, key);
    PropAfterWrite(obj, key, x, k);
  }

  /** Filling an `undefined` key, seen from any key `k`. */
  lemma FillIfUndefinedGives(obj: Value, key: string, x: Value, k: string)
    requires obj.JObject?
    ensures Prop(FillIfUndefined(obj, key, x), key) == IfUndefined(Prop(obj, key), x)
    ensures k != key ==> Prop(FillIfUndefined(obj, key, x), k) == Prop(obj, k)
  {
    PropAfterWrite(obj, key, x, key);
    PropAfterWrite(obj, key, x, k);
  }

  /** What the `DEFAULTS` objects hold. */
  lemma DefaultsHold()
    ensures Prop(DefaultTimeout, "total") == JNumber(DefaultTotal)
    ensures Prop(DefaultTimeout, "inactive") == JNumber(DefaultInactive)
    ensures Prop(DefaultExtractor, "type") == JString("gcc")
    ensures Prop(DefaultExtractor, "patterns") == EmptyPatterns
    ensures Prop(DefaultOutputProcessing, "extractor") == DefaultExtractor
    ensures Prop(DefaultOutputProcessing, "formatOutput") == JBool(false)
    ensures Prop(DefaultResultFormat, "successMessage") == JString(DefaultSuccessMessage)
    ensures Prop(DefaultResultFormat, "errorMessage") == JString(DefaultErrorMessage)
    ensures IsArray(Prop(EmptyPatterns, "errors")) && Prop(EmptyPatterns, "errors").fields == []
    ensures IsArray(Prop(EmptyPatterns, "warnings")) && Prop(EmptyPatterns, "warnings").fields == []
  {
    LookupSecond(DefaultTimeout.fields, "inactive");
    LookupSecond(DefaultExtractor.fields, "patterns");
    LookupSecond(DefaultOutputProcessing.fields, "formatOutput");
    LookupSecond(DefaultResultFormat.fields, "errorMessage");
    LookupSecond(EmptyPatterns.fields, "warnings");
  }

  lemma LookupSecond(fields: seq<(string, Value)>, key: string)
    requires |fields| == 2 && fields[0].0 != key && fields[1].0 == key
    ensures Lookup(fields, key) == fields[1].1
  {
    assert Lookup(fields[1..], key) == fields[1].1;
  }

  /** `timeout` after defaulting, from the `given` one: given limits kept, missing ones filled. */
  predicate TimeoutDefaulted(given: Value, timeout: Value) {
    && timeout.JObject?
    && (!Truthy(given) ==> timeout == DefaultTimeout)
    && Prop(timeout, "total") == IfUndefined(OptionalProp(given, "total"), JNumber(DefaultTotal))
    && Prop(timeout, "inactive") == IfUndefined(OptionalProp(given, "inactive"), JNumber(DefaultInactive))
  }

  /** `extractor` after defaulting: a falsy type or patterns replaced. */
  predicate ExtractorDefaulted(given: Value, extractor: Value) {
    && extractor.JObject?
    && (!Truthy(given) ==> extractor == DefaultExtractor)
    && Prop(extractor, "type") == IfFalsy(OptionalProp(given, "type"), JString("gcc"))
    && Prop(extractor, "patterns") == IfFalsy(OptionalProp(given, "patterns"), EmptyPatterns)
  }

  /** `outputProcessing` after defaulting. */
  predicate OutputProcessingDefaulted(given: Value, processing: Value) {
    && processing.JObject?
    && (!Truthy(given) ==> processing == DefaultOutputProcessing)
    && Prop(processing, "formatOutput") == IfUndefined(OptionalProp(given, "formatOutput"), JBool(false))
    && ExtractorDefaulted(OptionalProp(given, "extractor"), Prop(processing, "extractor"))
  }

  /** `resultFormat` after defaulting: an empty or missing message replaced. */
  predicate ResultFormatDefaulted(given: Value, resultFormat: Value) {
    && resultFormat.JObject?
    && (!Truthy(given) ==> resultFormat == DefaultResultFormat)
    && Prop(resultFormat, "successMessage") == IfFalsy(OptionalProp(given, "successMessage"), JString(DefaultSuccessMessage))
    && Prop(resultFormat, "errorMessage") == IfFalsy(OptionalProp(given, "errorMessage"), JString(DefaultErrorMessage))
  }

  /** The `timeout` step defaults `timeout` and touches no other key `k`. */
  lemma TimeoutStep(tool: Value, k: string)
    requires tool.JObject? && TimeoutWithDefaults(tool).Ok?
    ensures k != "timeout" ==> Prop(TimeoutWithDefaults(tool).value, k) == Prop(tool, k)
    ensures TimeoutDefaulted(Prop(tool, "timeout"), Prop(TimeoutWithDefaults(tool).value, "timeout"))
  {
    var timeout := Prop(tool, "timeout");
    var filled := DefaultTimeout;
    if !Truthy(timeout) {
      DefaultsHold();
    } else {
      var withTotal := FillIfUndefined(timeout, "total", JNumber(DefaultTotal));
      filled := FillIfUndefined(withTotal, "inactive", JNumber(DefaultInactive));
      FillIfUndefinedGives(timeout, "total", JNumber(DefaultTotal), "inactive");
      FillIfUndefinedGives(withTotal, "inactive", JNumber(DefaultInactive), "total");
    }
    assert TimeoutWithDefaults(tool).value == Write(tool, "timeout", filled);
    PropAfterWrite(tool, "timeout", filled, k);
    PropAfterWrite(tool, "timeout", filled, "timeout");
  }

  /** The extractor part of the `outputProcessing` step. */
  lemma ExtractorStep(processing: Value, k: string)
    requires processing.JObject? && ExtractorWithDefaults(processing).Ok?
    ensures k != "extractor" ==> Prop(ExtractorWithDefaults(processing).value, k) == Prop(processing, k)
    ensures ExtractorDefaulted(Prop(processing, "extractor"), Prop(ExtractorWithDefaults(processing).value, "extractor"))
  {
    var extractor := Prop(processing, "extractor");
    var filled := DefaultExtractor;
    if !Truthy(extractor) {
      DefaultsHold();
    } else {
      var withType := FillIfFalsy(extractor, "type", JString("gcc"));
      filled := FillIfFalsy(withType, "patterns", EmptyPatterns);
      FillIfFalsyGives(extractor, "type", JString("gcc"), "patterns");
      FillIfFalsyGives(withType, "patterns", EmptyPatterns, "type");
    }
    assert ExtractorWithDefaults(processing).value == Write(processing, "extractor", filled);
    PropAfterWrite(processing, "extractor", filled, k);
    PropAfterWrite(processing, "extractor", filled, "extractor");
  }

  /** The `outputProcessing` step defaults `outputProcessing` and touches no other key `k`. */
  lemma OutputProcessingStep(tool: Value, k: string)
    requires tool.JObject? && OutputProcessingWithDefaults(tool).Ok?
    ensures k != "outputProcessing" ==> Prop(OutputProcessingWithDefaults(tool).value, k) == Prop(tool, k)
    ensures OutputProcessingDefaulted(Prop(tool, "outputProcessing"), Prop(OutputProcessingWithDefaults(tool).value, "outputProcessing"))
  {
    var processing := Prop(tool, "outputProcessing");
    var filled := DefaultOutputProcessing;
    if !Truthy(processing) {
      DefaultsHold();
      assert ExtractorDefaulted(OptionalProp(processing, "extractor"), Prop(filled, "extractor"));
    } else {
      var withExtractor := ExtractorWithDefaults(processing).value;
      ExtractorStep(processing, "formatOutput");
      filled := FillIfUndefined(withExtractor, "formatOutput", JBool(false));
      FillIfUndefinedGives(withExtractor, "formatOutput", JBool(false), "extractor");
    }
    assert OutputProcessingWithDefaults(tool).value == Write(tool, "outputProcessing", filled);
    PropAfterWrite(tool, "outputProcessing", filled, k);
    PropAfterWrite(tool, "outputProcessing", filled, "outputProcessing");
  }

  /** The `resultFormat` step defaults `resultFormat` and touches no other key `k`. */
  lemma ResultFormatStep(tool: Value, k: string)
    requires tool.JObject? && ResultFormatWithDefaults(tool).Ok?
    ensures k != "resultFormat" ==> Prop(ResultFormatWithDefaults(tool).value, k) == Prop(tool, k)
    ensures ResultFormatDefaulted(Prop(tool, "resultFormat"), Prop(ResultFormatWithDefaults(tool).value, "resultFormat"))
  {
    var resultFormat := Prop(tool, "resultFormat");
    var filled := DefaultResultFormat;
    if !Truthy(resultFormat) {
      DefaultsHold();
    } else {
      var withSuccess := FillIfFalsy(resultFormat, "successMessage", JString(DefaultSuccessMessage));
      filled := FillIfFalsy(withSuccess, "errorMessage", JString(DefaultErrorMessage));
      FillIfFalsyGives(resultFormat, "successMessage", JString(DefaultSuccessMessage), "errorMessage");
      FillIfFalsyGives(withSuccess, "errorMessage", JString(DefaultErrorMessage), "successMessage");
    }
    assert ResultFormatWithDefaults(tool).value == Write(tool, "resultFormat", filled);
    PropAfterWrite(tool, "resultFormat", filled, k);
    PropAfterWrite(tool, "resultFormat", filled, "resultFormat");
  }

  /** The intermediate tools of `ToolWithDefaults`, one per step. */
  lemma ToolSteps(tool: Value, processCwd: string) returns (withCwd: Value, withTimeout: Value, withStream: Value, withProcessing: Value)
    requires ToolWithDefaults(tool, processCwd).Ok?
    ensures tool.JObject? && withCwd == FillIfFalsy(tool, "cwd", JString(processCwd))
    ensures withCwd.JObject? && TimeoutWithDefaults(withCwd) == Ok(withTimeout)
    ensures withTimeout.JObject? && withStream == FillIfUndefined(withTimeout, "streamOutput", JBool(false))
    ensures withStream.JObject? && OutputProcessingWithDefaults(withStream) == Ok(withProcessing)
    ensures withProcessing.JObject? && ResultFormatWithDefaults(withProcessing) == ToolWithDefaults(tool, processCwd)
  {
    withCwd := FillIfFalsy(tool, "cwd", JString(processCwd));
    withTimeout := TimeoutWithDefaults(withCwd).value;
    withStream := FillIfUndefined(withTimeout, "streamOutput", JBool(false));
    withProcessing := OutputProcessingWithDefaults(withStream).value;
  }

  /** `applyDefaults` on one tool leaves every key it does not default as it was. */
  lemma ToolDefaultsKeep(tool: Value, processCwd: string, k: string)
    requires ToolWithDefaults(tool, processCwd).Ok?
    requires k !in DefaultedKeys
    ensures Prop(ToolWithDefaults(tool, processCwd).value, k) == Prop(tool, k)
  {
    var withCwd, withTimeout, withStream, withProcessing := ToolSteps(tool, processCwd);
    FillIfFalsyGives(tool, "cwd", JString(processCwd), k);
    TimeoutStep(withCwd, k);
    FillIfUndefinedGives(withTimeout, "streamOutput", JBool(false), k);
    OutputProcessingStep(withStream, k);
    ResultFormatStep(withProcessing, k);
  }

  /**
   * `applyDefaults` on one tool: `cwd` and the messages are replaced when
   * falsy; the limits, `streamOutput` and `formatOutput` only when
   * `undefined`, so a given 0 or `false` stays.
   */
  lemma ToolDefaults(tool: Value, processCwd: string)
    requires ToolWithDefaults(tool, processCwd).Ok?
    ensures var r := ToolWithDefaults(tool, processCwd).value;
      && Prop(r, "cwd") == IfFalsy(Prop(tool, "cwd"), JString(processCwd))
      && TimeoutDefaulted(Prop(tool, "timeout"), Prop(r, "timeout"))
      && Prop(r, "streamOutput") == IfUndefined(Prop(tool, "streamOutput"), JBool(false))
      && OutputProcessingDefaulted(Prop(tool, "outputProcessing"), Prop(r, "outputProcessing"))
      && ResultFormatDefaulted(Prop(tool, "resultFormat"), Prop(r, "resultFormat"))
  {
    var withCwd, withTimeout, withStream, withProcessing := ToolSteps(tool, processCwd);
    FillIfFalsyGives(tool, "cwd", JString(processCwd), "timeout");
    TimeoutStep(withCwd, "cwd");
    FillIfUndefinedGives(withTimeout, "streamOutput", JBool(false), "cwd");
    FillIfUndefinedGives(withTimeout, "streamOutput", JBool(false), "timeout");
    OutputProcessingStep(withStream, "cwd");
    OutputProcessingStep(withStream, "timeout");
    OutputProcessingStep(withStream, "streamOutput");
    ResultFormatStep(withProcessing, "cwd");
    ResultFormatStep(withProcessing, "timeout");
    ResultFormatStep(withProcessing, "streamOutput");
    ResultFormatStep(withProcessing, "outputProcessing");
    FillIfFalsyGives(tool, "cwd", JString(processCwd), "streamOutput");
    TimeoutStep(withCwd, "streamOutput");
    FillIfFalsyGives(tool, "cwd", JString(processCwd), "outputProcessing");
    TimeoutStep(withCwd, "outputProcessing");
    FillIfUndefinedGives(withTimeout, "streamOutput", JBool(false), "outputProcessing");
    FillIfFalsyGives(tool, "cwd", JString(processCwd), "resultFormat");
    TimeoutStep(withCwd, "resultFormat");
    FillIfUndefinedGives(withTimeout, "streamOutput", JBool(false), "resultFormat");
    OutputProcessingStep(withStream, "resultFormat");
  }

  /** A tool that is an object, whose given sub-objects are objects, takes defaults; anything else throws a `TypeError`. */
  predicate Defaultable(tool: Value) {
    && tool.JObject?
    && (Truthy(Prop(tool, "timeout")) ==> Prop(tool, "timeout").JObject?)
    && (Truthy(Prop(tool, "outputProcessing")) ==>
          && Prop(tool, "outputProcessing").JObject?
          && (Truthy(Prop(Prop(tool, "outputProcessing"), "extractor")) ==>
                Prop(Prop(tool, "outputProcessing"), "extractor").JObject?))
    && (Truthy(Prop(tool, "resultFormat")) ==> Prop(tool, "resultFormat").JObject?)
  }

  lemma ToolDefaultsSucceed(tool: Value, processCwd: string)
    ensures ToolWithDefaults(tool, processCwd).Ok? <==> Defaultable(tool)
    ensures ToolWithDefaults(tool, processCwd).Err? ==> ToolWithDefaults(tool, processCwd).error == TypeError
  {
    if tool.JObject? {
      var withCwd := FillIfFalsy(tool, "cwd", JString(processCwd));
      FillIfFalsyGives(tool, "cwd", JString(processCwd), "timeout");
      FillIfFalsyGives(tool, "cwd", JString(processCwd), "outputProcessing");
      FillIfFalsyGives(tool, "cwd", JString(processCwd), "resultFormat");
      if TimeoutWithDefaults(withCwd).Ok? {
        var withTimeout := TimeoutWithDefaults(withCwd).value;
        TimeoutStep(withCwd, "outputProcessing");
        TimeoutStep(withCwd, "resultFormat");
        var withStream := FillIfUndefined(withTimeout, "streamOutput", JBool(false));
        FillIfUndefinedGives(withTimeout, "streamOutput", JBool(false), "outputProcessing");
        FillIfUndefinedGives(withTimeout, "streamOutput", JBool(false), "resultFormat");
        if OutputProcessingWithDefaults(withStream).Ok? {
          OutputProcessingStep(withStream, "resultFormat");
        }
      }
    }
  }

  lemma GivenKeysNotDefaulted()
    ensures "description" !in DefaultedKeys && "command" !in DefaultedKeys && "parameters" !in DefaultedKeys
  {
  }

  /** A tool that gives only its description and command: every other key is absent. */
  predicate OnlyDescribed(tool: Value) {
    && tool.JObject?
    && forall i :: 0 <= i < |tool.fields| ==> tool.fields[i].0 == "description" || tool.fields[i].0 == "command"
  }

  /** Such a tool has no other key. */
  lemma OnlyDescribedAbsent(tool: Value, k: string)
    requires OnlyDescribed(tool) && k != "description" && k != "command"
    ensures Prop(tool, k) == JUndefined
  {
    LookupFound(tool.fields, k);
  }

  /** The tool `given` with every other field of `DEFAULTS`, and `cwd` set to `processCwd`. */
  predicate HoldsDefaults(given: Value, r: Value, processCwd: string)
    requires given.JObject? && r.JObject?
  {
    && Prop(r, "description") == Prop(given, "description")
    && Prop(r, "command") == Prop(given, "command")
    && Prop(r, "cwd") == JString(processCwd)
    && Prop(r, "timeout") == DefaultTimeout
    && Prop(r, "streamOutput") == JBool(false)
    && Prop(r, "outputProcessing") == DefaultOutputProcessing
    && Prop(r, "resultFormat") == DefaultResultFormat
    && Prop(r, "parameters") == JUndefined
  }

  /** A tool that gives only its description and command gets every other field from `DEFAULTS`. */
  lemma MinimalToolDefaults(tool: Value, processCwd: string)
    requires OnlyDescribed(tool)
    ensures ToolWithDefaults(tool, processCwd).Ok?
    ensures HoldsDefaults(tool, ToolWithDefaults(tool, processCwd).value, processCwd)
  {
    OnlyDescribedAbsent(tool, "cwd");
    OnlyDescribedAbsent(tool, "timeout");
    OnlyDescribedAbsent(tool, "streamOutput");
    OnlyDescribedAbsent(tool, "outputProcessing");
    OnlyDescribedAbsent(tool, "resultFormat");
    OnlyDescribedAbsent(tool, "parameters");
    ToolDefaultsSucceed(tool, processCwd);
    ToolDefaults(tool, processCwd);
    GivenKeysNotDefaulted();
    ToolDefaultsKeep(tool, processCwd, "description");
    ToolDefaultsKeep(tool, processCwd, "command");
    ToolDefaultsKeep(tool, processCwd, "parameters");
  }

  /** After `applyDefaults` every extractor has patterns, so `applyDefaultPatterns` changes nothing. */
  lemma DefaultPatternsAfterDefaults(tool: Value, processCwd: string)
    requires ToolWithDefaults(tool, processCwd).Ok?
    ensures ToolWithDefaultPatterns(ToolWithDefaults(tool, processCwd).value) == ToolWithDefaults(tool, processCwd)
  {
    ToolDefaults(tool, processCwd);
  }

  /** The registry loop succeeds exactly when every tool takes defaults, and then holds each tool's defaulted value under its name. */
  lemma {:induction false} ToolsWithDefaultsEach(entries: seq<(string, Value)>, processCwd: string)
    ensures ToolsWithDefaults(entries, processCwd).Ok? <==>
      forall i :: 0 <= i < |entries| ==> ToolWithDefaults(entries[i].1, processCwd).Ok?
    ensures ToolsWithDefaults(entries, processCwd).Ok? ==>
      && |ToolsWithDefaults(entries, processCwd).value| == |entries|
      && forall i :: 0 <= i < |entries| ==>
           ToolsWithDefaults(entries, processCwd).value[i] == (entries[i].0, ToolWithDefaults(entries[i].1, processCwd).value)
  {
    if entries != [] {
      ToolsWithDefaultsEach(entries[1..], processCwd);
      assert forall i :: 1 <= i < |entries| ==> entries[i] == entries[1..][i - 1];
    }
  }

  /** The patterns loop returns the tools unchanged when no tool needs patterns. */
  lemma {:induction false} PatternsUnchanged(entries: seq<(string, Value)>)
    requires forall i :: 0 <= i < |entries| ==> ToolWithDefaultPatterns(entries[i].1) == Ok(entries[i].1)
    ensures ToolsWithDefaultPatterns(entries) == Ok(entries)
  {
    if entries != [] {
      PatternsUnchanged(entries[1..]);
      assert [entries[0]] + entries[1..] == entries;
    }
  }

  // ---------------------------------------------------------------------------
  // The two loops, updating one field at a time
  // ---------------------------------------------------------------------------

  /** The body of the loop in `applyDefaults`, one assignment at a time. */
  method DefaultTool(tool: Value, processCwd: string) returns (r: Result<Value, Failure>)
    ensures r == ToolWithDefaults(tool, processCwd)
  {
    if !tool.JObject? {
      return Err(TypeError);
    }
    var t := tool;
    if !Truthy(Prop(t, "cwd")) {
      t := Write(t, "cwd", JString(processCwd));
    }
    t :- FillTimeout(t);
    if Prop(t, "streamOutput") == JUndefined {
      t := Write(t, "streamOutput", JBool(false));
    }
    t :- FillOutputProcessing(t);
    r := FillResultFormat(t);
  }

  /** The `timeout` step of the loop body. */
  method FillTimeout(tool: Value) returns (r: Result<Value, Failure>)
    requires tool.JObject?
    ensures r == TimeoutWithDefaults(tool)
  {
    var timeout := Prop(tool, "timeout");
    if !Truthy(timeout) {
      return Ok(Write(tool, "timeout", DefaultTimeout));
    }
    if !timeout.JObject? {
      return Err(TypeError);
    }
    if Prop(timeout, "total") == JUndefined {
      timeout := Write(timeout, "total", JNumber(DefaultTotal));
    }
    if Prop(timeout, "inactive") == JUndefined {
      timeout := Write(timeout, "inactive", JNumber(DefaultInactive));
    }
    return Ok(Write(tool, "timeout", timeout));
  }

  /** The `outputProcessing` step of the loop body. */
  method FillOutputProcessing(tool: Value) returns (r: Result<Value, Failure>)
    requires tool.JObject?
    ensures r == OutputProcessingWithDefaults(tool)
  {
    var processing := Prop(tool, "outputProcessing");
    if !Truthy(processing) {
      return Ok(Write(tool, "outputProcessing", DefaultOutputProcessing));
    }
    if !processing.JObject? {
      return Err(TypeError);
    }
    var extractor := Prop(processing, "extractor");
    if !Truthy(extractor) {
      processing := Write(processing, "extractor", DefaultExtractor);
    } else {
      if !extractor.JObject? {
        return Err(TypeError);
      }
      if !Truthy(Prop(extractor, "type")) {
        extractor := Write(extractor, "type", JString("gcc"));
      }
      if !Truthy(Prop(extractor, "patterns")) {
        extractor := Write(extractor, "patterns", EmptyPatterns);
      }
      processing := Write(processing, "extractor", extractor);
    }
    if Prop(processing, "formatOutput") == JUndefined {
      processing := Write(processing, "formatOutput", JBool(false));
    }
    return Ok(Write(tool, "outputProcessing", processing));
  }

  /** The `resultFormat` step of the loop body. */
  method FillResultFormat(tool: Value) returns (r: Result<Value, Failure>)
    requires tool.JObject?
    ensures r == ResultFormatWithDefaults(tool)
  {
    var resultFormat := Prop(tool, "resultFormat");
    if !Truthy(resultFormat) {
      return Ok(Write(tool, "resultFormat", DefaultResultFormat));
    }
    if !resultFormat.JObject? {
      return Err(TypeError);
    }
    if !Truthy(Prop(resultFormat, "successMessage")) {
      resultFormat := Write(resultFormat, "successMessage", JString(DefaultSuccessMessage));
    }
    if !Truthy(Prop(resultFormat, "errorMessage")) {
      resultFormat := Write(resultFormat, "errorMessage", JString(DefaultErrorMessage));
    }
    return Ok(Write(tool, "resultFormat", resultFormat));
  }

  /** `applyDefaults`: every tool of the registry, in order. */
  method ApplyDefaults(config: Value, processCwd: string) returns (r: Result<Value, Failure>)
    requires IsRegistry(config)
    ensures r == RegistryWithDefaults(config, processCwd)
  {
    var tools := Prop(config, "tools");
    var entries := tools.fields;
    var updated: seq<(string, Value)> := [];
    assert entries[0..] == entries;
    PrefixedEmpty(ToolsWithDefaults(entries, processCwd));
    for i := 0 to |entries|
      invariant ToolsWithDefaults(entries, processCwd) == Prefixed(updated, ToolsWithDefaults(entries[i..], processCwd))
    {
      assert entries[i..][0] == entries[i] && entries[i..][1..] == entries[i + 1..];
      var tool :- DefaultTool(entries[i].1, processCwd);
      PrefixedAppend(updated, [(entries[i].0, tool)], ToolsWithDefaults(entries[i + 1..], processCwd));
      updated := updated + [(entries[i].0, tool)];
    }
    assert entries[|entries|..] == [] && updated + [] == updated;
    return Ok(Write(config, "tools", JObject(tools.isArray, updated)));
  }

  /** The body of the loop in `applyDefaultPatterns`. */
  method DefaultPatterns(tool: Value) returns (r: Result<Value, Failure>)
    ensures r == ToolWithDefaultPatterns(tool)
  {
    if Nullish(tool) || Nullish(Prop(tool, "outputProcessing")) {
      return Err(TypeError);
    }
    var processing := Prop(tool, "outputProcessing");
    var extractor := Prop(processing, "extractor");
    if Nullish(extractor) {
      return Err(TypeError);
    }
    var kind := Prop(extractor, "type");
    if kind == JString("gcc") && !Truthy(Prop(extractor, "patterns")) {
      extractor := Write(extractor, "patterns", GccPatterns);
    } else if kind == JString("custom") && !Truthy(Prop(extractor, "patterns")) {
      extractor := Write(extractor, "patterns", EmptyPatterns);
    } else {
      return Ok(tool);
    }
    return Ok(Write(tool, "outputProcessing", Write(processing, "extractor", extractor)));
  }

  /** `applyDefaultPatterns`: every tool of the registry, in order. */
  method ApplyDefaultPatterns(config: Value) returns (r: Result<Value, Failure>)
    requires IsRegistry(config)
    ensures r == RegistryWithDefaultPatterns(config)
  {
    var tools := Prop(config, "tools");
    var entries := tools.fields;
    var updated: seq<(string, Value)> := [];
    assert entries[0..] == entries;
    PrefixedEmpty(ToolsWithDefaultPatterns(entries));
    for i := 0 to |entries|
      invariant ToolsWithDefaultPatterns(entries) == Prefixed(updated, ToolsWithDefaultPatterns(entries[i..]))
    {
      assert entries[i..][0] == entries[i] && entries[i..][1..] == entries[i + 1..];
      var tool :- DefaultPatterns(entries[i].1);
      PrefixedAppend(updated, [(entries[i].0, tool)], ToolsWithDefaultPatterns(entries[i + 1..]));
      updated := updated + [(entries[i].0, tool)];
    }
    assert entries[|entries|..] == [] && updated + [] == updated;
    return Ok(Write(config, "tools", JObject(tools.isArray, updated)));
  }
}

=== FILE: config_loader.dfy ===
/**
 * `ConfigLoader`: a parsed configuration file is checked loosely, given its
 * defaults, checked fully and given its default patterns; the loader then
 * answers for tools by name.
 */
module ConfigLoading {
  import opened Wrappers
  import opened JsValues
  import opened ConfigValidator
  import opened ConfigDefaults

  /** The constructor's four steps on the value `JSON.parse` produced, as a function. */
  function Load(parsed: Value, processCwd: string): (r: Result<Value, Failure>)
    ensures r.Ok? ==> IsRegistry(r.value)
  {
    match ValidatePartialConfig(parsed)
    case Thrown(e) => Err(ToFailure(e))
    case Pass =>
      var defaulted :- RegistryWithDefaults(parsed, processCwd);
      match ValidateConfig(defaulted)
      case Thrown(e) => Err(ToFailure(e))
      case Pass => RegistryWithDefaultPatterns(defaulted)
  }

  /** The tools object of a registry. */
  function Tools(config: Value): Value
    requires !Nullish(config)
  {
    Prop(config, "tools")
  }

  // ---------------------------------------------------------------------------
  // What loading promises
  // ---------------------------------------------------------------------------

  /** Writing back the tools a registry already holds changes nothing. */
  lemma RewriteTools(config: Value, tools: Value)
    requires config.JObject?
    ensures Write(Write(config, "tools", tools), "tools", tools) == Write(config, "tools", tools)
  {
    var fields := Put(config.fields, "tools", tools);
    KeysOfPut(config.fields, "tools", tools);
    LookupPut(config.fields, "tools", tools, "tools");
    PutSame(fields, "tools");
  }

  /** `applyDefaultPatterns` returns a registry that `applyDefaults` produced as it was. */
  lemma PatternsAfterRegistryDefaults(config: Value, processCwd: string)
    requires IsRegistry(config) && RegistryWithDefaults(config, processCwd).Ok?
    ensures IsRegistry(RegistryWithDefaults(config, processCwd).value)
    ensures RegistryWithDefaultPatterns(RegistryWithDefaults(config, processCwd).value) == RegistryWithDefaults(config, processCwd)
  {
    var tools := Tools(config);
    var entries := ToolsWithDefaults(tools.fields, processCwd).value;
    var defaulted := RegistryWithDefaults(config, processCwd).value;
    assert defaulted == Write(config, "tools", JObject(tools.isArray, entries));
    PropAfterWrite(config, "tools", JObject(tools.isArray, entries), "tools");
    ToolsWithDefaultsEach(tools.fields, processCwd);
    forall i | 0 <= i < |entries| ensures ToolWithDefaultPatterns(entries[i].1) == Ok(entries[i].1) {
      DefaultPatternsAfterDefaults(tools.fields[i].1, processCwd);
    }
    PatternsUnchanged(entries);
    RewriteTools(config, JObject(tools.isArray, entries));
  }

  /**
   * A configuration that loads is well formed, keeps its tool names in their
   * order, and is the configuration with defaults: `applyDefaultPatterns`
   * has nothing left to fill.
   */
  lemma LoadIsDefaults(parsed: Value, processCwd: string)
    requires Load(parsed, processCwd).Ok?
    ensures IsRegistry(parsed)
    ensures RegistryWithDefaults(parsed, processCwd) == Load(parsed, processCwd)
    ensures WellFormedRegistry(Load(parsed, processCwd).value)
    ensures KeysOf(Tools(Load(parsed, processCwd).value).fields) == KeysOf(Tools(parsed).fields)
  {
    var tools := Tools(parsed);
    var entries := ToolsWithDefaults(tools.fields, processCwd).value;
    PropAfterWrite(parsed, "tools", JObject(tools.isArray, entries), "tools");
    PatternsAfterRegistryDefaults(parsed, processCwd);
    ConfigPass(RegistryWithDefaults(parsed, processCwd).value);
  }

  /** A file without a `tools` object is refused with the `tools` message. */
  lemma ToolsRequiredOnLoad(parsed: Value, processCwd: string)
    requires !Nullish(parsed) && !Tools(parsed).JObject?
    ensures Load(parsed, processCwd) == Err(Error("Invalid config: 'tools' object is required"))
  {
    ToolsObjectRequired(parsed);
  }

  /** A tool without a non-empty description or command is refused before any default is applied. */
  lemma UndescribedToolRejected(parsed: Value, processCwd: string, i: nat)
    requires parsed.JObject? && Tools(parsed).JObject?
    requires i < |Tools(parsed).fields| && !Described(Tools(parsed).fields[i].1)
    ensures ValidatePartialConfig(parsed).Thrown?
    ensures Load(parsed, processCwd) == Err(ToFailure(ValidatePartialConfig(parsed).error))
  {
    PartialConfigPass(parsed);
  }

  /** A tool that gives only a description and a command is well formed once defaulted, when the server has a working directory. */
  lemma MinimalToolWellFormed(tool: Value, processCwd: string)
    requires Described(tool) && OnlyDescribed(tool) && processCwd != ""
    ensures ToolWithDefaults(tool, processCwd).Ok?
    ensures WellFormedTool(ToolWithDefaults(tool, processCwd).value)
  {
    MinimalToolDefaults(tool, processCwd);
    DefaultsHold();
  }

  /** The tools of such a file each take the `DEFAULTS` values and pass the full check. */
  lemma {:induction false} MinimalToolsDefaulted(tools: seq<(string, Value)>, processCwd: string) returns (entries: seq<(string, Value)>)
    requires processCwd != ""
    requires forall i :: 0 <= i < |tools| ==> Described(tools[i].1) && OnlyDescribed(tools[i].1)
    ensures ToolsWithDefaults(tools, processCwd) == Ok(entries)
    ensures |entries| == |tools|
    ensures forall i :: 0 <= i < |entries| ==>
      && entries[i].0 == tools[i].0
      && entries[i].1.JObject? && tools[i].1.JObject?
      && WellFormedTool(entries[i].1)
      && HoldsDefaults(tools[i].1, entries[i].1, processCwd)
  {
    ToolsWithDefaultsEach(tools, processCwd);
    forall i | 0 <= i < |tools|
      ensures ToolWithDefaults(tools[i].1, processCwd).Ok?
      ensures WellFormedTool(ToolWithDefaults(tools[i].1, processCwd).value)
      ensures HoldsDefaults(tools[i].1, ToolWithDefaults(tools[i].1, processCwd).value, processCwd)
    {
      MinimalToolWellFormed(tools[i].1, processCwd);
      MinimalToolDefaults(tools[i].1, processCwd);
    }
    entries := ToolsWithDefaults(tools, processCwd).value;
  }

  /** Once the partial check passes and the defaulted registry is well formed, loading gives the defaulted registry. */
  lemma LoadOfWellFormedDefaults(parsed: Value, processCwd: string)
    requires ValidatePartialConfig(parsed) == Pass && IsRegistry(parsed)
    requires RegistryWithDefaults(parsed, processCwd).Ok?
    requires WellFormedRegistry(RegistryWithDefaults(parsed, processCwd).value)
    ensures Load(parsed, processCwd) == RegistryWithDefaults(parsed, processCwd)
  {
    ConfigPass(RegistryWithDefaults(parsed, processCwd).value);
    PatternsAfterRegistryDefaults(parsed, processCwd);
  }

  /**
   * A file whose tools give only a description and a command loads, and
   * every tool comes back under its name with the `DEFAULTS` values.
   */
  lemma MinimalRegistryLoads(parsed: Value, processCwd: string) returns (loaded: seq<(string, Value)>)
    requires parsed.JObject? && Tools(parsed).JObject? && processCwd != ""
    requires forall i :: 0 <= i < |Tools(parsed).fields| ==>
      Described(Tools(parsed).fields[i].1) && OnlyDescribed(Tools(parsed).fields[i].1)
    ensures |loaded| == |Tools(parsed).fields|
    ensures forall i :: 0 <= i < |loaded| ==>
      && loaded[i].0 == Tools(parsed).fields[i].0
      && loaded[i].1.JObject? && Tools(parsed).fields[i].1.JObject?
      && HoldsDefaults(Tools(parsed).fields[i].1, loaded[i].1, processCwd)
    ensures Load(parsed, processCwd).Ok? && Tools(Load(parsed, processCwd).value).fields == loaded
  {
    var tools := Tools(parsed);
    loaded := MinimalToolsDefaulted(tools.fields, processCwd);
    PartialConfigPass(parsed);
    PropAfterWrite(parsed, "tools", JObject(tools.isArray, loaded), "tools");
    LoadOfWellFormedDefaults(parsed, processCwd);
  }

  // ---------------------------------------------------------------------------
  // The loader
  // ---------------------------------------------------------------------------

  class ConfigLoader {
    const config: Value

    /** Every loader holds a configuration that passed the full check. */
    ghost predicate Valid() {
      WellFormedRegistry(config)
    }

    /** Holds a configuration that has been through the four steps. */
    constructor Of(loaded: Value)
      requires WellFormedRegistry(loaded)
      ensures config == loaded && Valid()
    {
      config := loaded;
    }

    /**
     * `new ConfigLoader(path)` once the file is read and parsed: the steps
     * run as the source runs them, updating the configuration tool by tool.
     */
    static method Open(parsed: Value, processCwd: string) returns (r: Result<ConfigLoader, Failure>)
      ensures r.Ok? <==> Load(parsed, processCwd).Ok?
      ensures r.Ok? ==> fresh(r.value) && r.value.config == Load(parsed, processCwd).value && r.value.Valid()
      ensures r.Err? ==> r.error == Load(parsed, processCwd).error
    {
      var partial := ValidatePartialConfig(parsed);
      if partial.Thrown? {
        return Err(ToFailure(partial.error));
      }
      var defaulted :- ApplyDefaults(parsed, processCwd);
      var full := ValidateConfig(defaulted);
      if full.Thrown? {
        return Err(ToFailure(full.error));
      }
      ConfigPass(defaulted);
      var loaded :- ApplyDefaultPatterns(defaulted);
      LoadIsDefaults(parsed, processCwd);
      var loader := new ConfigLoader.Of(loaded);
      return Ok(loader);
    }

    /** `getToolNames`: the names of the tools, in the order of the file. */
    function GetToolNames(): (names: seq<string>)
      requires Valid()
      ensures |names| == |Tools(config).fields|
      ensures forall i :: 0 <= i < |names| ==> names[i] == Tools(config).fields[i].0
    {
      KeysOf(Tools(config).fields)
    }

    /** `getToolConfig`: the tool of that name; a name the file does not have throws. */
    function GetToolConfig(toolName: string): (r: Result<Value, Failure>)
      requires Valid()
      ensures r.Ok? <==> toolName in GetToolNames()
      ensures r.Err? ==> r.error == Error("Tool '" + toolName + "' not found in configuration")
    {
      RegistryToolsAreObjects(config);
      LookupTruthy(Tools(config).fields, toolName);
      var tool := Prop(Tools(config), toolName);
      if !Truthy(tool) then Err(Error("Tool '" + toolName + "' not found in configuration"))
      else Ok(tool)
    }
  }

  /** The tool `getToolConfig` returns is the one stored under that name, and it passed the full check. */
  lemma ToolConfigFound(loader: ConfigLoader, toolName: string) returns (i: nat)
    requires loader.Valid() && loader.GetToolConfig(toolName).Ok?
    ensures i < |Tools(loader.config).fields|
    ensures Tools(loader.config).fields[i] == (toolName, loader.GetToolConfig(toolName).value)
    ensures WellFormedTool(loader.GetToolConfig(toolName).value)
  {
    i := LookupAt(Tools(loader.config).fields, toolName);
  }
}

=== FILE: config_types.dfy ===
/**
 * The typed shape of one tool's configuration once it has been validated
 * and completed with defaults: what the tool executor and the output
 * extractor read.
 */
module ConfigTypes {
  import opened Wrappers

  datatype ParamType = NumberParam | StringParam | BooleanParam

  /** A parameter value or default; numbers are the integers. */
  datatype Scalar = Str(s: string) | Num(n: int) | Bool(b: bool)

  datatype ToolParameter = ToolParameter(
    name: string,
    kind: ParamType,
    default: Option<Scalar>,
    description: string)

  /** Both limits in the units `executeProcess` is given them. */
  datatype TimeoutConfig = TimeoutConfig(total: int, inactive: int)

  datatype ExtractorPatterns = ExtractorPatterns(errors: seq<string>, warnings: seq<string>)

  datatype ExtractorType = Gcc | Custom

  datatype Extractor = Extractor(kind: ExtractorType, patterns: Option<ExtractorPatterns>)

  /** `logLines` is a template that is rendered and parsed as an integer when it is used. */
  datatype OutputProcessing = OutputProcessing(
    extractor: Extractor,
    formatOutput: bool,
    logLines: Option<string>)

  datatype ResultFormat = ResultFormat(successMessage: string, errorMessage: string)

  datatype SpecialHandling = SpecialHandling(timeoutAsWarning: Option<bool>)

  datatype ToolDefinition = ToolDefinition(
    description: string,
    command: string,
    cwd: string,
    parameters: Option<seq<ToolParameter>>,
    timeout: TimeoutConfig,
    streamOutput: bool,
    outputProcessing: OutputProcessing,
    resultFormat: ResultFormat,
    specialHandling: Option<SpecialHandling>)
}

=== FILE: config_validator.dfy ===
/**
 * `ConfigValidator`: ordered checks over a parsed configuration, each
 * throwing an `Error` with its own message; the first check that fails
 * decides what is thrown.
 */
module ConfigValidator {
  import opened Wrappers
  import opened JsValues

  /** What a tool's configuration can get wrong, one case per check. */
  datatype Defect =
    | DescriptionRequired
    | CommandRequired
    | CwdRequired
    | TimeoutRequired
    | TotalInvalid
    | InactiveInvalid
    | StreamOutputInvalid
    | OutputProcessingRequired
    | ExtractorRequired
    | ExtractorTypeInvalid
    | CustomPatternsRequired
    | ErrorPatternsInvalid
    | WarningPatternsInvalid
    | FormatOutputInvalid
    | ResultFormatRequired
    | SuccessMessageRequired
    | ErrorMessageRequired
    | ParametersInvalid
    | ParameterNameRequired
    | ParameterTypeInvalid
    | DefaultTypeMismatch(declared: string)
    | ParameterDescriptionRequired

  /**
   * What the checks throw: the `tools` error, a tool's defect, or the
   * `TypeError` of reading a property of a tool or parameter that is `null`
   * or `undefined`.
   */
  datatype ConfigError = ToolsRequired | InvalidTool(toolName: string, defect: Defect) | NullishRead

  /** The message the thrown `Error` carries after the tool's name. */
  function Detail(defect: Defect): string {
    match defect
    case DescriptionRequired => "'description' is required and must be a string"
    case CommandRequired => "'command' is required and must be a string"
    case CwdRequired => "'cwd' is required and must be a string"
    case TimeoutRequired => "'timeout' object is required"
    case TotalInvalid => "'timeout.total' must be a non-negative number"
    case InactiveInvalid => "'timeout.inactive' must be a non-negative number"
    case StreamOutputInvalid => "'streamOutput' must be a boolean"
    case OutputProcessingRequired => "'outputProcessing' object is required"
    case ExtractorRequired => "'outputProcessing.extractor' object is required"
    case ExtractorTypeInvalid => "'outputProcessing.extractor.type' must be 'gcc' or 'custom'"
    case CustomPatternsRequired => "'outputProcessing.extractor.patterns' object is required for custom type"
    case ErrorPatternsInvalid => "'outputProcessing.extractor.patterns.errors' must be an array"
    case WarningPatternsInvalid => "'outputProcessing.extractor.patterns.warnings' must be an array"
    case FormatOutputInvalid => "'outputProcessing.formatOutput' must be a boolean"
    case ResultFormatRequired => "'resultFormat' object is required"
    case SuccessMessageRequired => "'resultFormat.successMessage' is required and must be a string"
    case ErrorMessageRequired => "'resultFormat.errorMessage' is required and must be a string"
    case ParametersInvalid => "'parameters' must be an array"
    case ParameterNameRequired => "parameter 'name' is required and must be a string"
    case ParameterTypeInvalid => "parameter 'type' must be 'number', 'string', or 'boolean'"
    case ParameterDescriptionRequired => "parameter 'description' is required and must be a string"
    case DefaultTypeMismatch(declared) => "parameter 'default' must be of type '" + declared + "'"
  }

  /** The error as JavaScript sees it. */
  function ToFailure(error: ConfigError): Failure {
    match error
    case ToolsRequired => Error("Invalid config: 'tools' object is required")
    case InvalidTool(toolName, defect) => Error("Invalid config for tool '" + toolName + "': " + Detail(defect))
    case NullishRead => TypeError
  }

  function ToolFailure(toolName: string, defect: Defect): Outcome<ConfigError> {
    Thrown(InvalidTool(toolName, defect))
  }

  /** The check `!x || typeof x !== "string"` lets `x` through. */
  predicate RequiredString(v: Value) {
    Truthy(v) && TypeOf(v) == StringType
  }

  /** The check `!x || typeof x !== "object"` lets `x` through. */
  predicate RequiredObject(v: Value) {
    Truthy(v) && TypeOf(v) == ObjectType
  }

  /** The check `typeof x !== "number" || x < 0` lets `x` through. */
  predicate NonNegativeNumber(v: Value) {
    TypeOf(v) == NumberType && !(v.JNumber? && v.n < 0)
  }

  /** A `for ... of` loop whose body throws: the first item that fails decides the outcome. */
  function FirstFailure<T>(items: seq<T>, check: T -> Outcome<ConfigError>): Outcome<ConfigError> {
    if items == [] then Pass
    else if check(items[0]).Thrown? then check(items[0])
    else FirstFailure(items[1..], check)
  }

  /** The loop bodies, one name each. */
  const PartialToolCheck := (entry: (string, Value)) => ValidatePartialTool(entry.0, entry.1)
  const ToolCheck := (entry: (string, Value)) => ValidateToolConfig(entry.0, entry.1)

  function ParameterCheck(toolName: string): Value -> Outcome<ConfigError> {
    param => ValidateParameter(toolName, param)
  }

  // ---------------------------------------------------------------------------
  // The checks
  // ---------------------------------------------------------------------------

  /** `validatePartialConfig`: only `tools`, and each tool's `description` and `command`. */
  function ValidatePartialConfig(config: Value): Outcome<ConfigError> {
    if Nullish(config) then Thrown(NullishRead)
    else
      var tools := Prop(config, "tools");
      if !RequiredObject(tools) then Thrown(ToolsRequired)
      else FirstFailure(tools.fields, PartialToolCheck)
  }

  /** The body of the loop in `validatePartialConfig`. */
  function ValidatePartialTool(toolName: string, tool: Value): Outcome<ConfigError> {
    if Nullish(tool) then Thrown(NullishRead)
    else if !RequiredString(Prop(tool, "description")) then
      ToolFailure(toolName, DescriptionRequired)
    else if !RequiredString(Prop(tool, "command")) then
      ToolFailure(toolName, CommandRequired)
    else Pass
  }

  /** `validateConfig`: `tools`, then every tool in order. */
  function ValidateConfig(config: Value): Outcome<ConfigError> {
    if Nullish(config) then Thrown(NullishRead)
    else
      var tools := Prop(config, "tools");
      if !RequiredObject(tools) then Thrown(ToolsRequired)
      else FirstFailure(tools.fields, ToolCheck)
  }

  /** `validateToolConfig`. */
  function ValidateToolConfig(toolName: string, tool: Value): Outcome<ConfigError> {
    if Nullish(tool) then Thrown(NullishRead)
    else if !RequiredString(Prop(tool, "description")) then
      ToolFailure(toolName, DescriptionRequired)
    else if !RequiredString(Prop(tool, "command")) then
      ToolFailure(toolName, CommandRequired)
    else if !RequiredString(Prop(tool, "cwd")) then
      ToolFailure(toolName, CwdRequired)
    else if !RequiredObject(Prop(tool, "timeout")) then
      ToolFailure(toolName, TimeoutRequired)
    else if !NonNegativeNumber(Prop(Prop(tool, "timeout"), "total")) then
      ToolFailure(toolName, TotalInvalid)
    else if !NonNegativeNumber(Prop(Prop(tool, "timeout"), "inactive")) then
      ToolFailure(toolName, InactiveInvalid)
    else if TypeOf(Prop(tool, "streamOutput")) != BooleanType then
      ToolFailure(toolName, StreamOutputInvalid)
    else if !RequiredObject(Prop(tool, "outputProcessing")) then
      ToolFailure(toolName, OutputProcessingRequired)
    else if ValidateOutputProcessing(toolName, Prop(tool, "outputProcessing")).Thrown? then
      ValidateOutputProcessing(toolName, Prop(tool, "outputProcessing"))
    else ValidateResultFormatAndParameters(toolName, tool)
  }

  /** The rest of `validateToolConfig`, once the output processing has passed. */
  function ValidateResultFormatAndParameters(toolName: string, tool: Value): Outcome<ConfigError>
    requires !Nullish(tool)
  {
    var resultFormat := Prop(tool, "resultFormat");
    if !RequiredObject(resultFormat) then
      ToolFailure(toolName, ResultFormatRequired)
    else if !RequiredString(Prop(resultFormat, "successMessage")) then
      ToolFailure(toolName, SuccessMessageRequired)
    else if !RequiredString(Prop(resultFormat, "errorMessage")) then
      ToolFailure(toolName, ErrorMessageRequired)
    else
      var parameters := Prop(tool, "parameters");
      if !Truthy(parameters) then Pass
      else if !IsArray(parameters) then ToolFailure(toolName, ParametersInvalid)
      else FirstFailure(ValuesOf(parameters.fields), ParameterCheck(toolName))
  }

  /** `validateOutputProcessing`, on a value already known to be an object. */
  function ValidateOutputProcessing(toolName: string, processing: Value): Outcome<ConfigError>
    requires !Nullish(processing)
  {
    var extractor := Prop(processing, "extractor");
    if !RequiredObject(extractor) then
      ToolFailure(toolName, ExtractorRequired)
    else
      var kind := Prop(extractor, "type");
      var patterns := Prop(extractor, "patterns");
      if kind != JString("gcc") && kind != JString("custom") then
        ToolFailure(toolName, ExtractorTypeInvalid)
      else if kind == JString("custom") && !RequiredObject(patterns) then
        ToolFailure(toolName, CustomPatternsRequired)
      else if Truthy(patterns) && !IsArray(Prop(patterns, "errors")) then
        ToolFailure(toolName, ErrorPatternsInvalid)
      else if Truthy(patterns) && !IsArray(Prop(patterns, "warnings")) then
        ToolFailure(toolName, WarningPatternsInvalid)
      else if TypeOf(Prop(processing, "formatOutput")) != BooleanType then
        ToolFailure(toolName, FormatOutputInvalid)
      else Pass
  }

  /** `validateParameter`. */
  function ValidateParameter(toolName: string, param: Value): Outcome<ConfigError> {
    if Nullish(param) then Thrown(NullishRead)
    else
      var kind := Prop(param, "type");
      var default := Prop(param, "default");
      if !RequiredString(Prop(param, "name")) then
        ToolFailure(toolName, ParameterNameRequired)
      else if kind != JString("number") && kind != JString("string") && kind != JString("boolean") then
        ToolFailure(toolName, ParameterTypeInvalid)
      else if default != JUndefined && TypeName(TypeOf(default)) != kind.s then
        ToolFailure(toolName, DefaultTypeMismatch(kind.s))
      else if !RequiredString(Prop(param, "description")) then
        ToolFailure(toolName, ParameterDescriptionRequired)
      else Pass
  }

  // ---------------------------------------------------------------------------
  // What a configuration that passes looks like, stated on its own
  // ---------------------------------------------------------------------------

  predicate NonEmptyString(v: Value) {
    v.JString? && v.s != ""
  }

  predicate WellFormedParameter(param: Value) {
    && param.JObject?
    && NonEmptyString(Prop(param, "name"))
    && Prop(param, "type") in {JString("number"), JString("string"), JString("boolean")}
    && (Prop(param, "default") == JUndefined || TypeName(TypeOf(Prop(param, "default"))) == Prop(param, "type").s)
    && NonEmptyString(Prop(param, "description"))
  }

  predicate WellFormedOutputProcessing(processing: Value) {
    && processing.JObject?
    && var extractor := Prop(processing, "extractor");
    && extractor.JObject?
    && var kind := Prop(extractor, "type");
    && var patterns := Prop(extractor, "patterns");
    && (kind == JString("gcc") || kind == JString("custom"))
    && (kind == JString("custom") ==> patterns.JObject?)
    && (Truthy(patterns) ==> IsArray(Prop(patterns, "errors")) && IsArray(Prop(patterns, "warnings")))
    && Prop(processing, "formatOutput").JBool?
  }

  predicate WellFormedTool(tool: Value) {
    && tool.JObject?
    && NonEmptyString(Prop(tool, "description"))
    && NonEmptyString(Prop(tool, "command"))
    && NonEmptyString(Prop(tool, "cwd"))
    && var timeout := Prop(tool, "timeout");
    && timeout.JObject?
    && Prop(timeout, "total").JNumber? && Prop(timeout, "total").n >= 0
    && Prop(timeout, "inactive").JNumber? && Prop(timeout, "inactive").n >= 0
    && Prop(tool, "streamOutput").JBool?
    && WellFormedOutputProcessing(Prop(tool, "outputProcessing"))
    && WellFormedResultFormatAndParameters(tool)
  }

  /** The messages are non-empty strings, and the parameters, when given, an array of well-formed ones. */
  predicate WellFormedResultFormatAndParameters(tool: Value)
    requires tool.JObject?
  {
    && var resultFormat := Prop(tool, "resultFormat");
    && resultFormat.JObject?
    && NonEmptyString(Prop(resultFormat, "successMessage"))
    && NonEmptyString(Prop(resultFormat, "errorMessage"))
    && var parameters := Prop(tool, "parameters");
    && (Truthy(parameters) ==>
          && IsArray(parameters)
          && forall i :: 0 <= i < |parameters.fields| ==> WellFormedParameter(parameters.fields[i].1))
  }

  /** A registry whose `tools` is an object holding well-formed tools only. */
  predicate WellFormedRegistry(config: Value) {
    && config.JObject?
    && Prop(config, "tools").JObject?
    && forall i :: 0 <= i < |Prop(config, "tools").fields| ==> WellFormedTool(Prop(config, "tools").fields[i].1)
  }

  /** The tools of a well-formed registry are objects. */
  lemma RegistryToolsAreObjects(config: Value)
    requires WellFormedRegistry(config)
    ensures forall i :: 0 <= i < |Prop(config, "tools").fields| ==> Prop(config, "tools").fields[i].1.JObject?
  {
  }

  /** A tool as the partial check wants it: an object with a non-empty `description` and `command`. */
  predicate Described(tool: Value) {
    && tool.JObject?
    && NonEmptyString(Prop(tool, "description"))
    && NonEmptyString(Prop(tool, "command"))
  }

  // ---------------------------------------------------------------------------
  // What the checks promise
  // ---------------------------------------------------------------------------

  /** The loop passes exactly when every item passes. */
  lemma {:induction false} FirstFailurePass<T>(items: seq<T>, check: T -> Outcome<ConfigError>)
    ensures FirstFailure(items, check) == Pass <==> forall i :: 0 <= i < |items| ==> check(items[i]) == Pass
  {
    if items != [] {
      FirstFailurePass(items[1..], check);
      forall i | 1 <= i < |items| ensures items[i] == items[1..][i - 1] {
      }
    }
  }

  /** When the loop throws, it throws what the first failing item throws, and every item before it passes. */
  lemma {:induction false} FirstFailureFirst<T>(items: seq<T>, check: T -> Outcome<ConfigError>) returns (k: nat)
    requires FirstFailure(items, check).Thrown?
    ensures k < |items| && check(items[k]) == FirstFailure(items, check)
    ensures forall j :: 0 <= j < k ==> check(items[j]) == Pass
  {
    if check(items[0]).Thrown? {
      k := 0;
    } else {
      var k' := FirstFailureFirst(items[1..], check);
      k := k' + 1;
      forall j | 1 <= j < k ensures check(items[j]) == Pass {
        assert items[j] == items[1..][j - 1];
      }
    }
  }

  /** Both checks throw the `tools` error, and nothing else, when `tools` is not an object. */
  lemma ToolsObjectRequired(config: Value)
    requires !Nullish(config) && !Prop(config, "tools").JObject?
    ensures ValidatePartialConfig(config) == Thrown(ToolsRequired)
    ensures ValidateConfig(config) == Thrown(ToolsRequired)
  {
  }

  /** The partial check of one tool looks at `description`, then `command`, and at nothing else. */
  lemma PartialToolPass(toolName: string, tool: Value)
    ensures ValidatePartialTool(toolName, tool) == Pass <==> Described(tool)
    ensures !Nullish(tool) && !NonEmptyString(Prop(tool, "description")) ==>
      ValidatePartialTool(toolName, tool) == ToolFailure(toolName, DescriptionRequired)
  {
  }

  /** The partial check passes exactly on a `tools` object whose every tool is described. */
  lemma PartialConfigPass(config: Value)
    ensures ValidatePartialConfig(config) == Pass <==>
      && config.JObject?
      && Prop(config, "tools").JObject?
      && forall i :: 0 <= i < |Prop(config, "tools").fields| ==> Described(Prop(config, "tools").fields[i].1)
  {
    if config.JObject? && Prop(config, "tools").JObject? {
      var entries := Prop(config, "tools").fields;
      var check := PartialToolCheck;
      FirstFailurePass(entries, check);
      forall i | 0 <= i < |entries| ensures check(entries[i]) == Pass <==> Described(entries[i].1) {
        PartialToolPass(entries[i].0, entries[i].1);
      }
    }
  }

  /** The full check of one tool starts with the partial one: where the partial check throws, the full check throws the same. */
  lemma FullToolStartsWithPartial(toolName: string, tool: Value)
    ensures ValidatePartialTool(toolName, tool).Thrown? ==> ValidateToolConfig(toolName, tool) == ValidatePartialTool(toolName, tool)
    ensures ValidateToolConfig(toolName, tool) == Pass ==> ValidatePartialTool(toolName, tool) == Pass
  {
  }

  /** A bad `timeout.total` or `timeout.inactive` is reported with its own message, once the checks before it pass. */
  lemma TimeoutRejected(toolName: string, tool: Value)
    requires Described(tool) && RequiredString(Prop(tool, "cwd")) && RequiredObject(Prop(tool, "timeout"))
    ensures !NonNegativeNumber(Prop(Prop(tool, "timeout"), "total")) ==>
      ValidateToolConfig(toolName, tool) == ToolFailure(toolName, TotalInvalid)
    ensures NonNegativeNumber(Prop(Prop(tool, "timeout"), "total")) && !NonNegativeNumber(Prop(Prop(tool, "timeout"), "inactive")) ==>
      ValidateToolConfig(toolName, tool) == ToolFailure(toolName, InactiveInvalid)
  {
  }

  /** A number passes the timeout check exactly when it is not negative. */
  lemma NonNegativeNumberIff(v: Value)
    ensures NonNegativeNumber(v) <==> v.JNumber? && v.n >= 0
  {
  }

  /** What the two `!x || typeof x !== ...` checks let through. */
  lemma RequiredIff(v: Value)
    ensures RequiredString(v) <==> NonEmptyString(v)
    ensures RequiredObject(v) <==> v.JObject?
  {
  }

  /** The extractor rules: the type is "gcc" or "custom", "custom" needs a `patterns` object, present patterns hold two arrays. */
  lemma OutputProcessingPass(toolName: string, processing: Value)
    requires !Nullish(processing)
    ensures ValidateOutputProcessing(toolName, processing) == Pass <==> WellFormedOutputProcessing(processing)
  {
  }

  /** A "custom" extractor without a `patterns` object is rejected with its own message. */
  lemma CustomNeedsPatterns(toolName: string, processing: Value)
    requires RequiredObject(processing) && RequiredObject(Prop(processing, "extractor"))
    requires Prop(Prop(processing, "extractor"), "type") == JString("custom")
    requires !Prop(Prop(processing, "extractor"), "patterns").JObject?
    ensures ValidateOutputProcessing(toolName, processing) ==
      ToolFailure(toolName, CustomPatternsRequired)
  {
  }

  /** The parameter rules. */
  lemma ParameterPass(toolName: string, param: Value)
    ensures ValidateParameter(toolName, param) == Pass <==> WellFormedParameter(param)
  {
  }

  /** A `default` of another type than the declared one is rejected, naming the declared type. */
  lemma DefaultOfWrongType(toolName: string, param: Value, kind: string)
    requires param.JObject? && NonEmptyString(Prop(param, "name"))
    requires kind in {"number", "string", "boolean"} && Prop(param, "type") == JString(kind)
    requires Prop(param, "default") != JUndefined && TypeName(TypeOf(Prop(param, "default"))) != kind
    ensures ValidateParameter(toolName, param) == ToolFailure(toolName, DefaultTypeMismatch(kind))
  {
  }

  /** The loop over `parameters` passes exactly when every parameter is well formed. */
  lemma ParameterListPass(toolName: string, parameters: Value)
    requires IsArray(parameters)
    ensures FirstFailure(ValuesOf(parameters.fields), ParameterCheck(toolName)) == Pass <==>
      forall i :: 0 <= i < |parameters.fields| ==> WellFormedParameter(parameters.fields[i].1)
  {
    var values := ValuesOf(parameters.fields);
    var check := ParameterCheck(toolName);
    FirstFailurePass(values, check);
    forall i | 0 <= i < |values| ensures check(values[i]) == Pass <==> WellFormedParameter(parameters.fields[i].1) {
      ParameterPass(toolName, values[i]);
    }
  }

  /** The result-format and parameter part of the tool check. */
  lemma ResultFormatAndParametersPass(toolName: string, tool: Value)
    requires tool.JObject?
    ensures ValidateResultFormatAndParameters(toolName, tool) == Pass <==> WellFormedResultFormatAndParameters(tool)
  {
    var resultFormat := Prop(tool, "resultFormat");
    RequiredIff(resultFormat);
    if resultFormat.JObject? {
      RequiredIff(Prop(resultFormat, "successMessage"));
      RequiredIff(Prop(resultFormat, "errorMessage"));
    }
    var parameters := Prop(tool, "parameters");
    if IsArray(parameters) {
      ParameterListPass(toolName, parameters);
    }
  }

  /** The full check of one tool passes exactly on a well-formed tool. */
  lemma ToolConfigPass(toolName: string, tool: Value)
    ensures ValidateToolConfig(toolName, tool) == Pass <==> WellFormedTool(tool)
  {
    if tool.JObject? {
      RequiredIff(Prop(tool, "description"));
      RequiredIff(Prop(tool, "command"));
      RequiredIff(Prop(tool, "cwd"));
      RequiredIff(Prop(tool, "timeout"));
      RequiredIff(Prop(tool, "outputProcessing"));
      if Prop(tool, "timeout").JObject? {
        NonNegativeNumberIff(Prop(Prop(tool, "timeout"), "total"));
        NonNegativeNumberIff(Prop(Prop(tool, "timeout"), "inactive"));
      }
      if Prop(tool, "outputProcessing").JObject? {
        OutputProcessingPass(toolName, Prop(tool, "outputProcessing"));
      }
      ResultFormatAndParametersPass(toolName, tool);
    }
  }

  /** The full check passes exactly on a well-formed registry. */
  lemma ConfigPass(config: Value)
    ensures ValidateConfig(config) == Pass <==> WellFormedRegistry(config)
  {
    if config.JObject? && Prop(config, "tools").JObject? {
      var entries := Prop(config, "tools").fields;
      var check := ToolCheck;
      FirstFailurePass(entries, check);
      forall i | 0 <= i < |entries| ensures check(entries[i]) == Pass <==> WellFormedTool(entries[i].1) {
        ToolConfigPass(entries[i].0, entries[i].1);
      }
    }
  }

  /** Whatever passes the full check passes the partial one. */
  lemma FullImpliesPartial(config: Value)
    ensures ValidateConfig(config) == Pass ==> ValidatePartialConfig(config) == Pass
  {
    ConfigPass(config);
    PartialConfigPass(config);
  }
}

=== FILE: json_values.dfy ===
/**
 * The JavaScript values a configuration file is made of once `JSON.parse`
 * has read it, with the property reads and writes the configuration code
 * performs on them.
 */
module JsValues {
  /**
   * A value as `JSON.parse` produces it, plus `undefined` for a property
   * that is not there. An array is an object whose keys are its indexes, in
   * order, so a named property can be added to it as JavaScript allows.
   * Numbers are the integers.
   */
  datatype Value =
    | JUndefined
    | JNull
    | JBool(b: bool)
    | JNumber(n: int)
    | JString(s: string)
    | JObject(isArray: bool, fields: seq<(string, Value)>)

  /**
   * What the configuration code can throw: an `Error` with its message, or
   * the `TypeError` of reading a property of `null` or `undefined`, or of
   * writing one on a primitive (modules run in strict mode).
   */
  datatype Failure = Error(message: string) | TypeError

  predicate Nullish(v: Value) {
    v.JUndefined? || v.JNull?
  }

  /** JavaScript truthiness: `undefined`, `null`, `false`, `0` and `""` are falsy. */
  predicate Truthy(v: Value) {
    match v
    case JUndefined => false
    case JNull => false
    case JBool(b) => b
    case JNumber(n) => n != 0
    case JString(s) => s != ""
    case JObject(_, _) => true
  }

  /** The results `typeof` can give on these values. */
  datatype JsType = UndefinedType | BooleanType | NumberType | StringType | ObjectType

  /** The `typeof` operator; `null` and arrays are "object". */
  function TypeOf(v: Value): JsType {
    match v
    case JUndefined => UndefinedType
    case JBool(_) => BooleanType
    case JNumber(_) => NumberType
    case JString(_) => StringType
    case JNull => ObjectType
    case JObject(_, _) => ObjectType
  }

  /** The string `typeof` returns. */
  function TypeName(t: JsType): string
  {
    match t
    case UndefinedType => "undefined"
    case BooleanType => "boolean"
    case NumberType => "number"
    case StringType => "string"
    case ObjectType => "object"
  }

  /** `Array.isArray`. */
  predicate IsArray(v: Value) {
    v.JObject? && v.isArray
  }

  /** The value stored under `key`, or `undefined`. */
  function Lookup(fields: seq<(string, Value)>, key: string): Value
  {
    if fields == [] then JUndefined
    else if fields[0].0 == key then fields[0].1
    else Lookup(fields[1..], key)
  }

  /** `v[key]` on a value that is neither `null` nor `undefined`: primitives have none of the properties read here. */
  function Prop(v: Value, key: string): Value
    requires !Nullish(v)
  {
    if v.JObject? then Lookup(v.fields, key) else JUndefined
  }

  /** `v?.[key]`: `undefined` for a `null` or `undefined` value. */
  function OptionalProp(v: Value, key: string): Value {
    if Nullish(v) then JUndefined else Prop(v, key)
  }

  /** The fields with `key` bound to `x`: an existing key keeps its place, a new one goes last. */
  function Put(fields: seq<(string, Value)>, key: string, x: Value): (r: seq<(string, Value)>)
    ensures |r| == |fields| || |r| == |fields| + 1
  {
    if fields == [] then [(key, x)]
    else if fields[0].0 == key then [(key, x)] + fields[1..]
    else [fields[0]] + Put(fields[1..], key, x)
  }

  /** `obj[key] = x` on an object; on a primitive the write throws a `TypeError` (modules run in strict mode). */
  function Write(obj: Value, key: string, x: Value): (r: Value)
    requires obj.JObject?
    ensures r.JObject? && r.isArray == obj.isArray
  {
    JObject(obj.isArray, Put(obj.fields, key, x))
  }

  /** The keys of the fields, in order: `Object.keys`. */
  function KeysOf(fields: seq<(string, Value)>): (r: seq<string>)
    ensures |r| == |fields|
    ensures forall i :: 0 <= i < |fields| ==> r[i] == fields[i].0
  {
    if fields == [] then [] else [fields[0].0] + KeysOf(fields[1..])
  }

  /** The values of the fields, in order: `Object.values`, and the elements of an array. */
  function ValuesOf(fields: seq<(string, Value)>): (r: seq<Value>)
    ensures |r| == |fields|
    ensures forall i :: 0 <= i < |fields| ==> r[i] == fields[i].1
  {
    if fields == [] then [] else [fields[0].1] + ValuesOf(fields[1..])
  }

  // ---------------------------------------------------------------------------
  // What reads and writes promise
  // ---------------------------------------------------------------------------

  /** A key is found exactly when it is one of the keys; the first binding wins. */
  lemma {:induction false} LookupFound(fields: seq<(string, Value)>, key: string)
    ensures key in KeysOf(fields) ==>
      exists i :: 0 <= i < |fields| && fields[i].0 == key && Lookup(fields, key) == fields[i].1
              && forall j :: 0 <= j < i ==> fields[j].0 != key
    ensures key !in KeysOf(fields) ==> Lookup(fields, key) == JUndefined
  {
    if fields != [] {
      LookupFound(fields[1..], key);
      if fields[0].0 != key && key in KeysOf(fields) {
        assert key in KeysOf(fields[1..]);
        var i :| 0 <= i < |fields[1..]| && fields[1..][i].0 == key && Lookup(fields[1..], key) == fields[1..][i].1
                 && forall j :: 0 <= j < i ==> fields[1..][j].0 != key;
        assert fields[i + 1].0 == key;
        forall j | 0 <= j < i + 1 ensures fields[j].0 != key {
          if j > 0 {
            assert fields[j] == fields[1..][j - 1];
          }
        }
      }
    }
  }

  /** Where a present key is found. */
  lemma LookupAt(fields: seq<(string, Value)>, key: string) returns (i: nat)
    requires key in KeysOf(fields)
    ensures i < |fields| && fields[i].0 == key && Lookup(fields, key) == fields[i].1
  {
    LookupFound(fields, key);
    i :| 0 <= i < |fields| && fields[i].0 == key && Lookup(fields, key) == fields[i].1;
  }

  /** Among objects, a key is found exactly when a truthy value is read for it. */
  lemma LookupTruthy(fields: seq<(string, Value)>, key: string)
    requires forall i :: 0 <= i < |fields| ==> fields[i].1.JObject?
    ensures key in KeysOf(fields) <==> Truthy(Lookup(fields, key))
  {
    if key in KeysOf(fields) {
      var i := LookupAt(fields, key);
    } else {
      LookupFound(fields, key);
    }
  }

  /** Reading after writing: the written key gives the new value, every other key what it gave before. */
  lemma {:induction false} LookupPut(fields: seq<(string, Value)>, key: string, x: Value, k: string)
    ensures Lookup(Put(fields, key, x), k) == if k == key then x else Lookup(fields, k)
  {
    if fields != [] && fields[0].0 != key {
      LookupPut(fields[1..], key, x, k);
    }
  }

  /** Writing keeps the keys and their order, and adds the key at the end when it is new. */
  lemma {:induction false} KeysOfPut(fields: seq<(string, Value)>, key: string, x: Value)
    ensures KeysOf(Put(fields, key, x)) == if key in KeysOf(fields) then KeysOf(fields) else KeysOf(fields) + [key]
  {
    if fields != [] {
      KeysOfPut(fields[1..], key, x);
      if fields[0].0 != key {
        assert KeysOf(fields) == [fields[0].0] + KeysOf(fields[1..]);
        assert key in KeysOf(fields) <==> key in KeysOf(fields[1..]);
        assert Put(fields, key, x) == [fields[0]] + Put(fields[1..], key, x);
      }
    }
  }

  /** Reading a property after writing one. */
  lemma PropAfterWrite(obj: Value, key: string, x: Value, k: string)
    requires obj.JObject?
    ensures Prop(Write(obj, key, x), k) == if k == key then x else Prop(obj, k)
  {
    LookupPut(obj.fields, key, x, k);
  }

  /** Writing back the value a present key already holds changes nothing. */
  lemma {:induction false} PutSame(fields: seq<(string, Value)>, key: string)
    requires key in KeysOf(fields)
    ensures Put(fields, key, Lookup(fields, key)) == fields
  {
    if fields[0].0 != key {
      assert key in KeysOf(fields[1..]);
      PutSame(fields[1..], key);
    }
  }
}

=== FILE: output_extractor.dfy ===
/**
 * The line classifier: captured output is split into normalised lines, each
 * line is trimmed, blank lines are skipped, and every remaining line is
 * filed under `errors` when some error pattern matches it and under
 * `warnings` when some warning pattern matches it, independently.
 *
 * Regular-expression matching is not modelled: `matches(line, pattern)`
 * stands for `new RegExp(pattern).test(line)`.
 */
module OutputExtractor {
  import opened Wrappers
  import opened Strings
  import opened ProcessExecutor
  import opened ConfigTypes

  datatype ExtractionResult = ExtractionResult(errors: seq<string>, warnings: seq<string>)

  /** `normalizeLineEndings(output).split("\n")`: at least one line, none holding a line break. */
  function Lines(output: string): (r: seq<string>)
    ensures |r| >= 1
    ensures forall i :: 0 <= i < |r| ==> '\r' !in r[i] && '\n' !in r[i]
  {
    var normal := NormalizeLineEndings(output);
    SplitAvoids(normal, '\n', '\r');
    Split(normal, '\n')
  }

  /** Some pattern of `patterns` matches `line`. */
  predicate AnyMatch(line: string, patterns: seq<string>, matches: (string, string) -> bool) {
    exists k :: 0 <= k < |patterns| && matches(line, patterns[k])
  }

  /** The trimmed lines that are not blank, in order and with duplicates. */
  function Candidates(lines: seq<string>): (r: seq<string>)
    ensures |r| <= |lines|
  {
    if lines == [] then []
    else
      var t := Trim(lines[|lines| - 1]);
      Candidates(lines[..|lines| - 1]) + (if t == [] then [] else [t])
  }

  /** The lines that some pattern matches, in order and with duplicates. */
  function Matching(lines: seq<string>, patterns: seq<string>, matches: (string, string) -> bool): (r: seq<string>)
    ensures |r| <= |lines|
  {
    if lines == [] then []
    else
      var t := lines[|lines| - 1];
      Matching(lines[..|lines| - 1], patterns, matches) + (if AnyMatch(t, patterns, matches) then [t] else [])
  }

  /** What `extract` returns for `output`. */
  function ExtractSpec(output: string, patterns: ExtractorPatterns, matches: (string, string) -> bool): ExtractionResult {
    var candidates := Candidates(Lines(output));
    ExtractionResult(Matching(candidates, patterns.errors, matches), Matching(candidates, patterns.warnings, matches))
  }

  class OutputExtractor {
    const config: OutputProcessing

    constructor(config: OutputProcessing)
      ensures this.config == config
    {
      this.config := config;
    }

    /**
     * `extract`: the patterns are those of the configuration, which must be
     * present (the source asserts them non-null; defaulting always supplies
     * them).
     */
    method Extract(output: string, matches: (string, string) -> bool) returns (result: ExtractionResult)
      requires config.extractor.patterns.Some?
      ensures result == ExtractSpec(output, config.extractor.patterns.value, matches)
    {
      var lines := Lines(output);
      result := ClassifyLines(lines, config.extractor.patterns.value, matches);
    }
  }

  /**
   * The loop of `extract` over the split lines: blank lines are skipped, and
   * each remaining line is checked against the error patterns and then,
   * independently, against the warning patterns.
   */
  method ClassifyLines(lines: seq<string>, patterns: ExtractorPatterns, matches: (string, string) -> bool)
    returns (result: ExtractionResult)
    ensures result.errors == Matching(Candidates(lines), patterns.errors, matches)
    ensures result.warnings == Matching(Candidates(lines), patterns.warnings, matches)
  {
    result := ExtractionResult([], []);
    ghost var candidates: seq<string> := [];
    for i := 0 to |lines|
      invariant candidates == Candidates(lines[..i])
      invariant result.errors == Matching(candidates, patterns.errors, matches)
      invariant result.warnings == Matching(candidates, patterns.warnings, matches)
    {
      var trimmed := Trim(lines[i]);
      CandidatesStep(lines, i);
      if trimmed == [] {
        continue;
      }
      MatchingStep(candidates, trimmed, patterns.errors, matches);
      MatchingStep(candidates, trimmed, patterns.warnings, matches);
      var isError := MatchesAny(trimmed, patterns.errors, matches);
      if isError {
        result := result.(errors := result.errors + [trimmed]);
      }
      var isWarning := MatchesAny(trimmed, patterns.warnings, matches);
      if isWarning {
        result := result.(warnings := result.warnings + [trimmed]);
      }
      candidates := candidates + [trimmed];
    }
    assert lines[..|lines|] == lines;
  }

  /** One inner loop of `extract`: the patterns are tried in order until the first match. */
  method MatchesAny(line: string, patterns: seq<string>, matches: (string, string) -> bool) returns (found: bool)
    ensures found <==> AnyMatch(line, patterns, matches)
  {
    found := false;
    for j := 0 to |patterns|
      invariant !AnyMatch(line, patterns[..j], matches)
    {
      AnyMatchStep(line, patterns, j, matches);
      if matches(line, patterns[j]) {
        found := true;
        break;
      }
    }
    assert patterns[..|patterns|] == patterns;
  }

  lemma AnyMatchStep(line: string, patterns: seq<string>, j: nat, matches: (string, string) -> bool)
    requires j < |patterns|
    ensures AnyMatch(line, patterns[..j + 1], matches)
        <==> AnyMatch(line, patterns[..j], matches) || matches(line, patterns[j])
  {
    assert patterns[..j + 1][j] == patterns[j];
    if AnyMatch(line, patterns[..j + 1], matches) {
      var k :| 0 <= k < j + 1 && matches(line, patterns[..j + 1][k]);
      if k < j {
        assert patterns[..j][k] == patterns[..j + 1][k];
      }
    }
    if AnyMatch(line, patterns[..j], matches) {
      var k :| 0 <= k < j && matches(line, patterns[..j][k]);
      assert patterns[..j][k] == patterns[..j + 1][k];
    }
  }

  lemma CandidatesStep(lines: seq<string>, i: nat)
    requires i < |lines|
    ensures Candidates(lines[..i + 1])
         == Candidates(lines[..i]) + (if Trim(lines[i]) == [] then [] else [Trim(lines[i])])
  {
    assert lines[..i + 1][..i] == lines[..i];
  }

  lemma MatchingStep(lines: seq<string>, t: string, patterns: seq<string>, matches: (string, string) -> bool)
    ensures Matching(lines + [t], patterns, matches)
         == Matching(lines, patterns, matches) + (if AnyMatch(t, patterns, matches) then [t] else [])
  {
    assert (lines + [t])[..|lines|] == lines;
  }

  // ---------------------------------------------------------------------------
  // What the classification promises
  // ---------------------------------------------------------------------------

  /** `t` is the trimmed form of one of `lines`. */
  predicate TrimsTo(lines: seq<string>, t: string) {
    exists i :: 0 <= i < |lines| && Trim(lines[i]) == t
  }

  lemma {:induction false} CandidatesSound(lines: seq<string>, t: string) returns (i: nat)
    requires t in Candidates(lines)
    ensures i < |lines| && Trim(lines[i]) == t && t != []
  {
    var init := lines[..|lines| - 1];
    var last := Trim(lines[|lines| - 1]);
    assert Candidates(lines) == Candidates(init) + (if last == [] then [] else [last]);
    if t in Candidates(init) {
      i := CandidatesSound(init, t);
      assert init[i] == lines[i];
    } else {
      i := |lines| - 1;
    }
  }

  lemma {:induction false} CandidatesComplete(lines: seq<string>, i: nat)
    requires i < |lines| && Trim(lines[i]) != []
    ensures Trim(lines[i]) in Candidates(lines)
  {
    var init := lines[..|lines| - 1];
    if i < |lines| - 1 {
      assert init[i] == lines[i];
      CandidatesComplete(init, i);
    }
  }

  lemma CandidatesMembers(lines: seq<string>, t: string)
    ensures t in Candidates(lines) <==> t != [] && TrimsTo(lines, t)
  {
    if t in Candidates(lines) {
      var i := CandidatesSound(lines, t);
    }
    if t != [] && TrimsTo(lines, t) {
      var i :| 0 <= i < |lines| && Trim(lines[i]) == t;
      CandidatesComplete(lines, i);
    }
  }

  lemma {:induction false} MatchingMembers(lines: seq<string>, patterns: seq<string>, matches: (string, string) -> bool, t: string)
    ensures t in Matching(lines, patterns, matches) <==> t in lines && AnyMatch(t, patterns, matches)
  {
    if lines != [] {
      var init := lines[..|lines| - 1];
      MatchingMembers(init, patterns, matches, t);
      assert lines == init + [lines[|lines| - 1]];
    }
  }

  lemma {:induction false} MatchingInOrder(lines: seq<string>, patterns: seq<string>, matches: (string, string) -> bool)
    ensures IsSubsequence(Matching(lines, patterns, matches), lines)
  {
    if lines != [] {
      var init := lines[..|lines| - 1];
      var last := lines[|lines| - 1];
      MatchingInOrder(init, patterns, matches);
      SubsequenceSnoc(Matching(init, patterns, matches), init, last);
      assert lines == init + [last];
      assert Matching(init, patterns, matches) + [] == Matching(init, patterns, matches);
    }
  }

  /** Every matching line is kept as often as it occurs, and every other line not at all. */
  lemma {:induction false} MatchingCount(lines: seq<string>, patterns: seq<string>, matches: (string, string) -> bool, t: string)
    ensures multiset(Matching(lines, patterns, matches))[t]
         == if AnyMatch(t, patterns, matches) then multiset(lines)[t] else 0
  {
    if lines != [] {
      var init, last := lines[..|lines| - 1], lines[|lines| - 1];
      MatchingCount(init, patterns, matches, t);
      assert lines == init + [last];
      MatchingStep(init, last, patterns, matches);
    }
  }

  lemma {:induction false} MatchingNoPatterns(lines: seq<string>, matches: (string, string) -> bool)
    ensures Matching(lines, [], matches) == []
  {
    if lines != [] {
      MatchingNoPatterns(lines[..|lines| - 1], matches);
    }
  }

  /** Every entry is a trimmed, non-blank line of the normalised output. */
  lemma ExtractEntriesAreLines(output: string, patterns: ExtractorPatterns, matches: (string, string) -> bool, t: string)
    requires t in ExtractSpec(output, patterns, matches).errors || t in ExtractSpec(output, patterns, matches).warnings
    ensures t != [] && Trim(t) == t && !AllWhitespace(t)
    ensures TrimsTo(Lines(output), t)
  {
    var candidates := Candidates(Lines(output));
    MatchingMembers(candidates, patterns.errors, matches, t);
    MatchingMembers(candidates, patterns.warnings, matches, t);
    CandidatesMembers(Lines(output), t);
    var i :| 0 <= i < |Lines(output)| && Trim(Lines(output)[i]) == t;
    TrimIdempotent(Lines(output)[i]);
  }

  /** A line is filed under errors exactly when some error pattern matches it; likewise for warnings. */
  lemma ExtractMembership(output: string, patterns: ExtractorPatterns, matches: (string, string) -> bool, t: string)
    ensures t in ExtractSpec(output, patterns, matches).errors
        <==> t in Candidates(Lines(output)) && AnyMatch(t, patterns.errors, matches)
    ensures t in ExtractSpec(output, patterns, matches).warnings
        <==> t in Candidates(Lines(output)) && AnyMatch(t, patterns.warnings, matches)
  {
    var candidates := Candidates(Lines(output));
    MatchingMembers(candidates, patterns.errors, matches, t);
    MatchingMembers(candidates, patterns.warnings, matches, t);
  }

  /** The two lists are classified independently: a line can be both an error and a warning. */
  lemma ExtractBothLists(output: string, patterns: ExtractorPatterns, matches: (string, string) -> bool, t: string)
    requires t in Candidates(Lines(output))
    requires AnyMatch(t, patterns.errors, matches) && AnyMatch(t, patterns.warnings, matches)
    ensures t in ExtractSpec(output, patterns, matches).errors
    ensures t in ExtractSpec(output, patterns, matches).warnings
  {
    ExtractMembership(output, patterns, matches, t);
  }

  /**
   * Each list keeps the input order and the duplicates of the non-blank
   * lines it takes, so neither is longer than the number of such lines.
   */
  lemma ExtractInOrder(output: string, patterns: ExtractorPatterns, matches: (string, string) -> bool, t: string)
    ensures IsSubsequence(ExtractSpec(output, patterns, matches).errors, Candidates(Lines(output)))
    ensures IsSubsequence(ExtractSpec(output, patterns, matches).warnings, Candidates(Lines(output)))
    ensures |ExtractSpec(output, patterns, matches).errors| <= |Candidates(Lines(output))|
    ensures |ExtractSpec(output, patterns, matches).warnings| <= |Candidates(Lines(output))|
    ensures multiset(ExtractSpec(output, patterns, matches).errors)[t]
         == if AnyMatch(t, patterns.errors, matches) then multiset(Candidates(Lines(output)))[t] else 0
    ensures multiset(ExtractSpec(output, patterns, matches).warnings)[t]
         == if AnyMatch(t, patterns.warnings, matches) then multiset(Candidates(Lines(output)))[t] else 0
  {
    var candidates := Candidates(Lines(output));
    MatchingInOrder(candidates, patterns.errors, matches);
    MatchingInOrder(candidates, patterns.warnings, matches);
    MatchingCount(candidates, patterns.errors, matches, t);
    MatchingCount(candidates, patterns.warnings, matches, t);
  }

  /** No patterns, no entries. */
  lemma ExtractNoPatterns(output: string, patterns: ExtractorPatterns, matches: (string, string) -> bool)
    ensures patterns.errors == [] ==> ExtractSpec(output, patterns, matches).errors == []
    ensures patterns.warnings == [] ==> ExtractSpec(output, patterns, matches).warnings == []
  {
    MatchingNoPatterns(Candidates(Lines(output)), matches);
  }

  /** Output made only of white space and line breaks yields two empty lists. */
  lemma ExtractBlankOutput(output: string, patterns: ExtractorPatterns, matches: (string, string) -> bool)
    requires AllWhitespace(output)
    ensures ExtractSpec(output, patterns, matches) == ExtractionResult([], [])
  {
    var normal := ReplaceAll(output, "\r\n", "\n");
    ReplaceAllKeepsWhitespace(output, "\r\n", "\n");
    ReplaceAllKeepsWhitespace(normal, "\r", "\n");
    SplitKeepsWhitespace(NormalizeLineEndings(output), '\n');
    var candidates := Candidates(Lines(output));
    if candidates != [] {
      CandidatesMembers(Lines(output), candidates[0]);
      assert false;
    }
  }
}

=== FILE: process_executor.dfy ===
/**
 * The process side of one tool invocation: sanitising captured terminal
 * output, normalising line endings, the four terminal states, and the race
 * between process exit and the two timers, in which the first event to
 * resolve the promise decides the outcome.
 */
module ProcessExecutor {
  import opened Wrappers
  import opened Strings

  const ESC: char := '\U{1B}'

  // ---------------------------------------------------------------------------
  // stripAnsi: delete every match of ESC `[` [0-9;]* [mK], scanning left to right
  // ---------------------------------------------------------------------------

  predicate IsCsiParameter(c: char) { '0' <= c <= '9' || c == ';' }

  predicate IsCsiFinal(c: char) { c == 'm' || c == 'K' }

  /** A complete colour or erase sequence: ESC `[`, parameters, then `m` or `K`. */
  predicate IsCsi(c: string) {
    && |c| >= 3
    && c[0] == ESC && c[1] == '['
    && (forall i :: 2 <= i < |c| - 1 ==> IsCsiParameter(c[i]))
    && IsCsiFinal(c[|c| - 1])
  }

  /** The length of the longest prefix of `s` made of CSI parameter characters. */
  function ParameterRun(s: string): (n: nat)
    ensures n <= |s|
    ensures forall i :: 0 <= i < n ==> IsCsiParameter(s[i])
    ensures n < |s| ==> !IsCsiParameter(s[n])
  {
    if s != [] && IsCsiParameter(s[0]) then 1 + ParameterRun(s[1..]) else 0
  }

  /**
   * The length of the match of the sanitiser's pattern at the start of `s`,
   * if there is one. The parameter class and the final class are disjoint,
   * so the greedy parameter run never needs to backtrack.
   */
  function CsiAt(s: string): (m: Option<nat>)
    ensures m.Some? ==> m.value <= |s| && IsCsi(s[..m.value])
  {
    if |s| >= 2 && s[0] == ESC && s[1] == '[' then
      var k := ParameterRun(s[2..]);
      if 2 + k < |s| && IsCsiFinal(s[2 + k]) then Some(3 + k) else None
    else None
  }

  /**
   * `stripAnsi`: at each position, a match of the pattern is deleted and the
   * scan resumes after it; any other character is kept and the scan moves on
   * by one. What is left is a subsequence of the input.
   */
  function StripAnsi(s: string): (r: string)
    ensures IsSubsequence(r, s)
    ensures ESC !in s ==> r == s
    decreases |s|
  {
    if s == [] then []
    else
      match CsiAt(s)
      case Some(n) =>
        var r := StripAnsi(s[n..]);
        SubsequenceOfSuffix(r, s, n);
        r
      case None =>
        var rest := StripAnsi(s[1..]);
        var r := [s[0]] + rest;
        assert r[1..] == rest;
        r
  }

  lemma StripAnsiNeverLonger(s: string)
    ensures |StripAnsi(s)| <= |s|
  {
    SubsequenceIsShorter(StripAnsi(s), s);
  }

  /** Text without ESC passes through unchanged, and the scan continues behind it. */
  lemma {:induction false} StripAnsiPlainPrefix(p: string, t: string)
    requires ESC !in p
    ensures StripAnsi(p + t) == p + StripAnsi(t)
    decreases |p|
  {
    if p != [] {
      assert (p + t)[0] == p[0] != ESC;
      assert CsiAt(p + t) == None;
      assert (p + t)[1..] == p[1..] + t;
      assert StripAnsi(p + t) == [p[0]] + StripAnsi(p[1..] + t);
      StripAnsiPlainPrefix(p[1..], t);
      assert p == [p[0]] + p[1..];
    } else {
      assert p + t == t;
    }
  }

  /** A complete sequence at the front is deleted, whatever follows it. */
  lemma StripAnsiDropsCsi(c: string, t: string)
    requires IsCsi(c)
    ensures StripAnsi(c + t) == StripAnsi(t)
  {
    var s := c + t;
    var k := ParameterRun(s[2..]);
    assert forall i :: 0 <= i < |c| - 3 ==> s[2..][i] == c[2 + i];
    assert s[2..][|c| - 3] == c[|c| - 1];
    assert k == |c| - 3;
    assert CsiAt(s) == Some(|c|);
    assert s[|c|..] == t;
  }

  /** An ESC that does not start a complete sequence is kept, and the scan moves on by one character. */
  lemma StripAnsiKeepsStrayEsc(t: string)
    requires forall n :: 3 <= n <= |t| + 1 ==> !IsCsi(([ESC] + t)[..n])
    ensures StripAnsi([ESC] + t) == [ESC] + StripAnsi(t)
  {
    var s := [ESC] + t;
    assert CsiAt(s) == None;
    assert s[1..] == t;
  }

  /**
   * The sanitiser is not idempotent: deleting the inner sequence of
   * ESC `[` ESC `[0m` `m` joins its neighbours into a new one.
   */
  lemma StripAnsiNotIdempotent()
    ensures StripAnsi([ESC, '[', ESC, '[', '0', 'm', 'm']) == [ESC, '[', 'm']
    ensures StripAnsi([ESC, '[', 'm']) == []
  {
    var s: string := [ESC, '[', ESC, '[', '0', 'm', 'm'];
    var csi: string := [ESC, '[', '0', 'm'];
    assert CsiAt(s) == None by {
      assert ParameterRun(s[2..]) == 0;
    }
    assert StripAnsi(s) == [ESC] + StripAnsi(s[1..]);
    assert s[1..] == ['['] + (csi + ['m']);
    assert IsCsi(csi);
    StripAnsiPlainPrefix(['['], csi + ['m']);
    StripAnsiDropsCsi(csi, ['m']);
    StripAnsiPlainPrefix(['m'], []);
    assert ['m'] + [] == ['m'];
    assert StripAnsi(['m']) == ['m'];
    var again: string := [ESC, '[', 'm'];
    assert IsCsi(again);
    StripAnsiDropsCsi(again, []);
    assert again + [] == again;
  }

  // ---------------------------------------------------------------------------
  // normalizeLineEndings: "\r\n" first, then any remaining "\r", become "\n"
  // ---------------------------------------------------------------------------

  function NormalizeLineEndings(output: string): (r: string)
    ensures '\r' !in r
    ensures '\r' !in output ==> r == output
  {
    var crlf := ReplaceAll(output, "\r\n", "\n");
    var r := ReplaceAll(crlf, "\r", "\n");
    ReplaceAllRemovesChar(crlf, '\r', "\n");
    CarriageReturnFree(output);
    r
  }

  /** Each "\r\n" pair shrinks to one character; a bare "\r" keeps its place. */
  lemma NormalizeLineEndingsLength(output: string)
    ensures |NormalizeLineEndings(output)| == |output| - Count(output, "\r\n")
  {
    var crlf := ReplaceAll(output, "\r\n", "\n");
    ReplaceAllLength(output, "\r\n", "\n");
    ReplaceAllLength(crlf, "\r", "\n");
  }

  lemma CarriageReturnFree(s: string)
    ensures '\r' !in s ==> !Occurs(s, "\r\n") && !Occurs(s, "\r")
  {
    if Occurs(s, "\r\n") {
      OccursHead(s, "\r\n");
    }
    OccursChar(s, '\r');
  }

  lemma NormalizeLineEndingsIdempotent(s: string)
    ensures NormalizeLineEndings(NormalizeLineEndings(s)) == NormalizeLineEndings(s)
  {
  }

  /** "\r\n" is rewritten before a bare "\r", so "\r\r\n" becomes two line feeds. */
  lemma NormalizeCrCrLf()
    ensures NormalizeLineEndings("\r\r\n") == "\n\n"
  {
    var s := "\r\r\n";
    assert s[..2][1] == '\r';
    assert s[1..][..2] == "\r\n";
    assert ReplaceAll(s[1..], "\r\n", "\n") == "\n";
    assert ReplaceAll(s, "\r\n", "\n") == "\r\n";
    assert "\r\n"[1..] == "\n";
    assert ReplaceAll("\n", "\r", "\n") == "\n";
  }

  // ---------------------------------------------------------------------------
  // Terminal states and the race that picks one of them
  // ---------------------------------------------------------------------------

  datatype ProcessState = Normal | Fail | TimeoutTotal | TimeoutInactive {
    predicate IsTimeout() { this == TimeoutTotal || this == TimeoutInactive }
  }

  /** `error` is set only by the two timers. */
  datatype ProcessResult = ProcessResult(output: string, state: ProcessState, error: Option<string>)

  const InactivityMessage: string := "Command killed due to inactivity timeout"
  const TotalTimeoutMessage: string := "Command killed due to total timeout"

  /** The shape of every result the supervisor resolves with. */
  predicate Settled(r: ProcessResult) {
    && (r.state == Normal || r.state == Fail ==> r.error == None)
    && (r.state == TimeoutInactive ==> r.error == Some(InactivityMessage))
    && (r.state == TimeoutTotal ==> r.error == Some(TotalTimeoutMessage))
  }

  /**
   * What the world does to a running command, serialised as callbacks run
   * one at a time: a chunk of output, the process exiting, or one of the two
   * timers elapsing.
   */
  datatype Event = Data(chunk: string) | Exit(exitCode: int) | InactivityElapsed | TotalElapsed

  /** An event that calls `resolve` (the total timer exists only when `totalTimeout > 0`). */
  predicate Resolves(e: Event, totalTimeout: int) {
    e.Exit? || e.InactivityElapsed? || (e.TotalElapsed? && totalTimeout > 0)
  }

  /** The value a resolving callback passes to `resolve`, given the output captured so far. */
  function Resolution(captured: string, e: Event): (r: ProcessResult)
    requires e.Exit? || e.InactivityElapsed? || e.TotalElapsed?
    ensures Settled(r)
  {
    match e
    case Exit(code) => ProcessResult(StripAnsi(captured), if code == 0 then Normal else Fail, None)
    case InactivityElapsed => ProcessResult(StripAnsi(captured), TimeoutInactive, Some(InactivityMessage))
    case TotalElapsed => ProcessResult(StripAnsi(captured), TimeoutTotal, Some(TotalTimeoutMessage))
  }

  /** Exit code 0 is the only way to `Normal`; each timer has its own state and message. */
  lemma ResolutionStates(captured: string, e: Event)
    requires e.Exit? || e.InactivityElapsed? || e.TotalElapsed?
    ensures Resolution(captured, e).output == StripAnsi(captured)
    ensures Resolution(captured, e).state == Normal <==> e == Exit(0)
    ensures Resolution(captured, e).state == Fail <==> e.Exit? && e.exitCode != 0
    ensures Resolution(captured, e).error.Some? <==> !e.Exit?
    ensures e.InactivityElapsed? ==> Resolution(captured, e) == ProcessResult(StripAnsi(captured), TimeoutInactive, Some(InactivityMessage))
    ensures e.TotalElapsed? ==> Resolution(captured, e) == ProcessResult(StripAnsi(captured), TimeoutTotal, Some(TotalTimeoutMessage))
  {
  }

  /**
   * The promise's value: the resolution of the first resolving event, with
   * the output captured before it; `None` while nothing has resolved.
   */
  function Settle(events: seq<Event>, totalTimeout: int, captured: string): (r: Option<ProcessResult>)
    ensures r.Some? ==> Settled(r.value)
    ensures r.Some? && r.value.state == TimeoutTotal ==> totalTimeout > 0
    decreases |events|
  {
    if events == [] then None
    else if Resolves(events[0], totalTimeout) then Some(Resolution(captured, events[0]))
    else if events[0].Data? then Settle(events[1..], totalTimeout, captured + events[0].chunk)
    else Settle(events[1..], totalTimeout, captured)
  }

  /** All output chunks of `events`, in order. */
  function CapturedOutput(events: seq<Event>): string {
    if events == [] then ""
    else (if events[0].Data? then events[0].chunk else "") + CapturedOutput(events[1..])
  }

  /**
   * The first resolving event decides: whatever comes after it is ignored,
   * and the output is everything captured before it, sanitised.
   */
  lemma {:induction false} FirstResolutionWins(before: seq<Event>, e: Event, after: seq<Event>, totalTimeout: int, captured: string)
    requires forall i :: 0 <= i < |before| ==> !Resolves(before[i], totalTimeout)
    requires Resolves(e, totalTimeout)
    ensures Settle(before + [e] + after, totalTimeout, captured)
         == Some(Resolution(captured + CapturedOutput(before), e))
    decreases |before|
  {
    var events := before + [e] + after;
    if before == [] {
      assert events[0] == e;
      assert captured + CapturedOutput(before) == captured;
    } else {
      assert events[0] == before[0];
      assert events[1..] == before[1..] + [e] + after;
      var next := if before[0].Data? then captured + before[0].chunk else captured;
      FirstResolutionWins(before[1..], e, after, totalTimeout, next);
      assert next + CapturedOutput(before[1..]) == captured + CapturedOutput(before);
    }
  }

  /**
   * `executeProcess` after the spawn: the callbacks append output chunks and
   * call `resolve`, which only the first call affects.
   */
  method ExecuteProcess(events: seq<Event>, totalTimeout: int) returns (resolved: Option<ProcessResult>)
    ensures resolved == Settle(events, totalTimeout, "")
  {
    var output := "";
    resolved := None;
    for i := 0 to |events|
      invariant resolved.Some? ==> resolved == Settle(events, totalTimeout, "")
      invariant resolved.None? ==> Settle(events, totalTimeout, "") == Settle(events[i..], totalTimeout, output)
    {
      assert events[i..][1..] == events[i + 1..];
      match events[i]
      case Data(chunk) =>
        output := output + chunk;
      case Exit(code) =>
        if resolved.None? {
          resolved := Some(ProcessResult(StripAnsi(output), if code == 0 then Normal else Fail, None));
        }
      case InactivityElapsed =>
        if resolved.None? {
          resolved := Some(ProcessResult(StripAnsi(output), TimeoutInactive, Some(InactivityMessage)));
        }
      case TotalElapsed =>
        if totalTimeout > 0 && resolved.None? {
          resolved := Some(ProcessResult(StripAnsi(output), TimeoutTotal, Some(TotalTimeoutMessage)));
        }
    }
  }
}

=== FILE: strings.dfy ===
/**
 * The JavaScript string and array built-ins the core relies on, stated on
 * `seq<char>`: `trim`, `split` on one character, `join`, a global literal
 * `replace`, `slice` with one argument, `parseInt` and `String` of an integer.
 */
module Strings {
  import opened Wrappers

  /** The white space and line terminator characters that `String.prototype.trim` removes. */
  predicate IsWhitespace(c: char) {
    || c == '\t' || c == '\n' || c == '\U{0B}' || c == '\U{0C}' || c == '\r' || c == ' '
    || c == '\U{A0}' || c == '\U{1680}' || ('\U{2000}' <= c <= '\U{200A}')
    || c == '\U{2028}' || c == '\U{2029}' || c == '\U{202F}' || c == '\U{205F}'
    || c == '\U{3000}' || c == '\U{FEFF}'
  }

  predicate AllWhitespace(s: string) {
    forall i :: 0 <= i < |s| ==> IsWhitespace(s[i])
  }

  /** Drops the leading white space: what is left is a suffix of `s` that starts with a non-space. */
  function TrimStart(s: string): (r: string)
    ensures |r| <= |s| && r == s[|s| - |r|..]
    ensures AllWhitespace(s[..|s| - |r|])
    ensures r == [] || !IsWhitespace(r[0])
  {
    if s != [] && IsWhitespace(s[0]) then TrimStart(s[1..]) else s
  }

  /** Drops the trailing white space: what is left is a prefix of `s` that ends with a non-space. */
  function TrimEnd(s: string): (r: string)
    ensures |r| <= |s| && r == s[..|r|]
    ensures AllWhitespace(s[|r|..])
    ensures r == [] || !IsWhitespace(r[|r| - 1])
  {
    if s != [] && IsWhitespace(s[|s| - 1]) then TrimEnd(s[..|s| - 1]) else s
  }

  /** `s.trim()`. */
  function Trim(s: string): (r: string)
    ensures |r| <= |s|
    ensures r == [] || (!IsWhitespace(r[0]) && !IsWhitespace(r[|r| - 1]))
  {
    TrimEdges(s);
    TrimEnd(TrimStart(s))
  }

  lemma TrimEdges(s: string)
    ensures var r := TrimEnd(TrimStart(s));
      r == [] || (!IsWhitespace(r[0]) && !IsWhitespace(r[|r| - 1]))
  {
    var t := TrimStart(s);
    var r := TrimEnd(t);
    assert r != [] ==> r[0] == t[0];
  }

  /** Only white space trims to nothing. */
  lemma TrimBlank(s: string)
    ensures Trim(s) == [] <==> AllWhitespace(s)
  {
    var t := TrimStart(s);
    var r := TrimEnd(t);
    var k := |s| - |t|;
    if r != [] {
      assert r[0] == t[0] == s[k];
    } else {
      assert t == [] && s[..k] == s;
    }
  }

  lemma TrimIdempotent(s: string)
    ensures Trim(Trim(s)) == Trim(s)
  {
    var r := Trim(s);
    assert TrimStart(r) == r;
    assert TrimEnd(r) == r;
  }

  /** `parts.join(sep)`: the parts with `sep` between each two neighbours. */
  function Join(parts: seq<string>, sep: string): string {
    if |parts| == 0 then ""
    else if |parts| == 1 then parts[0]
    else parts[0] + sep + Join(parts[1..], sep)
  }

  /**
   * `s.split(sep)`: the maximal pieces of `s` free of `sep`; there is always
   * at least one piece.
   */
  function Split(s: string, sep: char): (r: seq<string>)
    ensures |r| >= 1
    ensures forall i :: 0 <= i < |r| ==> sep !in r[i]
  {
    if s == [] then [""]
    else
      var rest := Split(s[1..], sep);
      if s[0] == sep then [""] + rest
      else [[s[0]] + rest[0]] + rest[1..]
  }

  /** Joining the pieces with the separator gives back the split string. */
  lemma {:induction false} SplitThenJoin(s: string, sep: char)
    ensures Join(Split(s, sep), [sep]) == s
  {
    if s != [] {
      var rest := Split(s[1..], sep);
      SplitThenJoin(s[1..], sep);
      if s[0] == sep {
        assert ([""] + rest)[1..] == rest;
      } else {
        var r := [[s[0]] + rest[0]] + rest[1..];
        if |rest| > 1 {
          assert r[1..] == rest[1..];
        }
        assert s == [s[0]] + s[1..];
      }
    }
  }

  /** A character absent from `s` is absent from every piece of `Split(s, sep)`. */
  lemma {:induction false} SplitAvoids(s: string, sep: char, c: char)
    requires c !in s
    ensures forall i :: 0 <= i < |Split(s, sep)| ==> c !in Split(s, sep)[i]
  {
    if s != [] {
      SplitAvoids(s[1..], sep, c);
    }
  }

  /** `a` can be obtained from `b` by deleting elements. */
  predicate IsSubsequence<T(==)>(a: seq<T>, b: seq<T>)
    decreases |b|
  {
    if a == [] then true
    else if b == [] then false
    else (a[0] == b[0] && IsSubsequence(a[1..], b[1..])) || IsSubsequence(a, b[1..])
  }

  lemma {:induction false} SubsequenceOfSuffix<T>(a: seq<T>, b: seq<T>, k: nat)
    requires k <= |b| && IsSubsequence(a, b[k..])
    ensures IsSubsequence(a, b)
    decreases k
  {
    if k > 0 {
      assert b[1..][k - 1..] == b[k..];
      SubsequenceOfSuffix(a, b[1..], k - 1);
    }
  }

  lemma {:induction false} SubsequenceIsShorter<T>(a: seq<T>, b: seq<T>)
    requires IsSubsequence(a, b)
    ensures |a| <= |b|
    decreases |b|
  {
    if a != [] {
      if a[0] == b[0] && IsSubsequence(a[1..], b[1..]) {
        SubsequenceIsShorter(a[1..], b[1..]);
      } else {
        SubsequenceIsShorter(a, b[1..]);
      }
    }
  }

  /** Appending the same element to both sides, or to the longer side only, keeps a subsequence. */
  lemma {:induction false} SubsequenceSnoc<T>(a: seq<T>, b: seq<T>, x: T)
    requires IsSubsequence(a, b)
    ensures IsSubsequence(a + [x], b + [x])
    ensures IsSubsequence(a, b + [x])
    decreases |b|
  {
    if a == [] {
      assert (a + [x])[1..] == [] && (b + [x])[|b|..] == [x];
      SubsequenceOfSuffix(a + [x], b + [x], |b|);
    } else if a[0] == b[0] && IsSubsequence(a[1..], b[1..]) {
      SubsequenceSnoc(a[1..], b[1..], x);
      assert (a + [x])[1..] == a[1..] + [x];
      assert (b + [x])[1..] == b[1..] + [x];
    } else {
      SubsequenceSnoc(a, b[1..], x);
      assert (b + [x])[1..] == b[1..] + [x];
    }
  }

  /** `pat` occurs somewhere in `s`. */
  predicate Occurs(s: string, pat: string)
    decreases |s|
  {
    |s| >= |pat| && (s[..|pat|] == pat || (s != [] && Occurs(s[1..], pat)))
  }

  lemma {:induction false} OccursChar(s: string, c: char)
    ensures Occurs(s, [c]) <==> c in s
  {
    if s != [] {
      OccursChar(s[1..], c);
      assert s == [s[0]] + s[1..];
    }
  }

  /** Where `pat` occurs, so does each of its prefixes. */
  lemma {:induction false} OccursPrefix(s: string, pat: string, k: nat)
    requires k <= |pat|
    ensures Occurs(s, pat) ==> Occurs(s, pat[..k])
    decreases |s|
  {
    if Occurs(s, pat) {
      if s[..|pat|] == pat {
        assert s[..k] == pat[..k];
      } else {
        OccursPrefix(s[1..], pat, k);
      }
    }
  }

  /** An occurrence of a non-empty `pat` puts its first character in `s`. */
  lemma {:induction false} OccursHead(s: string, pat: string)
    requires pat != [] && Occurs(s, pat)
    ensures pat[0] in s
    decreases |s|
  {
    if s[..|pat|] != pat {
      OccursHead(s[1..], pat);
    }
  }

  /**
   * `s.replace(/pat/g, rep)` for a pattern without metacharacters and a
   * replacement without `$`: a left-to-right scan that replaces each
   * occurrence of `pat` and resumes after it.
   */
  function ReplaceAll(s: string, pat: string, rep: string): (r: string)
    requires pat != []
    ensures !Occurs(s, pat) ==> r == s
    decreases |s|
  {
    if |s| < |pat| then s
    else if s[..|pat|] == pat then rep + ReplaceAll(s[|pat|..], pat, rep)
    else [s[0]] + ReplaceAll(s[1..], pat, rep)
  }

  /** `pat` occurs in `s` at index `j`. */
  predicate At(s: string, pat: string, j: int) {
    0 <= j && j + |pat| <= |s| && s[j..j + |pat|] == pat
  }

  /** One step of the scan where no occurrence starts. */
  lemma ReplaceAllMiss(s: string, pat: string, rep: string)
    requires pat != [] && |s| >= |pat| && s[..|pat|] != pat
    ensures ReplaceAll(s, pat, rep) == [s[0]] + ReplaceAll(s[1..], pat, rep)
  {
  }

  /** One step of the scan where an occurrence starts. */
  lemma ReplaceAllHit(s: string, pat: string, rep: string)
    requires pat != [] && |s| >= |pat| && s[..|pat|] == pat
    ensures ReplaceAll(s, pat, rep) == rep + ReplaceAll(s[|pat|..], pat, rep)
  {
  }

  /**
   * Text in which no occurrence starts passes through unchanged, and the
   * scan continues behind it.
   */
  lemma {:induction false} ReplaceAllPrefix(a: string, t: string, pat: string, rep: string)
    requires pat != []
    requires forall j :: 0 <= j < |a| ==> !At(a + t, pat, j)
    ensures ReplaceAll(a + t, pat, rep) == a + ReplaceAll(t, pat, rep)
    decreases |a|
  {
    if a == [] {
      assert a + t == t;
    } else {
      var s := a + t;
      if |s| < |pat| {
        assert ReplaceAll(s, pat, rep) == s;
        assert ReplaceAll(t, pat, rep) == t;
      } else {
        calc {
          ReplaceAll(s, pat, rep);
          { assert !At(s, pat, 0); assert s[..|pat|] == s[0..|pat|]; ReplaceAllMiss(s, pat, rep); }
          [s[0]] + ReplaceAll(s[1..], pat, rep);
          { assert s[1..] == a[1..] + t; }
          [a[0]] + ReplaceAll(a[1..] + t, pat, rep);
          { AtDrop(a, t, pat); ReplaceAllPrefix(a[1..], t, pat, rep); }
          [a[0]] + (a[1..] + ReplaceAll(t, pat, rep));
          { assert a == [a[0]] + a[1..]; }
          a + ReplaceAll(t, pat, rep);
        }
      }
    }
  }

  /** Dropping the first character moves every position one place to the left. */
  lemma AtDrop(a: string, t: string, pat: string)
    requires a != []
    requires forall j :: 0 <= j < |a| ==> !At(a + t, pat, j)
    ensures forall j :: 0 <= j < |a| - 1 ==> !At(a[1..] + t, pat, j)
  {
    forall j | 0 <= j < |a| - 1
      ensures !At(a[1..] + t, pat, j)
    {
      assert !At(a + t, pat, j + 1);
      assert (a + t)[j + 1..] == (a[1..] + t)[j..];
    }
  }

  /**
   * The leftmost occurrence of `pat` is replaced, the text before it is
   * kept, and the scan resumes right after it.
   */
  lemma ReplaceAllLeftmost(s: string, pat: string, rep: string, k: nat)
    requires pat != [] && At(s, pat, k)
    requires forall j :: 0 <= j < k ==> !At(s, pat, j)
    ensures ReplaceAll(s, pat, rep) == s[..k] + rep + ReplaceAll(s[k + |pat|..], pat, rep)
  {
    var a, t := s[..k], s[k..];
    calc {
      ReplaceAll(s, pat, rep);
      { assert s == a + t; }
      ReplaceAll(a + t, pat, rep);
      { assert s == a + t; ReplaceAllPrefix(a, t, pat, rep); }
      a + ReplaceAll(t, pat, rep);
      { assert t[..|pat|] == s[k..k + |pat|]; ReplaceAllHit(t, pat, rep); }
      a + (rep + ReplaceAll(t[|pat|..], pat, rep));
      { assert t[|pat|..] == s[k + |pat|..]; }
      a + rep + ReplaceAll(s[k + |pat|..], pat, rep);
    }
  }

  /** Text without the first character of `pat` passes through unchanged. */
  lemma ReplaceAllSkips(a: string, t: string, pat: string, rep: string)
    requires pat != [] && pat[0] !in a
    ensures ReplaceAll(a + t, pat, rep) == a + ReplaceAll(t, pat, rep)
  {
    forall j | 0 <= j < |a|
      ensures !At(a + t, pat, j)
    {
      assert j + |pat| <= |a + t| ==> (a + t)[j..j + |pat|][0] == a[j];
    }
    ReplaceAllPrefix(a, t, pat, rep);
  }

  /** A single occurrence between text that cannot start another is replaced, and nothing else changes. */
  lemma ReplaceAllOnce(a: string, b: string, pat: string, rep: string)
    requires pat != [] && pat[0] !in a && pat[0] !in b
    ensures ReplaceAll(a + pat + b, pat, rep) == a + rep + b
  {
    ReplaceAllSkips(a, pat + b, pat, rep);
    assert (pat + b)[..|pat|] == pat;
    assert (pat + b)[|pat|..] == b;
    if Occurs(b, pat) {
      OccursHead(b, pat);
    }
    assert a + pat + b == a + (pat + b);
  }

  /** The number of occurrences of `pat` that `ReplaceAll` replaces. */
  function Count(s: string, pat: string): nat
    requires pat != []
    decreases |s|
  {
    if |s| < |pat| then 0
    else if s[..|pat|] == pat then 1 + Count(s[|pat|..], pat)
    else Count(s[1..], pat)
  }

  /** Each replacement changes the length by `|rep| - |pat|`. */
  lemma {:induction false} ReplaceAllLength(s: string, pat: string, rep: string)
    requires pat != []
    ensures |ReplaceAll(s, pat, rep)| == |s| + Count(s, pat) * (|rep| - |pat|)
    decreases |s|
  {
    if |s| < |pat| {
    } else if s[..|pat|] == pat {
      var rest := s[|pat|..];
      ReplaceAllLength(rest, pat, rep);
      MulStep(Count(rest, pat), |rep| - |pat|);
    } else {
      ReplaceAllLength(s[1..], pat, rep);
    }
  }

  lemma MulStep(c: int, d: int)
    ensures (1 + c) * d == d + c * d
  {
  }

  /** Replacing a single character by text that does not contain it leaves none of it behind. */
  lemma {:induction false} ReplaceAllRemovesChar(s: string, c: char, rep: string)
    requires c !in rep
    ensures c !in ReplaceAll(s, [c], rep)
    decreases |s|
  {
    if |s| >= 1 {
      if s[..1] == [c] {
        ReplaceAllRemovesChar(s[1..], c, rep);
      } else {
        assert s[0] != c;
        ReplaceAllRemovesChar(s[1..], c, rep);
      }
    }
  }

  /** Replacing within white space by white space leaves white space. */
  lemma {:induction false} ReplaceAllKeepsWhitespace(s: string, pat: string, rep: string)
    requires pat != [] && AllWhitespace(s) && AllWhitespace(rep)
    ensures AllWhitespace(ReplaceAll(s, pat, rep))
    decreases |s|
  {
    if |s| >= |pat| {
      if s[..|pat|] == pat {
        ReplaceAllKeepsWhitespace(s[|pat|..], pat, rep);
      } else {
        ReplaceAllKeepsWhitespace(s[1..], pat, rep);
      }
    }
  }

  /** Every piece of white space split on a character is white space. */
  lemma {:induction false} SplitKeepsWhitespace(s: string, sep: char)
    requires AllWhitespace(s)
    ensures forall i :: 0 <= i < |Split(s, sep)| ==> AllWhitespace(Split(s, sep)[i])
  {
    if s != [] {
      SplitKeepsWhitespace(s[1..], sep);
    }
  }

  /** `xs.slice(start)` for an integer `start`: a negative start counts from the end. */
  function SliceFrom<T>(xs: seq<T>, start: int): (r: seq<T>)
    ensures |r| <= |xs| && r == xs[|xs| - |r|..]
    ensures start < 0 ==> |r| == (if -start < |xs| then -start else |xs|)
    ensures start >= 0 ==> |r| == (if start < |xs| then |xs| - start else 0)
  {
    var from :=
      if start < 0 then (if |xs| + start < 0 then 0 else |xs| + start)
      else (if start > |xs| then |xs| else start);
    xs[from..]
  }

  function DigitChar(d: nat): (c: char)
    requires d < 10
    ensures '0' <= c <= '9'
  {
    ('0' as int + d) as char
  }

  /** `String(n)` for a natural number: its decimal digits, without leading zeros. */
  function NatToString(n: nat): (r: string)
    ensures |r| >= 1
    ensures forall i :: 0 <= i < |r| ==> '0' <= r[i] <= '9'
    ensures r[0] == '0' ==> n == 0
  {
    if n < 10 then [DigitChar(n)] else NatToString(n / 10) + [DigitChar(n % 10)]
  }

  /** `String(n)` for an integer. */
  function IntToString(n: int): string {
    if n < 0 then "-" + NatToString(-n) else NatToString(n)
  }

  /** The value of `c` as a digit of any radix up to 36, as `parseInt` reads it. */
  function DigitValue(c: char): Option<nat> {
    if '0' <= c <= '9' then Some(c as int - '0' as int)
    else if 'a' <= c <= 'z' then Some(c as int - 'a' as int + 10)
    else if 'A' <= c <= 'Z' then Some(c as int - 'A' as int + 10)
    else None
  }

  predicate IsDigit(c: char, radix: nat) {
    DigitValue(c).Some? && DigitValue(c).value < radix
  }

  /** The longest prefix of `s` made of digits of `radix`. */
  function LeadingDigits(s: string, radix: nat): (r: string)
    ensures |r| <= |s| && r == s[..|r|]
    ensures forall i :: 0 <= i < |r| ==> IsDigit(r[i], radix)
    ensures |r| < |s| ==> !IsDigit(s[|r|], radix)
  {
    if s != [] && IsDigit(s[0], radix) then [s[0]] + LeadingDigits(s[1..], radix) else []
  }

  function DigitsValue(ds: string, radix: nat): nat
    requires forall i :: 0 <= i < |ds| ==> IsDigit(ds[i], radix)
  {
    if ds == [] then 0
    else
      var init, last := ds[..|ds| - 1], ds[|ds| - 1];
      assert IsDigit(last, radix);
      assert forall i :: 0 <= i < |init| ==> init[i] == ds[i];
      var high := DigitsValue(init, radix);
      MulIsNat(high, radix);
      high * radix + DigitValue(last).value
  }

  lemma MulIsNat(a: nat, b: nat)
    ensures a * b >= 0
  {
  }

  /**
   * The unsigned part of `parseInt`: a `0x` or `0X` prefix selects radix 16,
   * otherwise radix 10, and the longest run of digits that follows is the
   * value. `None` stands for `NaN`.
   */
  function ParseMagnitude(u: string): Option<nat> {
    if |u| >= 2 && u[0] == '0' && (u[1] == 'x' || u[1] == 'X') then ParseDigits(u[2..], 16)
    else ParseDigits(u, 10)
  }

  /** The value of the longest run of digits of `radix` at the start of `u`, if it is not empty. */
  function ParseDigits(u: string, radix: nat): Option<nat> {
    var digits := LeadingDigits(u, radix);
    if digits == [] then None else Some(DigitsValue(digits, radix))
  }

  /** `parseInt(s)` without a radix: leading white space is skipped and one sign is read. */
  function ParseInt(s: string): Option<int> {
    var t := TrimStart(s);
    var negative := |t| > 0 && t[0] == '-';
    var u := if |t| > 0 && (t[0] == '-' || t[0] == '+') then t[1..] else t;
    match ParseMagnitude(u)
    case None => None
    case Some(magnitude) => Some(if negative then -(magnitude as int) else magnitude as int)
  }

  lemma {:induction false} DigitsValueOfNat(n: nat)
    ensures forall i :: 0 <= i < |NatToString(n)| ==> IsDigit(NatToString(n)[i], 10)
    ensures DigitsValue(NatToString(n), 10) == n
  {
    var r := NatToString(n);
    forall i | 0 <= i < |r| ensures IsDigit(r[i], 10) {
      assert '0' <= r[i] <= '9';
    }
    if n >= 10 {
      DigitsValueOfNat(n / 10);
      assert r[..|r| - 1] == NatToString(n / 10);
    }
  }

  lemma LeadingDigitsOfDigits(s: string)
    requires forall i :: 0 <= i < |s| ==> '0' <= s[i] <= '9'
    ensures LeadingDigits(s, 10) == s
  {
  }

  lemma ParseMagnitudeOfNat(n: nat)
    ensures ParseMagnitude(NatToString(n)) == Some(n)
  {
    var digits := NatToString(n);
    DigitsValueOfNat(n);
    LeadingDigitsOfDigits(digits);
    assert |digits| >= 2 ==> '0' <= digits[1] <= '9';
  }

  /**
   * `parseInt` reads back the decimal text of every integer. JavaScript's
   * `String` writes that text only below 10^21 in magnitude.
   */
  lemma ParseIntOfIntToString(n: int)
    ensures ParseInt(IntToString(n)) == Some(n)
  {
    if n < 0 {
      var m: nat := -n;
      assert IntToString(n) == "-" + NatToString(m);
      ParseIntOfNegative(m);
    } else {
      assert IntToString(n) == NatToString(n);
      ParseIntOfNat(n);
    }
  }

  lemma ParseIntOfNat(m: nat)
    ensures ParseInt(NatToString(m)) == Some(m)
  {
    ParseMagnitudeOfNat(m);
    ParseIntUnsigned(NatToString(m));
  }

  lemma ParseIntOfNegative(m: nat)
    ensures ParseInt("-" + NatToString(m)) == Some(-(m as int))
  {
    ParseMagnitudeOfNat(m);
    ParseIntNegative(NatToString(m));
  }

  /** Text that starts with a digit is read by `ParseMagnitude` alone. */
  lemma ParseIntUnsigned(u: string)
    requires u != [] && '0' <= u[0] <= '9'
    ensures ParseInt(u) == ParseMagnitude(u)
  {
    assert !IsWhitespace(u[0]);
    assert TrimStart(u) == u;
  }

  /** A minus sign in front of a digit negates what `ParseMagnitude` reads. */
  lemma ParseIntNegative(u: string)
    requires u != [] && '0' <= u[0] <= '9'
    ensures ParseInt("-" + u) == (match ParseMagnitude(u) case None => None case Some(v) => Some(-(v as int)))
  {
    var s := "-" + u;
    assert s[0] == '-' && !IsWhitespace(s[0]);
    assert TrimStart(s) == s;
    assert s[1..] == u;
  }
}

=== FILE: tool_executor.dfy ===
/**
 * One tool invocation after the process has run: placeholders in the
 * command are filled in, the process result is turned into a response text
 * and an error flag, either from the extracted error and warning lines
 * (`formatOutput`) or from a tail of the raw output.
 */
module ToolExecutor {
  import opened Wrappers
  import opened Strings
  import opened ProcessExecutor
  import opened ConfigTypes
  import opened OutputExtractor

  /** The `{ output }` text of the response and its `isError` flag. */
  datatype ToolResult = ToolResult(output: string, isError: bool)

  // ---------------------------------------------------------------------------
  // processTemplate
  // ---------------------------------------------------------------------------

  function Placeholder(key: string): (p: string)
    ensures |p| == |key| + 4 && p[..2] == "{{"
  {
    "{{" + key + "}}"
  }

  /** `String(value)` for the values a caller passes. */
  function ScalarToString(v: Scalar): string {
    match v
    case Str(s) => s
    case Num(n) => IntToString(n)
    case Bool(b) => if b then "true" else "false"
  }

  predicate IsRegexMeta(c: char) {
    c in "\\^$.|?*+()[]{}"
  }

  predicate IsQuantifierChar(c: char) {
    '0' <= c <= '9' || c == ','
  }

  /**
   * A key whose placeholder, read as a regular expression, matches only
   * itself: no metacharacter, and not digits and commas only (which would
   * turn `{{12}}` into a repetition of `{`).
   */
  predicate IsLiteralKey(key: string) {
    && (forall i :: 0 <= i < |key| ==> !IsRegexMeta(key[i]))
    && (exists i :: 0 <= i < |key| && !IsQuantifierChar(key[i]))
  }

  /** Parameters whose replacement is literal: plain keys, and values free of `$` patterns. */
  predicate LiteralParameters(parameters: seq<(string, Scalar)>) {
    forall i :: 0 <= i < |parameters| ==>
      IsLiteralKey(parameters[i].0) && '$' !in ScalarToString(parameters[i].1)
  }

  /** The parameters' placeholders, replaced one parameter at a time in entry order. */
  function RenderParameters(text: string, parameters: seq<(string, Scalar)>): string {
    if parameters == [] then text
    else
      var (key, value) := parameters[|parameters| - 1];
      ReplaceAll(RenderParameters(text, parameters[..|parameters| - 1]), Placeholder(key), ScalarToString(value))
  }

  /** `processTemplate`: `{{cwd}}` first, then every parameter. */
  function Render(template: string, cwd: string, parameters: seq<(string, Scalar)>): string {
    RenderParameters(ReplaceAll(template, "{{cwd}}", cwd), parameters)
  }

  /** No `{{cwd}}` starts inside a placeholder for another key. */
  lemma PlaceholderHasNoCwd(key: string, rest: string)
    requires key != "cwd" && '{' !in key && '}' !in key
    ensures forall j :: 0 <= j < |Placeholder(key)| ==> !At(Placeholder(key) + rest, "{{cwd}}", j)
  {
    var pat := "{{cwd}}";
    var u := key + "}}";
    var t := Placeholder(key) + rest;
    assert t == "{{" + u + rest;
    forall j | 0 <= j < |Placeholder(key)|
      ensures !At(t, pat, j)
    {
      if j + 7 <= |t| {
        var w := t[j..j + 7];
        if j == 0 {
          if |key| < 3 {
            assert w[2 + |key|] == u[|key|] == '}';
          } else if |key| == 3 {
            assert w[2..5] == key;
          } else {
            assert w[5] == key[3];
          }
        } else if j == 1 {
          assert w[1] == t[2] == u[0];
          assert u[0] in u;
        } else {
          assert w[0] == t[j] == u[j - 2];
          assert u[j - 2] in u;
        }
      }
    }
  }

  /**
   * A placeholder other than `{{cwd}}` is not touched by the `{{cwd}}`
   * replacement, which continues behind it.
   */
  lemma PlaceholderKeepsCwd(key: string, rest: string, cwd: string)
    requires key != "cwd" && '{' !in key && '}' !in key
    ensures ReplaceAll(Placeholder(key) + rest, "{{cwd}}", cwd) == Placeholder(key) + ReplaceAll(rest, "{{cwd}}", cwd)
  {
    PlaceholderHasNoCwd(key, rest);
    ReplaceAllPrefix(Placeholder(key), rest, "{{cwd}}", cwd);
  }

  /** `{{cwd}}` in a template without other braces is replaced by the working directory. */
  lemma RenderCwd(a: string, b: string, cwd: string)
    requires '{' !in a && '{' !in b
    ensures Render(a + "{{cwd}}" + b, cwd, []) == a + cwd + b
  {
    ReplaceAllOnce(a, b, "{{cwd}}", cwd);
  }

  /**
   * A template with one parameter placeholder and one `{{cwd}}`, and no
   * other braces, renders with the parameter's value and the working
   * directory in their places.
   */
  lemma RenderOneParameter(a: string, key: string, b: string, c: string, cwd: string, value: Scalar)
    requires '{' !in a && '{' !in b && '{' !in c && '{' !in cwd
    requires key != "cwd" && '{' !in key && '}' !in key
    ensures Render(a + Placeholder(key) + b + "{{cwd}}" + c, cwd, [(key, value)])
         == a + ScalarToString(value) + b + cwd + c
  {
    var pat, p, v := "{{cwd}}", Placeholder(key), ScalarToString(value);
    var template := a + p + b + pat + c;
    var tail := b + cwd + c;
    calc {
      ReplaceAll(template, pat, cwd);
      { assert template == a + (p + (b + pat + c)); }
      ReplaceAll(a + (p + (b + pat + c)), pat, cwd);
      { ReplaceAllSkips(a, p + (b + pat + c), pat, cwd); }
      a + ReplaceAll(p + (b + pat + c), pat, cwd);
      { PlaceholderKeepsCwd(key, b + pat + c, cwd); }
      a + (p + ReplaceAll(b + pat + c, pat, cwd));
      { ReplaceAllOnce(b, c, pat, cwd); }
      a + (p + tail);
      a + p + tail;
    }
    calc {
      Render(template, cwd, [(key, value)]);
      RenderParameters(ReplaceAll(template, pat, cwd), [(key, value)]);
      { assert [(key, value)][..0] == []; }
      ReplaceAll(RenderParameters(ReplaceAll(template, pat, cwd), []), p, v);
      ReplaceAll(ReplaceAll(template, pat, cwd), p, v);
      ReplaceAll(a + p + tail, p, v);
      { assert p[0] == '{' && '{' !in tail; ReplaceAllOnce(a, tail, p, v); }
      a + v + tail;
    }
  }

  /** The template from the tool documentation: "build {{target}} in {{cwd}}". */
  lemma RenderBuildExample()
    ensures Render("build {{target}} in {{cwd}}", "/tmp", [("target", Str("app"))]) == "build app in /tmp"
  {
    var template := "build " + Placeholder("target") + " in " + "{{cwd}}" + "";
    calc {
      Render("build {{target}} in {{cwd}}", "/tmp", [("target", Str("app"))]);
      { BuildTemplateParts(); }
      Render(template, "/tmp", [("target", Str("app"))]);
      { RenderOneParameter("build ", "target", " in ", "", "/tmp", Str("app")); }
      "build " + ScalarToString(Str("app")) + " in " + "/tmp" + "";
      "build app in /tmp";
    }
  }

  /** The documented template, cut at its placeholders. */
  lemma BuildTemplateParts()
    ensures "build {{target}} in {{cwd}}" == "build " + Placeholder("target") + " in " + "{{cwd}}" + ""
  {
  }

  // ---------------------------------------------------------------------------
  // handleSpecialCases and the tail of the raw output
  // ---------------------------------------------------------------------------

  /** `handleSpecialCases`: a timeout that the tool asks to treat as a warning. */
  function HandleSpecialCases(tool: ToolDefinition, state: ProcessState): (special: bool)
    ensures special <==> (
      && tool.specialHandling.Some?
      && tool.specialHandling.value.timeoutAsWarning == Some(true)
      && (state == TimeoutInactive || state == TimeoutTotal))
  {
    match tool.specialHandling
    case None => false
    case Some(handling) => handling.timeoutAsWarning == Some(true) && state.IsTimeout()
  }

  /** `.filter((line) => line.trim() !== "")`: the lines that are not blank, untrimmed. */
  function NonBlank(lines: seq<string>): (r: seq<string>)
    ensures |r| <= |lines|
    ensures forall i :: 0 <= i < |r| ==> Trim(r[i]) != []
  {
    if lines == [] then []
    else (if Trim(lines[0]) != [] then [lines[0]] else []) + NonBlank(lines[1..])
  }

  /** The non-blank lines of the normalised output. */
  function OutputLines(fullOutput: string): seq<string> {
    NonBlank(Lines(fullOutput))
  }

  /**
   * `logLines ? lines.slice(-logLines) : lines.slice(-10)`, where `logLines`
   * is the parsed number or `NaN` (`None`); `NaN` and 0 are falsy.
   */
  function TailLines(lines: seq<string>, logLines: Option<int>): (r: seq<string>)
    ensures |r| <= |lines| && r == lines[|lines| - |r|..]
  {
    match logLines
    case Some(n) => if n != 0 then SliceFrom(lines, -n) else SliceFrom(lines, -10)
    case None => SliceFrom(lines, -10)
  }

  /** The `logLines` option of the tool, rendered and parsed, when it is a non-empty string. */
  function LogLines(tool: ToolDefinition, cwd: string, parameters: seq<(string, Scalar)>): Option<int> {
    match tool.outputProcessing.logLines
    case Some(text) => if text != "" then ParseInt(Render(text, cwd, parameters)) else None
    case None => None
  }

  // ---------------------------------------------------------------------------
  // The formatted response
  // ---------------------------------------------------------------------------

  const ErrorsHeader: string := "=== ERRORS ==="
  const WarningsHeader: string := "=== WARNINGS ==="
  const NoDetails: string := "Operation failed with no specific error details"

  /** `lines` followed by `more`, with a blank line between them when `lines` is not empty. */
  function Separated(lines: seq<string>, more: seq<string>): seq<string> {
    lines + (if |lines| > 0 then [""] else []) + more
  }

  /** The error section, when there are errors. */
  function ErrorSection(logs: ExtractionResult): seq<string> {
    if |logs.errors| > 0 then [ErrorsHeader] + logs.errors else []
  }

  /** The error section and then the warning section, when there are warnings. */
  function LogSections(logs: ExtractionResult): seq<string> {
    var errors := ErrorSection(logs);
    if |logs.warnings| > 0 then Separated(errors, [WarningsHeader] + logs.warnings) else errors
  }

  /**
   * The lines `createFormattedOutput` collects: the sections, and the tail
   * of the raw output when the run failed without extracted errors.
   */
  function FormattedText(logs: ExtractionResult, outputLines: seq<string>, isError: bool, logLines: Option<int>): seq<string> {
    var sections := LogSections(logs);
    if isError && |logs.errors| == 0 then Separated(sections, TailLines(outputLines, logLines))
    else sections
  }

  /** `determineFormattedOutput`. */
  function DetermineFormattedOutput(format: ResultFormat, logs: ExtractionResult, isError: bool, text: seq<string>): string {
    if |logs.errors| > 0 || isError then
      format.errorMessage + ": " + (if |text| > 0 then Join(text, "\n") else NoDetails)
    else if |text| > 0 then
      format.successMessage + " with WARNING: " + Join(text, "\n")
    else
      format.successMessage
  }

  /** What `determineSimpleOutput` returns. */
  function SimpleOutput(format: ResultFormat, outputLines: seq<string>, logLines: Option<int>, isError: bool,
                        isSpecialCase: bool, errorMessage: Option<string>): string
  {
    var start := if isError then format.errorMessage else format.successMessage;
    var tail := TailLines(outputLines, logLines);
    var withTail := if (isError || isSpecialCase) && |tail| > 0 then start + ": " + Join(tail, "\n") else start;
    match errorMessage
    case Some(message) => if message != "" then withTail + "\n\nERROR: " + message else withTail
    case None => withTail
  }

  /** The response to a finished process, as `execute` builds it after `executeProcess` resolves. */
  function Respond(tool: ToolDefinition, cwd: string, parameters: seq<(string, Scalar)>, result: ProcessResult,
                   matches: (string, string) -> bool): ToolResult
    requires tool.outputProcessing.formatOutput ==> tool.outputProcessing.extractor.patterns.Some?
  {
    if result.error.Some? && result.error.value != "" then ToolResult(result.error.value, true)
    else
      var isError := result.state != Normal;
      var special := HandleSpecialCases(tool, result.state);
      if tool.outputProcessing.formatOutput then
        var logs := ExtractSpec(result.output, tool.outputProcessing.extractor.patterns.value, matches);
        var text := FormattedText(logs, OutputLines(result.output), isError || special, LogLines(tool, cwd, parameters));
        ToolResult(DetermineFormattedOutput(tool.resultFormat, logs, isError || special, text), isError && !special)
      else
        ToolResult(SimpleOutput(tool.resultFormat, OutputLines(result.output), LogLines(tool, cwd, []), isError, special, result.error), isError && !special)
  }

  // ---------------------------------------------------------------------------
  // The executor
  // ---------------------------------------------------------------------------

  class ToolExecutor {
    const config: ToolDefinition
    const cwd: string

    constructor(config: ToolDefinition, cwd: string)
      ensures this.config == config && this.cwd == cwd
    {
      this.config := config;
      this.cwd := cwd;
    }

    /** `processTemplate`, for parameters whose replacement is literal. */
    method ProcessTemplate(template: string, parameters: seq<(string, Scalar)>) returns (result: string)
      requires '$' !in cwd && LiteralParameters(parameters)
      ensures result == Render(template, cwd, parameters)
    {
      result := template;
      result := ReplaceAll(result, "{{cwd}}", cwd);
      ghost var start := result;
      for i := 0 to |parameters|
        invariant result == RenderParameters(start, parameters[..i])
      {
        assert parameters[..i + 1][..i] == parameters[..i];
        var (key, value) := parameters[i];
        result := ReplaceAll(result, Placeholder(key), ScalarToString(value));
      }
      assert parameters[..|parameters|] == parameters;
    }

    /** `createFormattedOutput`: collects the lines, then words the response. */
    method CreateFormattedOutput(logs: ExtractionResult, fullOutput: string, isError: bool,
                                 parameters: seq<(string, Scalar)>) returns (output: string)
      requires '$' !in cwd && LiteralParameters(parameters)
      ensures output == DetermineFormattedOutput(config.resultFormat, logs, isError,
                          FormattedText(logs, OutputLines(fullOutput), isError, LogLines(config, cwd, parameters)))
    {
      var resultText: seq<string> := [];
      if |logs.errors| > 0 {
        resultText := resultText + [ErrorsHeader];
        resultText := resultText + logs.errors;
      }
      if |logs.warnings| > 0 {
        if |resultText| > 0 {
          resultText := resultText + [""];
        }
        resultText := resultText + [WarningsHeader];
        resultText := resultText + logs.warnings;
      }
      assert resultText == LogSections(logs);

      var logLines := ConfiguredLogLines(parameters);

      if isError && |logs.errors| == 0 {
        var outputLines := OutputLines(fullOutput);
        var lastLines := TailLines(outputLines, logLines);
        if |resultText| > 0 {
          resultText := resultText + [""];
        }
        resultText := resultText + lastLines;
      }
      output := DetermineFormattedOutput(config.resultFormat, logs, isError, resultText);
    }

    /** The `logLines` option, rendered with `processTemplate` and read with `parseInt`, when it is set. */
    method ConfiguredLogLines(parameters: seq<(string, Scalar)>) returns (logLines: Option<int>)
      requires '$' !in cwd && LiteralParameters(parameters)
      ensures logLines == LogLines(config, cwd, parameters)
    {
      logLines := None;
      if config.outputProcessing.logLines.Some? && config.outputProcessing.logLines.value != "" {
        var rendered := ProcessTemplate(config.outputProcessing.logLines.value, parameters);
        logLines := ParseInt(rendered);
      }
    }

    /** `determineSimpleOutput`: the leading message, the tail and the process error, appended in turn. */
    method DetermineSimpleOutput(fullOutput: string, isError: bool, isSpecialCase: bool, errorMessage: Option<string>)
      returns (outputText: string)
      requires '$' !in cwd
      ensures outputText == SimpleOutput(config.resultFormat, OutputLines(fullOutput), LogLines(config, cwd, []),
                                         isError, isSpecialCase, errorMessage)
    {
      var outputLines := OutputLines(fullOutput);
      outputText := if isError then config.resultFormat.errorMessage else config.resultFormat.successMessage;
      if isError || isSpecialCase {
        var logLines := ConfiguredLogLines([]);
        var lastLines := TailLines(outputLines, logLines);
        if |lastLines| > 0 {
          outputText := outputText + ": " + Join(lastLines, "\n");
        }
      }
      if errorMessage.Some? && errorMessage.value != "" {
        outputText := outputText + "\n\nERROR: " + errorMessage.value;
      }
    }

    /**
     * `execute`: `run` stands for `executeProcess` with this tool's stream
     * flag and timeouts, called on the rendered command and working
     * directory; `matches` for the extractor's pattern test.
     */
    method Execute(parameters: seq<(string, Scalar)>, run: (string, string) -> ProcessResult,
                   matches: (string, string) -> bool) returns (response: ToolResult)
      requires '$' !in cwd && LiteralParameters(parameters)
      requires config.outputProcessing.formatOutput ==> config.outputProcessing.extractor.patterns.Some?
      ensures response == Respond(config, cwd, parameters,
                                  run(Render(config.command, cwd, parameters), Render(config.cwd, cwd, parameters)),
                                  matches)
    {
      var processedCommand := ProcessTemplate(config.command, parameters);
      var processedCwd := ProcessTemplate(config.cwd, parameters);
      var result := run(processedCommand, processedCwd);

      if result.error.Some? && result.error.value != "" {
        return ToolResult(result.error.value, true);
      }

      var fullOutput := result.output;
      var isError := result.state != Normal;
      var isSpecialCase := HandleSpecialCases(config, result.state);

      if config.outputProcessing.formatOutput {
        var extractor := new OutputExtractor(config.outputProcessing);
        var extractedLogs := extractor.Extract(fullOutput, matches);
        var output := CreateFormattedOutput(extractedLogs, fullOutput, isError || isSpecialCase, parameters);
        return ToolResult(output, isError && !isSpecialCase);
      }

      var output := DetermineSimpleOutput(fullOutput, isError, isSpecialCase, result.error);
      return ToolResult(output, isError && !isSpecialCase);
    }
  }

  // ---------------------------------------------------------------------------
  // What the executor promises
  // ---------------------------------------------------------------------------

  /** Text with no `{{` has no placeholder, and every replacement leaves it as it is. */
  lemma {:induction false} RenderParametersIdentity(text: string, parameters: seq<(string, Scalar)>)
    requires !Occurs(text, "{{")
    ensures RenderParameters(text, parameters) == text
  {
    if parameters != [] {
      var (key, value) := parameters[|parameters| - 1];
      RenderParametersIdentity(text, parameters[..|parameters| - 1]);
      OccursPrefix(text, Placeholder(key), 2);
    }
  }

  /** A template without placeholders is returned unchanged. */
  lemma RenderWithoutPlaceholders(template: string, cwd: string, parameters: seq<(string, Scalar)>)
    requires !Occurs(template, "{{")
    ensures Render(template, cwd, parameters) == template
  {
    OccursPrefix(template, "{{cwd}}", 2);
    assert "{{cwd}}"[..2] == "{{";
    RenderParametersIdentity(template, parameters);
  }

  /**
   * How many lines the tail keeps: the last `n` for a positive `n`, the last
   * ten when `logLines` is `NaN` or 0, and, for a negative `n`, every line
   * but the first `-n`.
   */
  lemma TailLinesCount(lines: seq<string>, logLines: Option<int>)
    ensures logLines.Some? && logLines.value > 0 ==>
      var n := logLines.value;
      TailLines(lines, logLines) == lines[|lines| - (if n < |lines| then n else |lines|)..]
    ensures logLines == None || logLines == Some(0) ==>
      TailLines(lines, logLines) == lines[|lines| - (if 10 < |lines| then 10 else |lines|)..]
    ensures logLines.Some? && logLines.value < 0 ==>
      var n := -logLines.value;
      TailLines(lines, logLines) == lines[(if n < |lines| then n else |lines|)..]
  {
  }

  /** The tail keeps lines of its input only, so non-blank lines give a non-blank tail. */
  lemma TailLinesNonBlank(lines: seq<string>, logLines: Option<int>)
    requires forall i :: 0 <= i < |lines| ==> Trim(lines[i]) != []
    ensures forall i :: 0 <= i < |TailLines(lines, logLines)| ==> Trim(TailLines(lines, logLines)[i]) != []
  {
    var tail := TailLines(lines, logLines);
    var k := |lines| - |tail|;
    assert tail == lines[k..];
    forall i | 0 <= i < |tail|
      ensures Trim(tail[i]) != []
    {
      assert tail[i] == lines[k + i];
    }
  }

  /**
   * The sections come in order: the errors under their header, a blank line
   * only where something precedes it, then the warnings under theirs.
   */
  lemma LogSectionsLayout(logs: ExtractionResult)
    ensures |logs.errors| > 0 ==>
      LogSections(logs)[..1 + |logs.errors|] == [ErrorsHeader] + logs.errors
    ensures |logs.errors| > 0 && |logs.warnings| > 0 ==>
      LogSections(logs)[1 + |logs.errors|..] == ["", WarningsHeader] + logs.warnings
    ensures |logs.errors| == 0 ==>
      LogSections(logs) == (if |logs.warnings| > 0 then [WarningsHeader] + logs.warnings else [])
    ensures |LogSections(logs)|
         == (if |logs.errors| > 0 then 1 + |logs.errors| else 0)
          + (if |logs.warnings| > 0 then (if |logs.errors| > 0 then 2 else 1) + |logs.warnings| else 0)
  {
    var errors := ErrorSection(logs);
    if |logs.warnings| > 0 {
      assert LogSections(logs) == errors + (if |errors| > 0 then [""] else []) + ([WarningsHeader] + logs.warnings);
      if |logs.errors| > 0 {
        assert LogSections(logs)[..1 + |logs.errors|] == errors;
      }
    }
  }

  /**
   * The tail of the raw output is added only when the run counts as failed
   * and no error line was extracted, and then it ends the text.
   */
  lemma FormattedTextTail(logs: ExtractionResult, outputLines: seq<string>, isError: bool, logLines: Option<int>)
    ensures !(isError && |logs.errors| == 0) ==> FormattedText(logs, outputLines, isError, logLines) == LogSections(logs)
    ensures isError && |logs.errors| == 0 ==>
      var text := FormattedText(logs, outputLines, isError, logLines);
      var tail := TailLines(outputLines, logLines);
      |text| >= |tail| && text[|text| - |tail|..] == tail
  {
  }

  /** The collected text never opens with a blank line when no extracted or tail line is empty. */
  lemma FormattedTextNoLeadingBlank(logs: ExtractionResult, outputLines: seq<string>, isError: bool, logLines: Option<int>)
    requires forall i :: 0 <= i < |logs.errors| ==> logs.errors[i] != ""
    requires forall i :: 0 <= i < |logs.warnings| ==> logs.warnings[i] != ""
    requires forall i :: 0 <= i < |outputLines| ==> Trim(outputLines[i]) != []
    ensures var text := FormattedText(logs, outputLines, isError, logLines);
      text == [] || text[0] != ""
  {
    var text := FormattedText(logs, outputLines, isError, logLines);
    var sections := LogSections(logs);
    LogSectionsLayout(logs);
    if sections == [] && isError && |logs.errors| == 0 {
      var tail := TailLines(outputLines, logLines);
      TailLinesNonBlank(outputLines, logLines);
      assert text == tail;
      if tail != [] {
        assert Trim(tail[0]) != [];
      }
    } else if sections != [] {
      assert text[0] == sections[0];
    }
  }

  /**
   * `determineFormattedOutput`: a failure (extracted errors or the error
   * flag) is worded with the error message and never with the success
   * message's warning form; otherwise any text makes it a success with
   * warnings, and no text leaves the bare success message.
   */
  lemma DetermineFormattedOutputCases(format: ResultFormat, logs: ExtractionResult, isError: bool, text: seq<string>)
    ensures |logs.errors| > 0 || isError ==>
      var prefix := format.errorMessage + ": ";
      var out := DetermineFormattedOutput(format, logs, isError, text);
      |out| >= |prefix| && out[..|prefix|] == prefix
      && (text == [] ==> out == prefix + NoDetails)
      && (text != [] ==> out == prefix + Join(text, "\n"))
    ensures !(|logs.errors| > 0 || isError) && text != [] ==>
      var prefix := format.successMessage + " with WARNING: ";
      var out := DetermineFormattedOutput(format, logs, isError, text);
      |out| >= |prefix| && out[..|prefix|] == prefix
      && out == prefix + Join(text, "\n")
    ensures !(|logs.errors| > 0 || isError) && text == [] ==>
      DetermineFormattedOutput(format, logs, isError, text) == format.successMessage
  {
    var out := DetermineFormattedOutput(format, logs, isError, text);
    if |logs.errors| > 0 || isError {
      var prefix := format.errorMessage + ": ";
      assert out == prefix + (if |text| > 0 then Join(text, "\n") else NoDetails);
    } else if text != [] {
      var prefix := format.successMessage + " with WARNING: ";
      assert out == prefix + Join(text, "\n");
    }
  }

  /**
   * `determineSimpleOutput` starts with the error message exactly when the
   * run failed; the tail is appended only for a failure or a special case;
   * a process error message, when given, ends the text.
   */
  lemma SimpleOutputShape(format: ResultFormat, outputLines: seq<string>, logLines: Option<int>, isError: bool,
                          isSpecialCase: bool, errorMessage: Option<string>)
    ensures var start := if isError then format.errorMessage else format.successMessage;
      var out := SimpleOutput(format, outputLines, logLines, isError, isSpecialCase, errorMessage);
      |out| >= |start| && out[..|start|] == start
    ensures !isError && !isSpecialCase && (errorMessage == None || errorMessage == Some("")) ==>
      SimpleOutput(format, outputLines, logLines, isError, isSpecialCase, errorMessage) == format.successMessage
    ensures errorMessage.Some? && errorMessage.value != "" ==>
      var suffix := "\n\nERROR: " + errorMessage.value;
      var out := SimpleOutput(format, outputLines, logLines, isError, isSpecialCase, errorMessage);
      |out| >= |suffix| && out[|out| - |suffix|..] == suffix
  {
    var start := if isError then format.errorMessage else format.successMessage;
    var tail := TailLines(outputLines, logLines);
    var withTail := if (isError || isSpecialCase) && |tail| > 0 then start + ": " + Join(tail, "\n") else start;
    assert |withTail| >= |start| && withTail[..|start|] == start;
    ErrorMessageAppended(withTail, start, errorMessage);
  }

  /**
   * Without a process error message, `determineSimpleOutput` is the leading
   * message followed by `": "` and the joined tail exactly when the run
   * failed or is a special case and the tail is not empty.
   */
  lemma SimpleOutputTail(format: ResultFormat, outputLines: seq<string>, logLines: Option<int>, isError: bool,
                         isSpecialCase: bool)
    ensures var start := if isError then format.errorMessage else format.successMessage;
      var tail := TailLines(outputLines, logLines);
      var out := SimpleOutput(format, outputLines, logLines, isError, isSpecialCase, None);
      && ((isError || isSpecialCase) && tail != [] ==> out == start + ": " + Join(tail, "\n"))
      && (!((isError || isSpecialCase) && tail != []) ==> out == start)
  {
  }

  /** An empty process error message adds nothing; any other is appended after a blank line and `ERROR: `. */
  lemma SimpleOutputMessage(format: ResultFormat, outputLines: seq<string>, logLines: Option<int>, isError: bool,
                            isSpecialCase: bool, message: string)
    ensures message == "" ==>
      SimpleOutput(format, outputLines, logLines, isError, isSpecialCase, Some(message))
        == SimpleOutput(format, outputLines, logLines, isError, isSpecialCase, None)
    ensures message != "" ==>
      SimpleOutput(format, outputLines, logLines, isError, isSpecialCase, Some(message))
        == SimpleOutput(format, outputLines, logLines, isError, isSpecialCase, None) + "\n\nERROR: " + message
  {
  }

  /** What the process error message, when there is one, appends to the text before it. */
  lemma ErrorMessageAppended(withTail: string, start: string, errorMessage: Option<string>)
    requires |withTail| >= |start| && withTail[..|start|] == start
    ensures var out := match errorMessage
              case Some(message) => if message != "" then withTail + "\n\nERROR: " + message else withTail
              case None => withTail;
      && |out| >= |start| && out[..|start|] == start
      && (errorMessage.Some? && errorMessage.value != "" ==>
            var suffix := "\n\nERROR: " + errorMessage.value;
            |out| >= |suffix| && out[|out| - |suffix|..] == suffix)
      && (errorMessage == None || errorMessage == Some("") ==> out == withTail)
  {
    if errorMessage.Some? && errorMessage.value != "" {
      var suffix := "\n\nERROR: " + errorMessage.value;
      var out := withTail + "\n\nERROR: " + errorMessage.value;
      assert out == withTail + suffix;
      assert out[..|start|] == withTail[..|start|];
      assert out[|out| - |suffix|..] == suffix;
    }
  }

  /** A result that carries an error message is answered with that message alone, as a failure. */
  lemma RespondErrorFirst(tool: ToolDefinition, cwd: string, parameters: seq<(string, Scalar)>, result: ProcessResult,
                          matches: (string, string) -> bool)
    requires tool.outputProcessing.formatOutput ==> tool.outputProcessing.extractor.patterns.Some?
    requires result.error.Some? && result.error.value != ""
    ensures Respond(tool, cwd, parameters, result, matches) == ToolResult(result.error.value, true)
  {
  }

  /**
   * For every result the process supervisor can produce: a clean exit is
   * never a failure, a non-zero exit is a failure, and a timeout is always a
   * failure answered with its kill message, whatever `timeoutAsWarning` says.
   */
  lemma RespondFlag(tool: ToolDefinition, cwd: string, parameters: seq<(string, Scalar)>, result: ProcessResult,
                    matches: (string, string) -> bool)
    requires tool.outputProcessing.formatOutput ==> tool.outputProcessing.extractor.patterns.Some?
    requires Settled(result)
    ensures Respond(tool, cwd, parameters, result, matches).isError <==> result.state != Normal
    ensures result.state.IsTimeout() ==>
      Respond(tool, cwd, parameters, result, matches) == ToolResult(result.error.value, true)
    ensures !result.state.IsTimeout() ==> !HandleSpecialCases(tool, result.state)
  {
    assert InactivityMessage != "" && TotalTimeoutMessage != "";
  }

  /**
   * With output formatting on, a supervised run that exits 0 and yields no
   * error or warning line answers with the bare success message.
   */
  lemma RespondCleanRun(tool: ToolDefinition, cwd: string, parameters: seq<(string, Scalar)>, result: ProcessResult,
                        matches: (string, string) -> bool)
    requires tool.outputProcessing.formatOutput && tool.outputProcessing.extractor.patterns.Some?
    requires Settled(result) && result.state == Normal
    requires ExtractSpec(result.output, tool.outputProcessing.extractor.patterns.value, matches) == ExtractionResult([], [])
    ensures Respond(tool, cwd, parameters, result, matches) == ToolResult(tool.resultFormat.successMessage, false)
  {
    RespondFormatted(tool, cwd, parameters, result, matches, ExtractionResult([], []), OutputLines(result.output));
    CleanText(tool.resultFormat, OutputLines(result.output), LogLines(tool, cwd, parameters));
  }

  lemma CleanText(format: ResultFormat, outputLines: seq<string>, logLines: Option<int>)
    ensures var logs := ExtractionResult([], []);
      DetermineFormattedOutput(format, logs, false, FormattedText(logs, outputLines, false, logLines)) == format.successMessage
  {
    assert LogSections(ExtractionResult([], [])) == [];
  }

  /**
   * A run that fails with nothing but white space on its output answers
   * with the error message and the fixed no-details text.
   */
  lemma RespondSilentFailure(tool: ToolDefinition, cwd: string, parameters: seq<(string, Scalar)>, result: ProcessResult,
                             matches: (string, string) -> bool)
    requires tool.outputProcessing.formatOutput && tool.outputProcessing.extractor.patterns.Some?
    requires Settled(result) && result.state == Fail && AllWhitespace(result.output)
    ensures Respond(tool, cwd, parameters, result, matches)
         == ToolResult(tool.resultFormat.errorMessage + ": " + NoDetails, true)
  {
    ExtractBlankOutput(result.output, tool.outputProcessing.extractor.patterns.value, matches);
    BlankOutputHasNoLines(result.output);
    RespondFormatted(tool, cwd, parameters, result, matches, ExtractionResult([], []), []);
    SilentText(tool.resultFormat, LogLines(tool, cwd, parameters));
  }

  /**
   * With output formatting on, a failed run from which nothing was
   * extracted answers with the error message and the last lines of its
   * output, or the no-details text when there are none, as a failure.
   */
  lemma RespondFailureTail(tool: ToolDefinition, cwd: string, parameters: seq<(string, Scalar)>, result: ProcessResult,
                           matches: (string, string) -> bool)
    requires tool.outputProcessing.formatOutput && tool.outputProcessing.extractor.patterns.Some?
    requires Settled(result) && result.state == Fail
    requires ExtractSpec(result.output, tool.outputProcessing.extractor.patterns.value, matches) == ExtractionResult([], [])
    ensures var tail := TailLines(OutputLines(result.output), LogLines(tool, cwd, parameters));
      Respond(tool, cwd, parameters, result, matches)
        == ToolResult(tool.resultFormat.errorMessage + ": " + (if tail == [] then NoDetails else Join(tail, "\n")), true)
  {
    var logs := ExtractionResult([], []);
    var lines := OutputLines(result.output);
    var tail := TailLines(lines, LogLines(tool, cwd, parameters));
    RespondFormatted(tool, cwd, parameters, result, matches, logs, lines);
    assert LogSections(logs) == [];
    assert FormattedText(logs, lines, true, LogLines(tool, cwd, parameters)) == tail;
  }

  /**
   * A run that exits 0 with warnings but no errors extracted is a success
   * "with WARNING" that lists the warnings under their header.
   */
  lemma RespondWarningsOnly(tool: ToolDefinition, cwd: string, parameters: seq<(string, Scalar)>, result: ProcessResult,
                            matches: (string, string) -> bool, logs: ExtractionResult)
    requires tool.outputProcessing.formatOutput && tool.outputProcessing.extractor.patterns.Some?
    requires Settled(result) && result.state == Normal
    requires logs == ExtractSpec(result.output, tool.outputProcessing.extractor.patterns.value, matches)
    requires logs.errors == [] && logs.warnings != []
    ensures Respond(tool, cwd, parameters, result, matches)
         == ToolResult(tool.resultFormat.successMessage + " with WARNING: " + Join([WarningsHeader] + logs.warnings, "\n"), false)
  {
    RespondFormatted(tool, cwd, parameters, result, matches, logs, OutputLines(result.output));
    WarningsOnlyText(tool.resultFormat, logs, OutputLines(result.output), LogLines(tool, cwd, parameters));
  }

  lemma WarningsOnlyText(format: ResultFormat, logs: ExtractionResult, outputLines: seq<string>, logLines: Option<int>)
    requires logs.errors == [] && logs.warnings != []
    ensures DetermineFormattedOutput(format, logs, false, FormattedText(logs, outputLines, false, logLines))
         == format.successMessage + " with WARNING: " + Join([WarningsHeader] + logs.warnings, "\n")
  {
    assert ErrorSection(logs) == [];
    assert LogSections(logs) == [WarningsHeader] + logs.warnings;
  }

  /**
   * Extracted errors word the answer as a failure report, headed by the
   * error section, even when the command exited 0; `isError` still follows
   * the exit state alone.
   */
  lemma RespondExtractedErrors(tool: ToolDefinition, cwd: string, parameters: seq<(string, Scalar)>, result: ProcessResult,
                               matches: (string, string) -> bool, logs: ExtractionResult)
    requires tool.outputProcessing.formatOutput && tool.outputProcessing.extractor.patterns.Some?
    requires Settled(result) && (result.state == Normal || result.state == Fail)
    requires logs == ExtractSpec(result.output, tool.outputProcessing.extractor.patterns.value, matches)
    requires logs.errors != []
    ensures var prefix := tool.resultFormat.errorMessage + ": " + ErrorsHeader;
      var r := Respond(tool, cwd, parameters, result, matches);
      |r.output| >= |prefix| && r.output[..|prefix|] == prefix && r.isError == (result.state == Fail)
  {
    RespondFormatted(tool, cwd, parameters, result, matches, logs, OutputLines(result.output));
    ErrorsText(tool.resultFormat, logs, OutputLines(result.output), result.state != Normal, LogLines(tool, cwd, parameters));
  }

  lemma ErrorsText(format: ResultFormat, logs: ExtractionResult, outputLines: seq<string>, isError: bool, logLines: Option<int>)
    requires logs.errors != []
    ensures var prefix := format.errorMessage + ": " + ErrorsHeader;
      var out := DetermineFormattedOutput(format, logs, isError, FormattedText(logs, outputLines, isError, logLines));
      |out| >= |prefix| && out[..|prefix|] == prefix
  {
    var text := FormattedText(logs, outputLines, isError, logLines);
    assert text == LogSections(logs);
    assert text[0] == ErrorsHeader;
    JoinStartsWithFirst(text, "\n");
    var joined := Join(text, "\n");
    var out := format.errorMessage + ": " + joined;
    assert joined == ErrorsHeader + joined[|ErrorsHeader|..];
    assert out == format.errorMessage + ": " + ErrorsHeader + joined[|ErrorsHeader|..];
  }

  /** A joined list starts with its first element. */
  lemma JoinStartsWithFirst(parts: seq<string>, sep: string)
    requires parts != []
    ensures |Join(parts, sep)| >= |parts[0]| && Join(parts, sep)[..|parts[0]|] == parts[0]
  {
  }

  /** The formatted branch of `Respond`, with the extracted logs and the output lines named. */
  lemma RespondFormatted(tool: ToolDefinition, cwd: string, parameters: seq<(string, Scalar)>, result: ProcessResult,
                         matches: (string, string) -> bool, logs: ExtractionResult, lines: seq<string>)
    requires tool.outputProcessing.formatOutput && tool.outputProcessing.extractor.patterns.Some?
    requires !(result.error.Some? && result.error.value != "")
    requires logs == ExtractSpec(result.output, tool.outputProcessing.extractor.patterns.value, matches)
    requires lines == OutputLines(result.output)
    ensures var special := HandleSpecialCases(tool, result.state);
      var flag := result.state != Normal || special;
      Respond(tool, cwd, parameters, result, matches)
        == ToolResult(DetermineFormattedOutput(tool.resultFormat, logs, flag,
                        FormattedText(logs, lines, flag, LogLines(tool, cwd, parameters))),
                      result.state != Normal && !special)
  {
  }

  lemma SilentText(format: ResultFormat, logLines: Option<int>)
    ensures var logs := ExtractionResult([], []);
      DetermineFormattedOutput(format, logs, true, FormattedText(logs, [], true, logLines)) == format.errorMessage + ": " + NoDetails
  {
    assert LogSections(ExtractionResult([], [])) == [];
  }

  lemma BlankOutputHasNoLines(output: string)
    requires AllWhitespace(output)
    ensures OutputLines(output) == []
  {
    var normal := ReplaceAll(output, "\r\n", "\n");
    ReplaceAllKeepsWhitespace(output, "\r\n", "\n");
    ReplaceAllKeepsWhitespace(normal, "\r", "\n");
    SplitKeepsWhitespace(NormalizeLineEndings(output), '\n');
    NonBlankOfBlank(Lines(output));
  }

  lemma {:induction false} NonBlankOfBlank(lines: seq<string>)
    requires forall i :: 0 <= i < |lines| ==> AllWhitespace(lines[i])
    ensures NonBlank(lines) == []
  {
    if lines != [] {
      NonBlankOfBlank(lines[1..]);
    }
  }
}

=== FILE: wrappers.dfy ===
/** Failure-compatible wrappers shared by every module of the model. */
module Wrappers {

  /** A value that may be absent: JavaScript's `undefined`, a missing key, `NaN`. */
  datatype Option<+T> = None | Some(value: T)

  /** The value of a computation that may throw `error` instead of returning. */
  datatype Result<+T, +E> = Ok(value: T) | Err(error: E) {
    predicate IsFailure() { Err? }

    function PropagateFailure<U>(): Result<U, E>
      requires Err?
    {
      Err(error)
    }

    function Extract(): T
      requires Ok?
    {
      value
    }
  }

  /** The outcome of a check that either passes or throws `error`. */
  datatype Outcome<+E> = Pass | Thrown(error: E)
}
